=== FILE: README.md ===
# Prepaid water-meter controller, modelled in Dafny

The firmware runs on an ESP32 under MicroPython. It controls a set of prepaid
water meters on an RS-485 line. Each meter is polled over Modbus RTU for its
cumulative volume. Its valve is closed once the volume has reached the target
stored for that meter, and opened below it. The server sells water by sending
a token load over MQTT, which adds litres to a meter's target. It can also
open or close a valve directly. A supervisor loop restarts the device on low
memory, at midnight, when the modem drops, or when the broker stops answering
pings. At boot the device pulls firmware updates over the modem.

The project models that logic, one Dafny module per concern:

- `Crc` (crc.dfy): `calculate_crc`, the CRC-16/MODBUS of Appendix B of the MODBUS over Serial Line Specification and Implementation Guide V1.02 (init 0xFFFF, reflected polynomial 0xA001)
- `Frames` (frames.dfy): `verify_crc`, `build_modbus_request` and the write frame, with the CRC appended low byte first
- `Modbus` (modbus.dfy): the meters' register map, `write_single_register`, and the two ways the drivers accept a volume reply
- `Uart` (uart.dfy): the line as an oracle: `pending[k]` holds the bytes that answer the k-th frame written
- `Storage` (storage.dfy): meter_storage.py: one target file per meter address
- `Meter` (meter.dfy): meter.py: bounded reads and the valve policy that skips a meter it cannot read
- `Simulator` (meter_sim.dfy): meter_sim.py: the simulation switch and the fail-safe policy that closes a valve it cannot judge
- `Voltage` (voltage.dfy): the BCD cell-voltage reading of meter_tests.py and meter_sim.py, as an integer
- `Broker` (broker.dfy): the MQTT topic as an outbox of report values
- `Commands` (commands.dfy): `datacb` of meter_mqtts.py: device identifiers, token loads with five attempts, and valve commands
- `Text` (text.dfy): the string operations the firmware uses: `strip`, `in`, `split`, `replace`, `str` and `int`
- `Ota` (ota.dfy): ota_update.py: the version check, `extract_version`, retried downloads with remove-then-rename, and `run_ota`
- `Supervisor` (supervisor.dfy): `monitor_loop`, `safe_gc` and `check_scheduled_restart` of main.py, as they would run if main.py's import of `read_meter_parameters` from meter.py resolved (see "## Left out")

## How the firmware is represented

- **Classes for state the firmware changes in place.**
  - `Uart.Port` (frames sent, answers pending).
  - `Storage.TargetStore` (target files, whether the flash can be written).
  - `Broker.Outbox` (messages published).
  - `Ota.Flash` (a map from paths to contents).
  - `Ota.Modem` (curl replies pending, URLs requested).

  Each imperative driver function is a method on these classes. Its
  postcondition ties the new state to a function of the old state, and the
  lemmas prove the firmware's promises about that function.
- **Exceptions become outcomes.** A Python exception is an `Outcome.Raised`
  result or a `raised` flag. `machine.reset()` is a terminal outcome.
- **Addresses are truncated into frames.** MicroPython stores an integer into
  a `bytearray` slot without a range check and keeps its low eight bits
  (`Frames.Slot`), so an address outside 0..255 builds a frame for another
  meter (300 goes out as 44, -1 as 255). meter.py then compares the reply's
  first byte with the full address and rejects every answer
  (`Modbus.WrappedAddressUnread`), so such a meter is polled and skipped
  (`Meter.WrappedAddressSkipped`), and a token load for it saves the new
  target and reports one `load_success` (`Commands.LoadWrappedAddress`).
  A valve command for it drives the valve of the meter at the truncated
  address.
- **The copies are one model.** meter.py, meter_sim.py (lines 16-45) and
  meter_tests.py (lines 8-54) hold the same CRC loop, the same `verify_crc`
  comparison and the same frame builders. Each is modelled once, in `Crc` and
  `Frames`, and the table below cites each copy. The copies do differ in two
  places, and both are modelled:
  - meter.py accepts a volume reply only when it is 9 bytes long and echoes
    the polled address. The other two files accept any CRC-valid answer
    (`Modbus.LooseVolume`). One consequence is that a 5-byte Modbus exception
    reply is read as a volume (`Modbus.ExceptionReplyReading`).
  - meter_sim.py writes the BCD conversion without the `& 0x0F` mask on the
    high half. `Voltage.SimRawVoltageAgrees` proves the two forms equal.
- **The two read-failure policies are separate models.** meter.py skips a
  meter it cannot read (`Meter.MonitorTarget`). meter_sim.py closes the valve
  of a meter that has no target or cannot be read (`Simulator.MonitorTarget`).
- **In these places the model follows the code as written, even where names
  or comments might suggest otherwise:**
  - `run_ota` saves the new version even when some files failed to download.
  - A token load adds whatever litres it is given, negative amounts included.
    Only a missing amount or zero is ignored.
  - `extract_version` takes `line.split("=")[1]`, which is the text between the
    first and the second `=`, not everything after the first.
  - A token load reports `load_success` as soon as `monitor_target` returns,
    whether or not the meter answered (`Commands.LoadWithTarget`).

## Model

| member | source | states |
|---|---|---|
| Crc.CalculateCrc | meter.py:38-48 | the nested loops compute CRC-16/MODBUS of the data; the result lies in 0..0xFFFF and is 0xFFFF for empty input; the copies at meter_sim.py:16-26 and meter_tests.py:8-18 are the same loop |
| Crc.AbsorbByte | meter.py:41-47 | one pass of the outer loop (XOR the byte in, eight conditional shifts) is one step of the CRC fold |
| Crc.CrcFromSnoc | meter.py:40-47 | one more byte of input is one more step of the fold over the bytes before it |
| Crc.CrcFromAppend | meter.py:40-47 | the CRC register after `x + y` is the register after `x`, carried on over `y` |
| Crc.ShiftBitLinear | meter.py:42-47 | the inner-loop step is linear over exclusive or: stepping two registers and XORing equals stepping their XOR |
| Crc.ShiftsLinear | meter.py:42-47 | any number of inner-loop steps is linear over exclusive or |
| Crc.ShiftsZero | meter.py:42-47 | the inner-loop steps map a register to zero exactly when it was zero |
| Crc.ShiftsKeepDifference | meter.py:42-47 | two different registers stay different through the eight shifts |
| Crc.AddByteKeepsDifference | meter.py:40-47 | two different registers stay different after absorbing the same byte |
| Crc.AddByteSeparates | meter.py:40-47 | one register absorbing two different bytes ends in two different states |
| Crc.DifferenceSurvives | meter.py:40-47 | two different registers stay different through any common input |
| Crc.SingleByteChangeDetected | meter.py:38-48 | changing exactly one byte of the input changes the CRC |
| Crc.OwnBytesClear | meter.py:65-66 | absorbing a CRC's own low byte, then its high byte (the order the frame appends them), clears the register |
| Crc.Crc16CheckValue | meter.py:38-48 | the CRC of the ASCII digits "123456789" is 0x4B37, the published check value of CRC-16/MODBUS |
| Crc.Crc16 | meter.py:38-48 | defines `calculate_crc`: the register starts at 0xFFFF and absorbs the bytes first to last, each by XOR and eight conditional shifts by 0xA001 |
| Crc.OnlyOwnBytesClear | meter.py:65-66 | only the register's own low and high byte, in that order, clear it |
| Frames.Slot | meter.py:59 | an integer stored into a frame slot keeps its low eight bits; one in 0..255 is stored as itself |
| Frames.SlotWraps | meter.py:59 | integers 256 apart are stored as the same byte |
| Frames.SlotExamples | meter.py:59 | -1 is stored as 0xFF and 300 as 0x2C |
| Frames.VerifyCrc | meter.py:50-54 | defines `verify_crc`: a frame of at least 3 bytes whose last two bytes, low first, equal the CRC of the rest |
| Frames.Word | meter.py:97 | `(hi << 8) \| lo` of two bytes is a 16-bit value |
| Frames.WordValue | meter.py:97 | the register value is `256 * hi + lo` |
| Frames.WordInjective | meter.py:97 | two bytes determine their register value, and the value determines them |
| Frames.WordOfRegister | meter.py:61-64 | the high and low byte written into a frame give back the register they were split from |
| Frames.JoinSplit | meter.py:53 | `frame[-2] \| (frame[-1] << 8)` of a CRC's low and high byte is that CRC |
| Frames.SplitJoin | meter.py:66 | the low and high byte of a joined CRC are the bytes it was joined from |
| Frames.VerifyCrcComparesIntegers | meter.py:50-54 | comparing the 16-bit registers is the same test as the source's integer comparison of `calculate_crc(frame[:-2])` with the carried CRC |
| Frames.CarriedBytes | meter.py:53 | the carried bytes match a CRC exactly when they are its low and high byte |
| Frames.VerifyCrcIsResidue | meter.py:50-54 | a frame passes exactly when it is at least 3 bytes long and the CRC over the whole frame, CRC included, is zero; shorter frames are rejected; the copies at meter_sim.py:28-32 and meter_tests.py:20-24 are the same test |
| Frames.WithCrc | meter.py:65-66 | appending the CRC adds two bytes and keeps the body as it was |
| Frames.WithCrcVerifies | meter.py:50-67 | every non-empty body with its own CRC appended passes `verify_crc` |
| Frames.VerifiedIsWithCrc | meter.py:50-54 | every frame that passes `verify_crc` is its body followed by the body's CRC |
| Frames.CorruptedFrameRejected | meter.py:50-54 | a valid frame corrupted in any single byte fails `verify_crc` |
| Frames.BuildRequest | meter.py:57-67 | a request is exactly 8 bytes long |
| Frames.RequestLayout | meter.py:57-67 | a request holds address, function, register high/low, count high/low, then a CRC that passes `verify_crc`; the copies at meter_sim.py:35-45 and meter_tests.py:26-36 build the same frame |
| Frames.BuildWrite | meter.py:71-82 | a write frame is exactly 11 bytes long |
| Frames.WriteLayout | meter.py:71-82 | a write frame is [addr, 0x10, reg hi, reg lo, 0x00, 0x01, 0x02, val hi, val lo, crc lo, crc hi] with a valid CRC; meter_sim.py:70-81 and meter_tests.py:39-50 build the same frame |
| Frames.TwoRegisterReply | meter.py:93-97 | a meter's 9-byte answer to the volume request carries the volume in bytes 3 and 4 and passes `verify_crc` |
| Frames.OneRegisterReply | meter_tests.py:88-92 | a meter's 7-byte answer to the voltage request carries the register in bytes 3 and 4 and passes `verify_crc` |
| Modbus.ValveCode | meter.py:100-106 | the valve register gets 0x0001 for open and 0x0002 for close, and nothing else |
| Modbus.ValveFrame | meter.py:100-106 | a valve command is an 11-byte frame |
| Modbus.ValveFrameLayout | meter_tests.py:100-110 | open writes 0x0001 and close writes 0x0002 to register 0x0060 of the addressed meter, in a frame with a valid CRC |
| Modbus.WriteSingleRegister | meter.py:69-87 | the 11-byte frame, addressed to the address truncated to a byte, is sent, one answer is consumed, and the result is true exactly when an answer of at most 8 bytes arrived and passes `verify_crc`; meter_tests.py:38-54 is the same exchange |
| Modbus.WriteEchoAcknowledged | meter.py:84-87 | a meter's normal echo answer to the write is acknowledged, and the same echo corrupted in any single byte is not |
| Modbus.AcceptVolume | meter.py:95-98 | defines meter.py's acceptance: a 9-byte answer with a valid CRC whose first byte equals the polled address gives `(response[3] << 8) \| response[4]`, anything else None |
| Modbus.AcceptedVolume | meter.py:95-98 | a reading is returned exactly for a 9-byte answer that passes the CRC check and whose first byte is the polled address; it is `response[3]*256 + response[4]`, in 0..65535 |
| Modbus.LooseVolume | meter_sim.py:100-103 | any CRC-valid answer is taken, whatever its length or address; bytes 3 and 4 give the value; a CRC-valid answer shorter than 5 bytes raises; no answer or a bad CRC gives None; meter_tests.py:58-66 accepts answers the same way |
| Modbus.VolumeReplyAccepted | meter.py:93-97 | a meter's reply to the volume request is accepted by every driver, with the volume it carries |
| Modbus.CorruptedVolumeRejected | meter.py:95 | an accepted reply corrupted in any single byte is rejected |
| Modbus.ForeignReplyRejected | meter.py:96 | a valid reply from another meter's address is rejected |
| Modbus.WrappedAddressUnread | meter.py:95-98 | for an address outside 0..255 no answer is ever accepted, since no byte equals it |
| Modbus.StrictImpliesLoose | meter_sim.py:101-102 | whatever meter.py accepts, the loose drivers accept with the same value |
| Modbus.ExceptionReplyReading | meter_sim.py:101-102 | a 5-byte Modbus exception reply is rejected by meter.py, while the loose drivers read its CRC bytes as a volume |
| Uart.Received | meter.py:23-35 | the read after the poll: None when nothing arrived, otherwise a prefix of what arrived, at most the expected length, and all of it up to that length |
| Uart.Port.Exchange | meter.py:92-93 | writing a frame appends it to the frames sent and consumes exactly one pending answer, which is returned as `Received` makes it |
| Broker.Outbox.Publish | meter_mqtts.py:189-192 | publishing appends the report to what was published and changes nothing else |
| Meter.FirstVolume | meter.py:108-114 | a series of reads makes at most `retries` requests |
| Meter.FirstVolumeIsFirstAccepted | meter.py:108-114 | the result is the reading of the first accepted answer, after as many requests as answers examined, every earlier answer having been rejected; None only after `retries` rejected answers |
| Meter.FirstVolumeStep | meter.py:109-113 | an accepted first answer ends the series after one request; a rejected one leaves the series of one fewer retry on the remaining answers |
| Meter.ReadCumulativeFlow | meter.py:89-98 | one volume request to the address truncated to a byte is sent, one answer is consumed, and the reading is what `AcceptVolume` makes of it against the full address |
| Meter.Requests | meter.py:91 | n reads put n volume requests on the line, each to the truncated address |
| Meter.GetValidVolume | meter.py:108-114 | the loop returns the series' reading, sends exactly one volume request per answer examined, and consumes exactly those answers |
| Meter.OpenValve | meter.py:100-102 | sends the open frame (0x0001 to register 0x0060) to the truncated address and consumes one answer, whatever it is |
| Meter.CloseValve | meter.py:104-106 | sends the close frame (0x0002 to register 0x0060) to the truncated address and consumes one answer, whatever it is |
| Meter.Policy | meter.py:136-139 | the valve is closed exactly when the current volume has reached the target, otherwise opened |
| Meter.Command | meter.py:136-139 | a visit puts exactly one valve frame on the line when it issued a command, none otherwise |
| Meter.Decide | meter.py:122-139 | defines the part of the loop body after the reads: no reading skips the meter; otherwise the stored target, or the reading saved as the target, feeds the policy |
| Meter.Enforce | meter.py:120-139 | a visit is always to the meter it was given; it never raises |
| Meter.EnforceIsPolicy | meter.py:121-139 | a visit takes the series' reading; without one the meter is skipped, with no command and no write; otherwise the valve is closed iff volume >= target, a stored target is used and left alone, and without one the reading is saved as the target and used |
| Meter.EnforceKeepsStored | meter.py:123-128 | a visit to a meter that has a stored target writes nothing |
| Meter.WrappedAddressNeverRead | meter.py:108-114 | for an address outside 0..255 the series makes all its reads and returns None |
| Meter.WrappedAddressSkipped | meter.py:116-139 | a meter whose address lies outside 0..255 is polled five times at the truncated address and skipped: no reading, no valve command, the files untouched |
| Meter.ApplyTarget | meter.py:123-139 | after the reads the store and the line change exactly as the decision says: the target is saved when missing, and the policy's valve frame is sent |
| Meter.MonitorAddress | meter.py:121-139 | one loop body makes the visit `Enforce` describes: it sends the visit's requests and valve frame, consumes that many answers, and leaves the files the visit records |
| Meter.Sweep | meter.py:120-139 | defines a pass: the meters are visited in order, each on the answers and the files the earlier visits left |
| Meter.SweepShape | meter.py:120 | a pass visits every address, once and in order |
| Meter.SweepOne | meter_mqtts.py:86 | `monitor_target` over a one-element list is exactly one visit |
| Meter.TrafficAppend | meter.py:120-139 | the frames of two series of visits are the frames of each, one after the other |
| Meter.MonitorTarget | meter.py:116-139 | the loop ends with the pass's files, every frame its visits sent in order, and exactly the answers they consumed removed |
| Meter.ReadMeterParametersUpload | meter.py:141-174 | the same pass as `monitor_target`, which also publishes one telemetry report, with reading and target, for each meter that was read |
| Meter.SweepKeepsOthers | meter.py:120-139 | a pass never changes the target of a meter it does not visit |
| Meter.SweepLeavesTargets | meter.py:125-128 | on a writable flash, with no repeated address, every meter that a pass read ends the pass with a stored target |
| Meter.FirstVisitLeavesTarget | meter.py:125-128 | a first meter that was read keeps a stored target to the end of the pass when it is not visited again |
| Simulator.SimulatedVolumesDistinct | meter_sim.py:50-51 | simulated readings are 1000 + 50 * address, so they are distinct per address, ordered by address and 50 litres apart |
| Simulator.WriteRegister | meter_sim.py:63-85 | in simulation it reports success and leaves the line untouched; otherwise it is the 11-byte write exchange to the truncated address |
| Simulator.OpenValve | meter_sim.py:142-146 | in simulation it reports success without using the line; otherwise it writes 0x0001 to the valve register of the truncated address |
| Simulator.CloseValve | meter_sim.py:149-153 | in simulation it reports success without using the line; otherwise it writes 0x0002 to the valve register of the truncated address |
| Simulator.ReadCumulativeFlow | meter_sim.py:91-103 | in simulation the reading is always 1000 + 50 * address and the line is untouched; otherwise one request to the truncated address is sent and the answer is accepted loosely |
| Simulator.LooseFirstVolume | meter_sim.py:170-178 | at most `retries` requests; None only after all `retries` requests |
| Simulator.LooseFirstVolumeIsFirstTaken | meter_sim.py:170-178 | the series ends at the first answer that is not rejected, and passes on that answer's outcome, a reading or an exception, every earlier answer having been rejected |
| Simulator.LooseStep | meter_sim.py:171-176 | a first answer that is rejected leaves the series of one fewer retry; any other outcome ends it after one request |
| Simulator.GetValidVolume | meter_sim.py:170-178 | in simulation the simulated reading (None when no read is attempted) without using the line; otherwise the series' outcome, sending one request per answer examined |
| Simulator.Wire | meter_sim.py:196-208 | a visit puts on the line exactly as many frames as answers it consumes, and none in simulation |
| Simulator.Observe | meter_sim.py:196 | defines the read of a visit: the simulated volume without using the line, or the series of loose reads |
| Simulator.Judge | meter_sim.py:196-208 | defines the decision for a meter with a target: close when the read failed, the policy on a reading, no command after an exception |
| Simulator.Guard | meter_sim.py:185-208 | a fail-safe visit is to the meter it was given |
| Simulator.GuardIsFailSafe | meter_sim.py:186-208 | the target is the stored one; every visit that does not raise sends exactly one valve command; the valve is opened exactly when a target exists and a reading below it was obtained, and closed otherwise; a meter without a target is closed and not read; only a read raises; in simulation nothing raises and the simulated volume is read |
| Simulator.GuardAddress | meter_sim.py:185-208 | one loop body sends the visit's frames and consumes that many answers |
| Simulator.ReadAndJudge | meter_sim.py:196-208 | after a target is found, the read and the valve command are exactly the judgement's: close when the read failed, the policy on a reading, nothing after an exception |
| Simulator.Watch | meter_sim.py:184-208 | defines a fail-safe pass: the meters in order, each on the answers the earlier visits left, ending at the first visit that raised |
| Simulator.WatchShape | meter_sim.py:185 | the pass stops only at a visit that raised; otherwise every meter is visited; in simulation it never stops |
| Simulator.WatchVisit | meter_sim.py:185 | the k-th visit is to the k-th address, and it raised exactly when it is the last visit of a pass that raised |
| Simulator.WatchStops | meter_sim.py:185 | once the pass has raised, later addresses change nothing |
| Simulator.MonitorTarget | meter_sim.py:184-208 | the fail-safe loop ends with the pass's exception flag, its frames appended to the line, and the answers it left; the store is only read |
| Simulator.Seed | meter_sim.py:254-261 | a seeding visit reads the meter it was given and issues no valve command |
| Simulator.SeedAddress | meter_sim.py:254-261 | one loop body sends the visit's frames and saves the reading, when there is one, as the meter's target |
| Simulator.SeedTurn | meter_sim.py:254-261 | one turn of the loop carries the pass, the line and the files one address further |
| Simulator.SetInitTargetReading | meter_sim.py:253-261 | the loop ends with the pass's exception flag, frames and remaining answers, and with the files after saving each successful reading in order |
| Simulator.Sampling | meter_sim.py:253-261 | defines a seeding pass: the meters in order, each read on the answers the earlier visits left, ending at the first read that raised |
| Simulator.SamplingShape | meter_sim.py:254 | a seeding pass stops only at a visit that raised, and otherwise visits every meter |
| Simulator.SamplingVisit | meter_sim.py:254 | the k-th seeding visit is to the k-th address |
| Simulator.SamplingSimulated | meter_sim.py:92-95 | in simulation, seeding visits every meter, uses no line, and reads each meter's simulated volume |
| Simulator.SeededKeepsUnread | meter_sim.py:256-261 | a meter that no seeding visit read keeps whatever target it had |
| Simulator.SeededStoresLatest | meter_sim.py:256-257 | on a writable flash, a meter's target after seeding is the reading of the last visit that read it |
| Voltage.BcdToDecimal | meter_tests.py:78-82 | the conversion is at most 99 for a valid BCD byte and at most 165 for any byte |
| Voltage.BcdToDecimalValue | meter_tests.py:78-82 | the conversion is `10 * (b / 16) + b % 16` |
| Voltage.BcdEncode | meter_tests.py:78-82 | the reference encoding puts the tens in the high half and the units in the low half, giving a valid BCD byte |
| Voltage.DecodeEncode | meter_tests.py:78-82 | decoding the BCD encoding of 0..99 gives the number back |
| Voltage.EncodeDecode | meter_tests.py:78-82 | every valid BCD byte is the encoding of its decoded value |
| Voltage.BcdInjective | meter_tests.py:78-82 | on valid BCD bytes the conversion is one-to-one, in both directions |
| Voltage.InvalidBcdAliases | meter_tests.py:78-82 | outside BCD the conversion is not one-to-one: 0x0A and 0x10 both read as 10 |
| Voltage.RawVoltage | meter_tests.py:94 | `bcd_to_decimal(msb)*100 + bcd_to_decimal(lsb)` is at most 9999 for valid BCD bytes |
| Voltage.RawVoltageSplit | meter_tests.py:94 | with a valid low byte, the raw value divides back into the two bytes' decimal values |
| Voltage.RawVoltageRoundTrip | meter_tests.py:94 | every value in 0..9999 is the raw voltage of its BCD-encoded bytes |
| Voltage.RawVoltageInjective | meter_tests.py:94 | two pairs of valid BCD bytes with the same raw voltage are the same pair |
| Voltage.SimRawVoltageAgrees | meter_sim.py:134 | meter_sim.py's formula without the mask gives the same value as meter_tests.py's for every pair of bytes |
| Voltage.CellVoltage | meter_tests.py:89-97 | no answer or a bad CRC gives None; a CRC-valid answer shorter than 5 bytes raises; otherwise the value is the raw voltage of bytes 3 and 4 |
| Voltage.VoltageReplyRead | meter_tests.py:84-94 | a meter's voltage reply carrying valid BCD bytes reads as the four-digit value they encode |
| Voltage.CorruptedVoltageRejected | meter_tests.py:89 | a voltage reply corrupted in any single byte reads as None |
| Voltage.ReadCellVoltage | meter_tests.py:84-98 | the one-register request goes out to the truncated address, one answer of at most 7 bytes is consumed, and the result is `CellVoltage` of it |
| Storage.Loaded | meter_storage.py:32-59 | a missing file loads as None, and a value is loaded only from a record holding the address's own key |
| Storage.Saved | meter_storage.py:10-29 | a save adds the address's file when the flash is writable, and otherwise changes nothing |
| Storage.LoadAfterSave | meter_storage.py:10-59 | after a save, a load of the same address returns the saved value |
| Storage.SaveKeepsOthers | meter_storage.py:20 | each address has its own file, so a save never changes what another address loads |
| Storage.FailedSaveChangesNothing | meter_storage.py:28-29 | a save that fails is swallowed and leaves every load as it was |
| Storage.SaveKeepsTarget | meter_storage.py:10-29 | a meter that had a target still has one after a save: the new value, or the old one when the write failed |
| Storage.ForeignKeyIgnored | meter_storage.py:49-55 | a record that lacks the key `str(address)` loads as None, whatever else it holds |
| Storage.TargetStore.SaveTargetReading | meter_storage.py:10-29 | the files become `Saved` of the old files; whether the flash can be written is unchanged |
| Storage.TargetStore.LoadTargetReading | meter_storage.py:32-59 | returns `Loaded` of the files, so a missing, unreadable or keyless file gives None, and the call never raises |
| Storage.TargetStore.InitTargetReading | meter_storage.py:62-71 | an existing target is returned and nothing is written; otherwise the default is saved and returned |
| Commands.DeviceHex | meter_mqtts.py:26-33 | an identifier without `-` names no meter |
| Commands.DeviceHexIsSuffix | meter_mqtts.py:28-30 | the address is `int(_, 10)` of the text after the last `-` |
| Commands.DeviceHexOfAddress | meter_mqtts.py:26-33 | an identifier ending in `-` and a meter's address in decimal names that meter |
| Commands.DeviceHexEmptySuffix | meter_mqtts.py:28-32 | an identifier that ends in `-` names no meter (the empty suffix does not parse) |
| Commands.Monitored | meter_mqtts.py:86 | defines `monitor_target(uart, [hex_address])`: one visit by `Meter.Enforce`, which does not raise |
| Commands.TryLoad | meter_mqtts.py:77-93 | defines one attempt: without a stored target `None + litres` raises; otherwise the target plus the litres is saved and the meter is monitored |
| Commands.LoadLoop | meter_mqtts.py:74-103 | defines the retry loop of a token load over `TryLoad`, with its reports and the frames of its visits |
| Commands.ValveEffect | meter_mqtts.py:105-121 | defines a valve command: its frame to the truncated address, one answer consumed, one acknowledgement published |
| Commands.Handle | meter_mqtts.py:50-127 | defines `datacb`'s outcome for every payload: ignored, a token load, a valve command, or nothing after a raise |
| Commands.Failures | meter_mqtts.py:99-103 | n failed attempts give exactly n `load_failure` reports |
| Commands.RetryStuck | meter_mqtts.py:74-103 | an attempt that raises and changes nothing fails on every remaining attempt, publishing one `load_failure` for each |
| Commands.RetryKeeps | meter_mqtts.py:74-103 | what an attempt never changes, the whole loop leaves unchanged |
| Commands.RetryReports | meter_mqtts.py:74-103 | the loop publishes k failures followed by one success with k below the attempts left, or as many failures as attempts left |
| Commands.LoadWithoutTarget | meter_mqtts.py:77-80 | without a stored target (or an address) `None + litres` raises, so all five attempts fail and nothing else changes |
| Commands.LoadWithTarget | meter_mqtts.py:77-93 | for a meter with a stored target, the first attempt saves the old target plus the litres, runs `monitor_target` for that meter alone, and publishes exactly one `load_success` |
| Commands.LoadWrappedAddress | meter_mqtts.py:77-93 | for an address outside 0..255 with a stored target, the new target is saved, five volume requests go to the truncated address, no valve command goes out, and exactly one `load_success` is published |
| Commands.LoadDrivesValve | meter_mqtts.py:80-86 | the visit a load makes closes the valve exactly when the reading has reached the old target plus the litres (when the flash can be written), and leaves the saved target as it is |
| Commands.TryLoadFiles | meter_mqtts.py:77-86 | the only change an attempt makes to the files is saving the new target |
| Commands.TryKeepsOthers | meter_mqtts.py:77-86 | one attempt changes no other meter's target |
| Commands.LoadKeepsOthers | meter_mqtts.py:74-103 | a token load changes no other meter's target |
| Commands.LoadReports | meter_mqtts.py:74-103 | a token load publishes some `load_failure` reports, then at most one `load_success`, and five reports at most |
| Commands.IgnoredCommands | meter_mqtts.py:70-73 | an unparsable payload, a missing device, a load of no or zero litres, or an unknown type publishes, stores and sends nothing |
| Commands.ValveOpenCommand | meter_mqtts.py:105-112 | `valve_open` sends the open frame to the truncated address, consumes one answer whatever it is, and publishes `valve_open` |
| Commands.ValveCloseCommand | meter_mqtts.py:114-121 | `valve_close` sends the close frame to the truncated address, consumes one answer, and publishes `valve_closed` |
| Commands.ValveCommandRefused | meter_mqtts.py:105-121 | a valve command whose identifier has no numeric suffix raises at `frame[0] = None`, before anything is sent or published |
| Commands.MonitorOnce | meter_mqtts.py:86 | `monitor_target(uart, [hex_address])` changes the line and the files exactly as one visit does |
| Commands.LoadOnce | meter_mqtts.py:77-86 | one attempt up to the publish changes the line and the files exactly as `TryLoad` says |
| Commands.LoadTurn | meter_mqtts.py:76-103 | one turn is an attempt followed by exactly one report: `load_failure` if it raised, else `load_success` |
| Commands.LoadTarget | meter_mqtts.py:74-103 | the load loop publishes, sends and stores exactly what `LoadLoop` says |
| Commands.HandleCommand | meter_mqtts.py:50-127 | the handler publishes, sends and stores exactly what `Handle` says of the command |
| Text.Strip | ota_update.py:49 | `strip()` leaves no whitespace at either end and never lengthens the text |
| Text.StripPadded | ota_update.py:73 | `strip()` removes exactly the whitespace around a text that has none at its ends |
| Text.StripBlank | ota_update.py:73 | a text that is all whitespace strips to the empty string |
| Text.StripTrimmed | ota_update.py:73 | a text without surrounding whitespace is left alone |
| Text.StripStrip | ota_update.py:73 | `strip()` is idempotent |
| Text.ContainsAt | ota_update.py:69 | `sub in s` holds exactly when `sub` occurs at some position of `s` |
| Text.ContainsInfix | ota_update.py:69 | a text contains every text that occurs inside it |
| Text.Split | ota_update.py:154 | `split(c)` gives at least one piece, and no piece contains the separator |
| Text.JoinSplit | ota_update.py:154 | joining the pieces of a split with the separator restores the text |
| Text.SplitNone | ota_update.py:154 | a text without the separator is one piece |
| Text.SplitFirst | ota_update.py:154 | splitting `a + c + b`, where `a` holds no separator, gives `a` followed by the pieces of `b` |
| Text.SplitLast | meter_mqtts.py:28 | the last piece of `a + c + b`, where `b` holds no separator, is `b`, after at least one other piece |
| Text.Remove | ota_update.py:154 | `replace(c, "")` leaves no `c`, never lengthens the text, and leaves a text without `c` unchanged |
| Text.NatDigits | meter_storage.py:20 | `str(n)` of a natural number is a non-empty run of digits with no leading zero |
| Text.Decimal | meter_storage.py:20 | `str(n)` is non-empty with no surrounding whitespace, and holds a `-` exactly for negative n |
| Text.DigitsRoundTrip | meter_storage.py:20 | the digits of a natural number read back as that number |
| Text.NumeralRoundTrip | meter_mqtts.py:30 | the numeral `str` prints parses back to the integer |
| Text.ParseInt | meter_mqtts.py:30 | defines `int(s, 10)`: the stripped text read as an optionally signed decimal numeral, None otherwise |
| Text.ParseDecimal | meter_mqtts.py:30 | `int(s, 10)` of a printed integer, with or without surrounding whitespace, gives the integer back |
| Text.ParseOwnDecimal | meter_mqtts.py:30 | `int(str(n), 10) == n` |
| Ota.TmpIsNested | ota_update.py:94-95 | a destination path that is also a temporary path names a file inside a directory |
| Ota.PathsDistinct | ota_update.py:94-95 | for bare names, temporary and destination paths never collide, and each path names one file |
| Ota.VersionFileApart | ota_update.py:10 | the version file is neither the temporary nor the destination path of any bare name other than `version.txt` |
| Ota.FilesToUpdateNames | ota_update.py:12-23 | the firmware files are bare names, each listed once, and none of them is the version file |
| Ota.Written | ota_update.py:102 | `curl.get(url, path)` changes only `path`, and writes the body there when the call reports success |
| Ota.Replaced | ota_update.py:109-111 | remove-then-rename leaves the temporary file's content at the destination, removes the temporary file, and touches nothing else |
| Ota.FirstSucceeded | ota_update.py:97-104 | the first attempt whose reply has code 0 and "200" in its header, every earlier attempt having failed; None when all fail |
| Ota.Flash.Read | ota_update.py:48-49 | reading gives the file's content, or None when it does not exist |
| Ota.Flash.Write | ota_update.py:55-56 | writing sets the file's content and changes nothing else |
| Ota.Flash.Remove | ota_update.py:110 | removing drops exactly that file |
| Ota.Flash.Rename | ota_update.py:111 | renaming moves the content to the new path and drops the old one |
| Ota.Modem.Get | ota_update.py:64 | a call records the URL and consumes exactly one reply, which it returns |
| Ota.Modem.GetInto | ota_update.py:102 | a call with a file records the URL, consumes one reply, and changes the flash as `Written` says |
| Ota.UpdateOffered | ota_update.py:62-84 | a version is offered exactly when the fetch succeeded (code 0, "200" in the header) and the stripped body differs from the local version; it is that stripped body |
| Ota.SavedVersionIsCurrent | ota_update.py:46-57 | once a version has been saved, it reads back as the local version, so the same server reply offers nothing more |
| Ota.CheckForUpdate | ota_update.py:62-84 | one request for the version file, whose decision is `UpdateOffered` on the reply and the local version |
| Ota.Lines | ota_update.py:152 | iterating over a file yields non-empty lines |
| Ota.FlattenLines | ota_update.py:152 | cutting a text into lines loses and reorders nothing |
| Ota.LinesAfterLine | ota_update.py:152 | a text that starts with a line yields that line first |
| Ota.LinesAfterLines | ota_update.py:152 | a text made of lines, followed by more text, yields those lines first |
| Ota.FirstWith | ota_update.py:152-153 | the first line mentioning the key is a line that mentions it; there is none exactly when no line mentions it |
| Ota.FirstWithSkips | ota_update.py:152-153 | lines that do not mention the key are passed over |
| Ota.RemoveAppend | ota_update.py:154 | `replace(c, "")` distributes over concatenation |
| Ota.VersionOfLine | ota_update.py:154-156 | the value of a key line contains no quote characters, and a line without `=` (where the indexing raises) gives "0.0.0" |
| Ota.ExtractVersion | ota_update.py:148-157 | an unreadable file or one that never mentions `GLOBAL_VERSION` gives "0.0.0"; no result holds a quote character |
| Ota.LineContains | ota_update.py:152-153 | a text contains whatever one of its lines contains |
| Ota.FlattenSplit | ota_update.py:152 | a text is what its lines before the k-th give, then the k-th line, then the rest |
| Ota.DeclarationLine | device_configs/FQX_SM_100011_globals.py:2 | the configuration files' `GLOBAL_VERSION = "<v>"` is a single line that mentions the key |
| Ota.DeclarationValue | ota_update.py:154 | the value read from such a declaration is the declared version |
| Ota.ExtractsFirstKeyLine | ota_update.py:152-154 | the version is the value of the first line mentioning the key, after lines that do not |
| Ota.ExtractsDeclaredVersion | ota_update.py:148-157 | a declared version is read back, whatever lines without the key come before it |
| Ota.ReadVersion | ota_update.py:148-157 | the loop over the file's lines returns `ExtractVersion` of the file's content |
| Ota.DownloadCalls | ota_update.py:97-120 | a transfer makes between one and `retries` curl calls and uses up exactly that many replies |
| Ota.DownloadKeepsOthers | ota_update.py:94-111 | a transfer touches only its temporary file and its destination |
| Ota.DownloadOutcome | ota_update.py:97-123 | the first good reply ends the transfer: its body becomes the destination and the temporary file is gone; when every attempt fails the result is False and the destination is as it was |
| Ota.DownloadSucceedsIff | ota_update.py:104-123 | `download_file` returns True exactly when some attempt gets a good reply |
| Ota.DownloadFile | ota_update.py:87-123 | the loop of attempts returns, writes and requests exactly what `Download` says |
| Ota.DownloadAll | ota_update.py:127-135 | a pass has one outcome and one call count per listed file |
| Ota.DownloadAllAttemptsEach | ota_update.py:129-133 | a failed file does not stop the pass: every file is requested at least once and at most three times |
| Ota.DownloadAllKeepsOthers | ota_update.py:127-135 | a pass touches only the temporary files and destinations of the files it lists |
| Ota.DownloadAllOutcome | ota_update.py:127-135 | with distinct bare names, each file is installed when its download succeeded, and is as it was before the pass when it failed |
| Ota.DownloadAndReplaceFiles | ota_update.py:127-135 | the loop over the list writes and requests exactly what `DownloadAll` says |
| Ota.UpdateGlobalOutcome | ota_update.py:159-196 | the first good download decides: an equal version leaves `global.py` as it was, removes the temporary file and gives False; a different one installs the download and gives True; with no good download the result is False and `global.py` is as it was |
| Ota.UpdateGlobalKeepsOthers | ota_update.py:142-188 | `update_global_file` touches only `global.py` and its temporary file |
| Ota.SameGlobalNotReplaced | ota_update.py:174-181 | downloading the `global.py` already installed replaces nothing, deletes the temporary file and gives False |
| Ota.GlobalAttempt | ota_update.py:166-192 | one attempt downloads into the temporary file; on a good reply, the comparison and its consequence are those of the decision |
| Ota.UpdateGlobalDecided | ota_update.py:169-188 | an attempt with a good reply ends the call, however many attempts were left |
| Ota.UpdateGlobalFile | ota_update.py:137-200 | reading the local version, then the loop of attempts, returns, writes and requests exactly what `UpdatedGlobal` says |
| Ota.RunOta | ota_update.py:216-227 | without an update, nothing is written |
| Ota.RunOtaRebootsIff | ota_update.py:217-225 | the device resets exactly when the server's stripped version is non-empty and differs from the local one |
| Ota.RunOtaRecordsVersion | ota_update.py:219-222 | after an update the saved version is the one offered, even when files failed, so the same server answer offers nothing more |
| Ota.RunOtaKeepsOthers | ota_update.py:219-222 | an update writes only the firmware files, their temporary files and the version file |
| Ota.RunOtaOnce | ota_update.py:204-227 | the check, the pass over the files and the version save write, request and end exactly as `RunOta` says |
| Supervisor.Step | main.py:85-149 | defines one pass of the supervisor loop: the memory check, the midnight check, the modem check, the ping with its grace period and failure count, then the tasks |
| Supervisor.Tasks | main.py:129-140 | a pass that carries on always runs the target check, and runs the upload exactly when the ping succeeded |
| Supervisor.Supervise | main.py:85-149 | a run completes at most one pass per observation, and all of them when nothing resets the device |
| Supervisor.LowMemoryRestarts | main.py:56-63 | the memory check resets the device exactly when fewer than 10240 bytes are free, before anything else |
| Supervisor.MidnightRestarts | main.py:66-72 | with enough memory, the scheduled restart happens exactly when hour == 0 and 0 <= minute < 2 |
| Supervisor.ModemLossRestartsBeforePing | main.py:94-97 | a modem status other than 1 resets the device whatever the broker would have answered |
| Supervisor.HealthyRestartsOnlyForBroker | main.py:99-127 | a healthy pass resets only for a dead broker, after a failed ping |
| Supervisor.PingSuccessResetsCount | main.py:112-115 | a successful ping clears the failure count, and the pass uploads |
| Supervisor.AbsentClientWaits | main.py:105-109 | without a client object the count stays as it is and nothing resets |
| Supervisor.GraceIgnoresFailures | main.py:103-119 | within 60 s of start a failed ping neither counts nor resets |
| Supervisor.FailureCounts | main.py:120-127 | after the grace period a failed ping adds one to the count, and resets exactly when the count reaches 10 |
| Supervisor.UploadsOnlyWhenConnected | main.py:130-132 | a pass uploads exactly when its ping succeeded |
| Supervisor.MonitorsEveryPass | main.py:136-140 | the target check runs once on every pass that does not reset |
| Supervisor.FailuresReachLimit | main.py:120-127 | consecutive failed pings after the grace period carry on until the count reaches 10, and the pass that reaches it resets |
| Supervisor.TenthFailureRestarts | main.py:120-127 | from a clear count, nine failed pings in a row do not reset, and the tenth does |
| Supervisor.MonitorLoop | main.py:75-149 | the loop ends with the reset and the work that `Supervise` gives for the passes observed, and resets at once on low memory at entry |

## Left out

- UART hardware and timing are not modelled: `clear_uart_buffer`'s drain loop, the 15-poll wait of `smart_read_modbus`, and every `sleep`. The line is an oracle of answers, one per frame written. The drain and the poll only change how much of an answer arrives, which the oracle already chooses.
- `smart_read_modbus`'s `except` returning None is modelled only as an answer of no bytes.
- Floating point is not modelled: `read_instantaneous_flow`, `get_valid_flow`, `simulated_flow`, `simulated_voltage` and the `* 0.01` voltage scaling. The voltage is modelled as its integer value in hundredths of a volt.
- `read_meter_parameters` (meter_sim.py), meter_sim.py's `read_meter_parameters_upload` and `valve_test` are not modelled. They only print, or return JSON text of readings that are already modelled.
- JSON text is not modelled. Payloads are `Commands.Payload` values, where a missing field is None and a payload that does not parse is None. Reports are `Broker.Report` values. Target files are records of integers or `Unreadable`.
- Non-integer JSON values are not modelled: `litres` given as a float or a string, or a stored target that is not an integer.
- A publish that raises is not modelled. `Broker.Outbox.Publish` always succeeds, so a `mqttPublish` failure inside the load loop is never counted as a failed attempt.
- Concurrency is not modelled. `datacb` runs on the MQTT thread and drives the same UART as the monitor thread; the model treats each handler call and each pass as running alone.
- The MQTT client is not modelled: its construction, `mqttInitialize` with its reconnect and subscribe loop, `mqttCheckStatus`, and the connect, disconnect and subscribe callbacks.
- The modem is not modelled (`gsmInitialization`, `gsmCheckStatus`). The modem status of each supervisor pass is an input, where None means the status call raised.
- The boot sequence is not modelled. This covers `main()` of main.py (the hardware test, the GSM wait loop, the `update_global_file` then `run_ota` order, the thread start), main_meter.py, meter_run.py and the `main()` of meter_tests.py.
- `sys_log` and all printing are not modelled. `sys_log` writes a log file that it deletes above 10 KB.
- Supervisor.MonitorLoop: the upload and the target check are recorded as tasks (`Supervisor.Task`). They are not composed with the `Meter` passes that carry them out. Their exceptions are caught in the source and change nothing the loop tracks.
- Supervisor.MonitorLoop, Supervisor.Step, Supervisor.Supervise: main.py as written never reaches `monitor_loop`. Its import at main.py:3-6 asks meter.py for `read_meter_parameters`, which only meter_sim.py:211 defines, so loading main.py raises ImportError (main_meter.py:3-5 has the same import). The Supervisor module models `monitor_loop` as it would run if that import succeeded.
- Supervisor.MonitorLoop: the only loop crash modelled is `gsmCheckStatus` raising. Other raises in the loop body (for example from the clock) are not modelled.
- The sleep of `globals.timer` seconds between passes is not modelled.
- Memory is an input: `gc.collect` and `gc.mem_free` become the free-memory figure of each observation.
- `machine.reset()` is a terminal outcome (a `Reason`, or `Ota.Ending.Rebooted`), not a restart of the model.
- `ensure_temp_dir` and directories are not modelled. The flash is a flat map from paths to contents, and `/flash/temp` is taken to exist.
- meter_storage.py's `mkdir` of `/flash/mem` is covered by the `writable` flag. When the flash cannot be written, every save fails silently.
- Storage.Saved, Storage.FailedSaveChangesNothing, Storage.SaveKeepsTarget, Storage.TargetStore.SaveTargetReading: a save is modelled as failing only before its file is opened (the `mkdir` or the `open`), which leaves the files as they were. A failure after `open(filename, 'w')` has truncated the file, inside `json.dump` or the write, would leave an unreadable file that loads as None; that case is not modelled, because the flash is taken to fail as a whole, not midway through a write.
- Ota.Modem.GetInto: `curl.get(url, path)` is taken to write the received body to `path` whenever curl reports code 0. `uos.stat` on that file is taken to succeed.
- Ota.Flash.Write: flash writes always succeed, so the failure branch of `save_local_version` is not modelled.
- A `remove` or `rename` that raises is not modelled. The model only removes files that exist and renames onto a path that was just freed.
- `gc.collect` and the memory reports in `run_ota` and `download_and_replace_files` are not modelled.
- URLs are modelled only as the log of requested URLs (`Ota.Modem.requested`). What the server returns for each request is the reply oracle.
- Integer widths: a meter address is stored into a frame by its low eight bits, as MicroPython's `bytearray` does without a range check. The register and valve values are fixed 16-bit constants.
- Readings are the 16-bit register value. The second register of the two-register read is not used by the source either.
- `int(s, 10)` is modelled for an optional sign and decimal digits with surrounding whitespace. Underscore separators and non-ASCII digits are not modelled.
- `strip()` is modelled for ASCII whitespace only.
- `init_target_reading` is modelled with the default passed in (the source's default is 45, `Storage.DEFAULT_TARGET`).

=== FILE: broker.dfy ===
/**
 * What the firmware publishes on its MQTT topic, as values rather than JSON
 * text (`mqttPublish`, meter_mqtts.py:189-192).
 */
module Broker {

  /** The `status` field of a command acknowledgement. */
  datatype Status = LoadSuccess | LoadFailure | ValveOpened | ValveClosed

  datatype Report =
    /** `{"type": "device_report", "device": <address>, "cumulative_flow_L": .., "target_flow": ..}` */
    | Telemetry(address: int, cumulative: int, target: int)
    /** `{"type": "device_report", "device": <deviceID>, "status": ..}` */
    | Acknowledgement(deviceId: string, status: Status)

  class Outbox {
    /** Every message handed to the broker, oldest first. */
    var published: seq<Report>

    constructor ()
      ensures published == []
    {
      published := [];
    }

    method Publish(report: Report)
      modifies this
      ensures published == old(published) + [report]
    {
      published := published + [report];
    }
  }
}

=== FILE: commands.dfy ===
/**
 * meter_mqtts.py: the commands the server sends over MQTT.  A command names
 * the meter by a device identifier whose last `-`-separated part is the
 * meter's Modbus address; a token load adds litres to the meter's target and
 * enforces it at once, and the valve commands drive the valve directly.  JSON
 * payloads are modelled as values: a field that is missing (or, for the
 * identifier, not a string) is `None`.
 */
module Commands {
  import opened Wrappers
  import opened Crc
  import opened Frames
  import opened Uart
  import opened Modbus
  import opened Text
  import opened Storage
  import opened Broker
  import Meter

  /** How many times a token load is attempted (meter_mqtts.py:75). */
  const LOAD_ATTEMPTS: nat := 5

  // ---------------------------------------------------------------------------
  // Device identifiers

  /**
   * `get_device_Hex` (meter_mqtts.py:26-33): without a `-` there is no
   * address; otherwise the part after the last `-` is read with `int(_, 10)`,
   * and a part that is not a decimal numeral gives no address.
   */
  function DeviceHex(deviceId: string): (r: Option<int>)
    ensures '-' !in deviceId ==> r == None
  {
    if '-' in deviceId then
      var parts := Split(deviceId, '-');
      ParseInt(parts[|parts| - 1])
    else
      None
  }

  /** The address is whatever `int` makes of the text after the last `-`. */
  lemma DeviceHexIsSuffix(prefix: string, suffix: string)
    requires '-' !in suffix
    ensures DeviceHex(prefix + "-" + suffix) == ParseInt(suffix)
  {
    SplitLast(prefix, '-', suffix);
    assert (prefix + "-" + suffix)[|prefix|] == '-';
  }

  /** An identifier ending in `-` and a meter's address in decimal names that meter. */
  lemma DeviceHexOfAddress(prefix: string, address: nat)
    ensures DeviceHex(prefix + "-" + Decimal(address)) == Some(address)
  {
    var digits := Decimal(address);
    DeviceHexIsSuffix(prefix, digits);
    ParseOwnDecimal(address);
  }

  /** An identifier that ends in `-` names no meter. */
  lemma DeviceHexEmptySuffix(prefix: string)
    ensures DeviceHex(prefix + "-") == None
  {
    DeviceHexIsSuffix(prefix, "");
    assert prefix + "-" + "" == prefix + "-";
  }

  // ---------------------------------------------------------------------------
  // Commands and what they do

  /** The fields of a command that `datacb` reads (meter_mqtts.py:57-60). */
  datatype Payload = Payload(message: Option<string>, litres: Option<int>, deviceId: Option<string>)

  /**
   * What handling a command does: the reports published, the target files
   * afterwards, the answers still waiting on the line and the frames put on it.
   */
  datatype Effect = Effect(reports: seq<Report>, files: Files, left: seq<seq<byte>>, wire: seq<seq<byte>>)

  /** `n` `load_failure` reports. */
  function Failures(deviceId: string, n: nat): (r: seq<Report>)
    ensures |r| == n
  {
    if n == 0 then [] else Failures(deviceId, n - 1) + [Acknowledgement(deviceId, LoadFailure)]
  }

  /**
   * One attempt of a token load: whether it raised, the target files, the
   * answers still to come, and the visit `monitor_target` made, if any.
   */
  datatype Attempt = Attempt(raised: bool, files: Files, left: seq<seq<byte>>, visits: seq<Meter.Visit>)

  /** What the retry loop did: the reports published, the target files, the answers still to come, and the visits made. */
  datatype Tries = Tries(reports: seq<Report>, files: Files, left: seq<seq<byte>>, visits: seq<Meter.Visit>)

  /**
   * `monitor_target` run for one meter alone (meter_mqtts.py:91 over
   * meter.py:116-139): it makes that meter's visit and does not raise.
   */
  function Monitored(address: int, pending: seq<seq<byte>>, files: Files, writable: bool): Attempt {
    var v := Meter.Enforce(address, pending, files, writable);
    Attempt(false, v.files, Drop(pending, Meter.Sent(v)), [v])
  }

  /**
   * The body of the `try` of the load loop (meter_mqtts.py:77-93): the stored
   * target is loaded; without one, adding the litres raises; otherwise the
   * new target is saved and `monitor_target` runs for that meter alone.
   */
  function TryLoad(hex: Option<int>, litres: int, pending: seq<seq<byte>>, files: Files, writable: bool): Attempt {
    var current := if hex.Some? then Loaded(files, hex.value) else None;
    if current.None? then Attempt(true, files, pending, [])
    else Monitored(hex.value, pending, Saved(files, writable, hex.value, current.value + litres), writable)
  }

  /** With a stored target, an attempt is `monitor_target` over the files with the new target saved. */
  lemma TryLoadFound(address: int, litres: int, pending: seq<seq<byte>>, files: Files, saved: Files, writable: bool)
    requires Loaded(files, address).Some? && saved == Saved(files, writable, address, Loaded(files, address).value + litres)
    ensures TryLoad(Some(address), litres, pending, files, writable) == Monitored(address, pending, saved, writable)
  {
  }

  /**
   * The retry loop of a token load (meter_mqtts.py:74-103) from attempt
   * `retries` on, whatever one attempt does: an attempt that completes
   * publishes `load_success` and ends the loop; one that raises publishes
   * `load_failure`, and the next attempt starts from the line and the files
   * the failed one left.
   */
  function Retry(deviceId: string, attempt: (seq<seq<byte>>, Files) -> Attempt, pending: seq<seq<byte>>, files: Files,
                 retries: nat): Tries
    decreases LOAD_ATTEMPTS - retries
  {
    if retries >= LOAD_ATTEMPTS then Tries([], files, pending, [])
    else
      var t := attempt(pending, files);
      if !t.raised then Tries([Acknowledgement(deviceId, LoadSuccess)], t.files, t.left, t.visits)
      else
        var rest := Retry(deviceId, attempt, t.left, t.files, retries + 1);
        Tries([Acknowledgement(deviceId, LoadFailure)] + rest.reports, rest.files, rest.left, t.visits + rest.visits)
  }

  /** The attempt of a token load of `litres` for the meter at `hex`. */
  function LoadAttempt(hex: Option<int>, litres: int, writable: bool): (seq<seq<byte>>, Files) -> Attempt {
    (pending: seq<seq<byte>>, files: Files) => TryLoad(hex, litres, pending, files, writable)
  }

  /** The whole load loop of a token load; its frames are those of the visits it made. */
  function LoadLoop(deviceId: string, hex: Option<int>, litres: int, pending: seq<seq<byte>>, files: Files, writable: bool): Effect {
    var r := Retry(deviceId, LoadAttempt(hex, litres, writable), pending, files, 0);
    Effect(r.reports, r.files, r.left, Meter.Traffic(r.visits))
  }

  /**
   * A valve command: the frame, with the address truncated to a byte, goes
   * out, and the acknowledgement is published whatever the meter answers.
   */
  function ValveEffect(deviceId: string, address: int, v: Valve, pending: seq<seq<byte>>, files: Files): Effect {
    var status := if v == Open then ValveOpened else ValveClosed;
    Effect([Acknowledgement(deviceId, status)], files, Drop(pending, 1), [ValveFrame(Slot(address), v)])
  }

  /**
   * `datacb` (meter_mqtts.py:50-127): a payload that does not parse, or
   * without a device identifier, stops at the exception handler; a token load
   * with no litres or zero litres is ignored; a valve command whose device
   * identifier has no hexadecimal suffix raises while its frame is built,
   * before anything is published; any other message type is ignored.
   */
  function Handle(msg: Option<Payload>, pending: seq<seq<byte>>, files: Files, writable: bool): Effect {
    var nothing := Effect([], files, pending, []);
    if msg.None? || msg.value.deviceId.None? then nothing
    else
      var payload, deviceId := msg.value, msg.value.deviceId.value;
      var hex := DeviceHex(deviceId);
      if payload.message == Some("success") then
        if payload.litres.None? || payload.litres.value == 0 then nothing
        else LoadLoop(deviceId, hex, payload.litres.value, pending, files, writable)
      else if payload.message == Some("valve_open") || payload.message == Some("valve_close") then
        if hex.None? then nothing
        else ValveEffect(deviceId, hex.value, if payload.message == Some("valve_open") then Open else Close, pending, files)
      else nothing
  }

  // ---------------------------------------------------------------------------
  // The retry loop, whatever an attempt does

  /** A failure report in front of `n` failure reports is `n + 1` of them. */
  lemma {:induction false} FailuresCons(deviceId: string, n: nat)
    ensures [Acknowledgement(deviceId, LoadFailure)] + Failures(deviceId, n) == Failures(deviceId, n + 1)
  {
    if n > 0 {
      FailuresCons(deviceId, n - 1);
    }
  }

  /** An attempt that raises and changes nothing fails every time that is left. */
  lemma {:induction false} RetryStuck(deviceId: string, attempt: (seq<seq<byte>>, Files) -> Attempt, pending: seq<seq<byte>>,
                                      files: Files, retries: nat)
    requires retries <= LOAD_ATTEMPTS
    requires attempt(pending, files) == Attempt(true, files, pending, [])
    ensures Retry(deviceId, attempt, pending, files, retries) == Tries(Failures(deviceId, LOAD_ATTEMPTS - retries), files, pending, [])
    decreases LOAD_ATTEMPTS - retries
  {
    if retries < LOAD_ATTEMPTS {
      RetryStuck(deviceId, attempt, pending, files, retries + 1);
      FailuresCons(deviceId, LOAD_ATTEMPTS - retries - 1);
    }
  }

  /** An attempt that never changes what `other` loads leaves it unchanged through the loop. */
  lemma {:induction false} RetryKeeps(deviceId: string, attempt: (seq<seq<byte>>, Files) -> Attempt, pending: seq<seq<byte>>,
                                      files: Files, retries: nat, other: int)
    requires forall p: seq<seq<byte>>, f: Files :: Loaded(attempt(p, f).files, other) == Loaded(f, other)
    ensures Loaded(Retry(deviceId, attempt, pending, files, retries).files, other) == Loaded(files, other)
    decreases LOAD_ATTEMPTS - retries
  {
    if retries < LOAD_ATTEMPTS {
      var t := attempt(pending, files);
      RetryKeeps(deviceId, attempt, t.left, t.files, retries + 1, other);
    }
  }

  /** The reports of the loop: some failures, then at most one success, and never more reports than attempts left. */
  lemma {:induction false} RetryReports(deviceId: string, attempt: (seq<seq<byte>>, Files) -> Attempt, pending: seq<seq<byte>>,
                                        files: Files, retries: nat)
    requires retries <= LOAD_ATTEMPTS
    ensures var e := Retry(deviceId, attempt, pending, files, retries);
      exists k: nat :: k <= LOAD_ATTEMPTS - retries
        && ((e.reports == Failures(deviceId, k) + [Acknowledgement(deviceId, LoadSuccess)] && k < LOAD_ATTEMPTS - retries)
            || (e.reports == Failures(deviceId, k) && k == LOAD_ATTEMPTS - retries))
    decreases LOAD_ATTEMPTS - retries
  {
    var e := Retry(deviceId, attempt, pending, files, retries);
    if retries == LOAD_ATTEMPTS {
      assert e.reports == Failures(deviceId, 0);
    } else {
      var t := attempt(pending, files);
      if !t.raised {
        assert e.reports == Failures(deviceId, 0) + [Acknowledgement(deviceId, LoadSuccess)];
      } else {
        RetryReports(deviceId, attempt, t.left, t.files, retries + 1);
        var rest := Retry(deviceId, attempt, t.left, t.files, retries + 1);
        var k: nat :| k <= LOAD_ATTEMPTS - retries - 1
          && ((rest.reports == Failures(deviceId, k) + [Acknowledgement(deviceId, LoadSuccess)] && k < LOAD_ATTEMPTS - retries - 1)
              || (rest.reports == Failures(deviceId, k) && k == LOAD_ATTEMPTS - retries - 1));
        FailuresCons(deviceId, k);
        assert e.reports == [Acknowledgement(deviceId, LoadFailure)] + rest.reports;
        if rest.reports == Failures(deviceId, k) {
          assert e.reports == Failures(deviceId, k + 1);
        } else {
          assert e.reports == Failures(deviceId, k + 1) + [Acknowledgement(deviceId, LoadSuccess)];
        }
      }
    }
  }

  // ---------------------------------------------------------------------------
  // What a token load does

  /** A token load for a meter without a stored target fails all five times and changes nothing else. */
  lemma LoadWithoutTarget(deviceId: string, hex: Option<int>, litres: int, pending: seq<seq<byte>>, files: Files, writable: bool)
    requires hex.None? || Loaded(files, hex.value).None?
    ensures LoadLoop(deviceId, hex, litres, pending, files, writable) == Effect(Failures(deviceId, LOAD_ATTEMPTS), files, pending, [])
  {
    RetryStuck(deviceId, LoadAttempt(hex, litres, writable), pending, files, 0);
  }

  /**
   * A token load for a meter with a stored target succeeds at the first
   * attempt: the old target plus the litres is saved, `monitor_target` then
   * makes its visit to the meter on the saved files, and exactly one
   * `load_success` report is published.
   */
  lemma LoadWithTarget(deviceId: string, address: int, litres: int, pending: seq<seq<byte>>,
                       files: Files, writable: bool, target: int)
    requires Loaded(files, address) == Some(target)
    ensures var v := Meter.Enforce(address, pending, Saved(files, writable, address, target + litres), writable);
      LoadLoop(deviceId, Some(address), litres, pending, files, writable)
      == Effect([Acknowledgement(deviceId, LoadSuccess)], v.files, Drop(pending, Meter.Sent(v)), Meter.Wire(v))
  {
    var attempt := LoadAttempt(Some(address), litres, writable);
    assert !attempt(pending, files).raised;
    Meter.TrafficOne(Meter.Enforce(address, pending, Saved(files, writable, address, target + litres), writable));
  }

  /**
   * A token load for a meter whose address lies outside 0..255 still counts
   * as a success: the new target is saved, the meter is polled five times at
   * the truncated address, every answer is rejected, no valve command goes
   * out, and one `load_success` report is published.
   */
  lemma LoadWrappedAddress(deviceId: string, address: int, litres: int, pending: seq<seq<byte>>,
                           files: Files, writable: bool, target: int)
    requires !IsByte(address) && Loaded(files, address) == Some(target)
    ensures LoadLoop(deviceId, Some(address), litres, pending, files, writable)
      == Effect([Acknowledgement(deviceId, LoadSuccess)], Saved(files, writable, address, target + litres),
                Drop(pending, Meter.RETRIES), Repeat(VolumeRequest(Slot(address)), Meter.RETRIES))
  {
    var saved := Saved(files, writable, address, target + litres);
    LoadWithTarget(deviceId, address, litres, pending, files, writable, target);
    Meter.WrappedAddressSkipped(address, pending, saved, writable);
  }

  /**
   * The visit a token load makes drives the valve by the new target: once
   * the meter is read, its valve is closed exactly when the volume has
   * reached the old target plus the litres (when the flash can be written),
   * and the saved target is left as it is.
   */
  lemma LoadDrivesValve(address: int, litres: int, pending: seq<seq<byte>>, files: Files, writable: bool, target: int)
    requires Loaded(files, address) == Some(target)
    ensures var saved := Saved(files, writable, address, target + litres);
      var v := Meter.Enforce(address, pending, saved, writable);
      var next := if writable then target + litres else target;
      v.reading == Meter.FirstVolume(address, pending, Meter.RETRIES).reading
      && (v.reading.Some? ==> v.target == Some(next) && v.command == Some(Meter.Policy(v.reading.value, next)) && v.files == saved)
      && (v.reading.None? ==> v.command == None && v.files == saved)
  {
    var saved := Saved(files, writable, address, target + litres);
    Meter.EnforceIsPolicy(address, pending, saved, writable);
  }

  /**
   * The only change an attempt makes to the files is the save of the new
   * target: `monitor_target` finds that target stored and leaves it alone.
   */
  lemma TryLoadFiles(hex: Option<int>, litres: int, pending: seq<seq<byte>>, files: Files, writable: bool)
    ensures TryLoad(hex, litres, pending, files, writable).files
            == if hex.Some? && Loaded(files, hex.value).Some?
               then Saved(files, writable, hex.value, Loaded(files, hex.value).value + litres)
               else files
  {
    if hex.Some? && Loaded(files, hex.value).Some? {
      var address, value := hex.value, Loaded(files, hex.value).value + litres;
      var saved := Saved(files, writable, address, value);
      SaveKeepsTarget(files, writable, address, value);
      Meter.EnforceKeepsStored(address, pending, saved, writable);
    }
  }

  /** One attempt for one meter changes no other meter's target. */
  lemma TryKeepsOthers(hex: Option<int>, litres: int, pending: seq<seq<byte>>, files: Files, writable: bool, other: int)
    requires hex.None? || hex.value != other
    ensures Loaded(TryLoad(hex, litres, pending, files, writable).files, other) == Loaded(files, other)
  {
    TryLoadFiles(hex, litres, pending, files, writable);
    if hex.Some? && Loaded(files, hex.value).Some? {
      SaveKeepsOthers(files, writable, hex.value, other, Loaded(files, hex.value).value + litres);
    }
  }

  /** A token load changes no other meter's target. */
  lemma LoadKeepsOthers(deviceId: string, hex: Option<int>, litres: int, pending: seq<seq<byte>>, files: Files, writable: bool,
                        other: int)
    requires hex.None? || hex.value != other
    ensures Loaded(LoadLoop(deviceId, hex, litres, pending, files, writable).files, other) == Loaded(files, other)
  {
    forall p: seq<seq<byte>>, f: Files
      ensures Loaded(LoadAttempt(hex, litres, writable)(p, f).files, other) == Loaded(f, other)
    {
      TryKeepsOthers(hex, litres, p, f, writable, other);
    }
    RetryKeeps(deviceId, LoadAttempt(hex, litres, writable), pending, files, 0, other);
  }

  /** A token load publishes some failures and then at most one success, five reports at most. */
  lemma LoadReports(deviceId: string, hex: Option<int>, litres: int, pending: seq<seq<byte>>, files: Files, writable: bool)
    ensures var e := LoadLoop(deviceId, hex, litres, pending, files, writable);
      exists k: nat :: k <= LOAD_ATTEMPTS
        && ((e.reports == Failures(deviceId, k) + [Acknowledgement(deviceId, LoadSuccess)] && k < LOAD_ATTEMPTS)
            || (e.reports == Failures(deviceId, k) && k == LOAD_ATTEMPTS))
  {
    RetryReports(deviceId, LoadAttempt(hex, litres, writable), pending, files, 0);
  }

  /**
   * A command is ignored, with nothing published, stored or sent, when its
   * payload does not parse, it names no device, it is a token load of no
   * litres, or its type is none of the three the firmware knows.
   */
  lemma IgnoredCommands(msg: Option<Payload>, pending: seq<seq<byte>>, files: Files, writable: bool)
    requires msg.None? || msg.value.deviceId.None?
             || (msg.value.message == Some("success") && (msg.value.litres.None? || msg.value.litres == Some(0)))
             || msg.value.message !in {Some("success"), Some("valve_open"), Some("valve_close")}
    ensures Handle(msg, pending, files, writable) == Effect([], files, pending, [])
  {
  }

  /**
   * `valve_open`: the open frame goes out to the address truncated to a byte,
   * one answer is consumed whatever it is, and `valve_open` is published.
   */
  lemma ValveOpenCommand(deviceId: string, address: int, litres: Option<int>, pending: seq<seq<byte>>, files: Files, writable: bool)
    requires DeviceHex(deviceId) == Some(address)
    ensures Handle(Some(Payload(Some("valve_open"), litres, Some(deviceId))), pending, files, writable)
      == Effect([Acknowledgement(deviceId, ValveOpened)], files, Drop(pending, 1), [ValveFrame(Slot(address), Open)])
  {
  }

  /** `valve_close`: the close frame goes out to the address truncated to a byte and `valve_closed` is published. */
  lemma ValveCloseCommand(deviceId: string, address: int, litres: Option<int>, pending: seq<seq<byte>>, files: Files, writable: bool)
    requires DeviceHex(deviceId) == Some(address)
    ensures Handle(Some(Payload(Some("valve_close"), litres, Some(deviceId))), pending, files, writable)
      == Effect([Acknowledgement(deviceId, ValveClosed)], files, Drop(pending, 1), [ValveFrame(Slot(address), Close)])
  {
  }

  /** A valve command whose device identifier has no address raises before anything is sent or published. */
  lemma ValveCommandRefused(deviceId: string, open: bool, litres: Option<int>, pending: seq<seq<byte>>, files: Files, writable: bool)
    requires DeviceHex(deviceId).None?
    ensures var msg := Some(Payload(Some(if open then "valve_open" else "valve_close"), litres, Some(deviceId)));
      Handle(msg, pending, files, writable) == Effect([], files, pending, [])
  {
  }

  // ---------------------------------------------------------------------------
  // The handler against the bus, the store and the broker

  /** `monitor_target` over the one-element list of meter_mqtts.py:91, which is one body of its loop (Meter.SweepOne). */
  method MonitorOnce(port: Port, store: TargetStore, address: int) returns (ghost t: Attempt)
    modifies port, store
    ensures t == Monitored(address, old(port.pending), old(store.files), old(store.writable))
    ensures port.sent == old(port.sent) + Meter.Traffic(t.visits) && port.pending == t.left
    ensures store.files == t.files && store.writable == old(store.writable)
  {
    t := Monitored(address, port.pending, store.files, store.writable);
    var reading, stored;
    ghost var visit;
    reading, stored, visit := Meter.MonitorAddress(port, store, address);
    Meter.TrafficOne(visit);
  }

  /** One attempt of the load loop (meter_mqtts.py:77-93) up to the publish. */
  method LoadOnce(port: Port, store: TargetStore, hex: Option<int>, litres: int) returns (raised: bool)
    modifies port, store
    ensures var t := TryLoad(hex, litres, old(port.pending), old(store.files), old(store.writable));
      raised == t.raised
      && port.sent == old(port.sent) + Meter.Traffic(t.visits) && port.pending == t.left
      && store.files == t.files
    ensures store.writable == old(store.writable)
  {
    var current := None;
    if hex.Some? {
      current := store.LoadTargetReading(hex.value);
    }
    if current.None? {
      assert old(port.sent) + [] == old(port.sent);
      return true;
    }
    ghost var pending, files, writable := port.pending, store.files, store.writable;
    store.SaveTargetReading(hex.value, current.value + litres);
    TryLoadFound(hex.value, litres, pending, files, store.files, writable);
    ghost var t := MonitorOnce(port, store, hex.value);
    raised := false;
  }

  /** The retry loop after `retries` failed attempts: what is left of it is the rest of the whole loop. */
  ghost predicate RetriedSoFar(deviceId: string, attempt: (seq<seq<byte>>, Files) -> Attempt, pending: seq<seq<byte>>, files: Files,
                               retries: nat, visits: seq<Meter.Visit>, now: seq<seq<byte>>, stored: Files)
  {
    var rest := Retry(deviceId, attempt, now, stored, retries);
    Retry(deviceId, attempt, pending, files, 0)
    == Tries(Failures(deviceId, retries) + rest.reports, rest.files, rest.left, visits + rest.visits)
  }

  /** Before the first attempt the rest of the loop is all of it. */
  lemma RetryStart(deviceId: string, attempt: (seq<seq<byte>>, Files) -> Attempt, pending: seq<seq<byte>>, files: Files)
    ensures RetriedSoFar(deviceId, attempt, pending, files, 0, [], pending, files)
  {
    var rest := Retry(deviceId, attempt, pending, files, 0);
    assert Failures(deviceId, 0) + rest.reports == rest.reports;
    assert [] + rest.visits == rest.visits;
  }

  /** A failed attempt carries the loop one attempt further. */
  lemma RetryAdvance(deviceId: string, attempt: (seq<seq<byte>>, Files) -> Attempt, pending: seq<seq<byte>>, files: Files,
                     retries: nat, visits: seq<Meter.Visit>, now: seq<seq<byte>>, stored: Files)
    requires retries < LOAD_ATTEMPTS
    requires RetriedSoFar(deviceId, attempt, pending, files, retries, visits, now, stored)
    requires attempt(now, stored).raised
    ensures var t := attempt(now, stored);
      RetriedSoFar(deviceId, attempt, pending, files, retries + 1, visits + t.visits, t.left, t.files)
  {
    var t := attempt(now, stored);
    var rest := Retry(deviceId, attempt, t.left, t.files, retries + 1);
    AppendAssoc(Failures(deviceId, retries), [Acknowledgement(deviceId, LoadFailure)], rest.reports);
    AppendAssoc(visits, t.visits, rest.visits);
  }

  /** An attempt that completes ends the loop with one success report after the failures so far. */
  lemma RetrySucceeds(deviceId: string, attempt: (seq<seq<byte>>, Files) -> Attempt, pending: seq<seq<byte>>, files: Files,
                      retries: nat, visits: seq<Meter.Visit>, now: seq<seq<byte>>, stored: Files)
    requires retries < LOAD_ATTEMPTS
    requires RetriedSoFar(deviceId, attempt, pending, files, retries, visits, now, stored)
    requires !attempt(now, stored).raised
    ensures var t := attempt(now, stored);
      Retry(deviceId, attempt, pending, files, 0)
      == Tries(Failures(deviceId, retries) + [Acknowledgement(deviceId, LoadSuccess)], t.files, t.left, visits + t.visits)
  {
  }

  /** After five failures the loop is over. */
  lemma RetryExhausted(deviceId: string, attempt: (seq<seq<byte>>, Files) -> Attempt, pending: seq<seq<byte>>, files: Files,
                       visits: seq<Meter.Visit>, now: seq<seq<byte>>, stored: Files)
    requires RetriedSoFar(deviceId, attempt, pending, files, LOAD_ATTEMPTS, visits, now, stored)
    ensures Retry(deviceId, attempt, pending, files, 0) == Tries(Failures(deviceId, LOAD_ATTEMPTS), stored, now, visits)
  {
    assert Failures(deviceId, LOAD_ATTEMPTS) + [] == Failures(deviceId, LOAD_ATTEMPTS);
    assert visits + [] == visits;
  }

  /** One turn of the load loop (meter_mqtts.py:77-103): an attempt, then its report. */
  method LoadTurn(port: Port, store: TargetStore, outbox: Outbox, deviceId: string, hex: Option<int>, litres: int)
    returns (raised: bool)
    modifies port, store, outbox
    ensures var t := TryLoad(hex, litres, old(port.pending), old(store.files), old(store.writable));
      raised == t.raised
      && port.sent == old(port.sent) + Meter.Traffic(t.visits) && port.pending == t.left
      && store.files == t.files
    ensures store.writable == old(store.writable)
    ensures outbox.published == old(outbox.published) + [Acknowledgement(deviceId, if raised then LoadFailure else LoadSuccess)]
  {
    raised := LoadOnce(port, store, hex, litres);
    outbox.Publish(Acknowledgement(deviceId, if raised then LoadFailure else LoadSuccess));
  }

  /** The load loop of `datacb` (meter_mqtts.py:74-103). */
  method LoadTarget(port: Port, store: TargetStore, outbox: Outbox, deviceId: string, hex: Option<int>, litres: int)
    modifies port, store, outbox
    ensures var e := LoadLoop(deviceId, hex, litres, old(port.pending), old(store.files), old(store.writable));
      outbox.published == old(outbox.published) + e.reports
      && port.sent == old(port.sent) + e.wire && port.pending == e.left
      && store.files == e.files
    ensures store.writable == old(store.writable)
  {
    ghost var attempt := LoadAttempt(hex, litres, store.writable);
    var retries := 0;
    ghost var visits: seq<Meter.Visit> := [];
    assert old(port.sent) + [] == old(port.sent);
    RetryStart(deviceId, attempt, port.pending, store.files);
    while retries < LOAD_ATTEMPTS
      invariant retries <= LOAD_ATTEMPTS
      invariant store.writable == old(store.writable)
      invariant outbox.published == old(outbox.published) + Failures(deviceId, retries)
      invariant port.sent == old(port.sent) + Meter.Traffic(visits)
      invariant RetriedSoFar(deviceId, attempt, old(port.pending), old(store.files), retries, visits, port.pending, store.files)
      decreases LOAD_ATTEMPTS - retries
    {
      ghost var now, stored := port.pending, store.files;
      ghost var t := attempt(now, stored);
      assert t == TryLoad(hex, litres, now, stored, store.writable);
      var raised := LoadTurn(port, store, outbox, deviceId, hex, litres);
      AppendAssoc(old(outbox.published), Failures(deviceId, retries), [Acknowledgement(deviceId, if raised then LoadFailure else LoadSuccess)]);
      AppendAssoc(old(port.sent), Meter.Traffic(visits), Meter.Traffic(t.visits));
      Meter.TrafficAppend(visits, t.visits);
      if !raised {
        RetrySucceeds(deviceId, attempt, old(port.pending), old(store.files), retries, visits, now, stored);
        return;
      }
      RetryAdvance(deviceId, attempt, old(port.pending), old(store.files), retries, visits, now, stored);
      visits := visits + t.visits;
      retries := retries + 1;
    }
    RetryExhausted(deviceId, attempt, old(port.pending), old(store.files), visits, port.pending, store.files);
  }

  /** `datacb` (meter_mqtts.py:50-127). */
  method HandleCommand(port: Port, store: TargetStore, outbox: Outbox, msg: Option<Payload>)
    modifies port, store, outbox
    ensures var e := Handle(msg, old(port.pending), old(store.files), old(store.writable));
      outbox.published == old(outbox.published) + e.reports
      && port.sent == old(port.sent) + e.wire && port.pending == e.left
      && store.files == e.files
    ensures store.writable == old(store.writable)
  {
    if msg.None? || msg.value.deviceId.None? {
      return;
    }
    var payload := msg.value;
    var deviceId := payload.deviceId.value;
    var hex := DeviceHex(deviceId);
    if payload.message == Some("success") {
      if payload.litres.None? || payload.litres.value == 0 {
        return;
      }
      LoadTarget(port, store, outbox, deviceId, hex, payload.litres.value);
    } else if payload.message == Some("valve_open") || payload.message == Some("valve_close") {
      // A missing address raises when it is put in the frame.
      if hex.None? {
        return;
      }
      if payload.message == Some("valve_open") {
        Meter.OpenValve(port, hex.value);
      } else {
        Meter.CloseValve(port, hex.value);
      }
      outbox.Publish(Acknowledgement(deviceId, if payload.message == Some("valve_open") then ValveOpened else ValveClosed));
    }
  }
}

=== FILE: crc.dfy ===
/**
 * CRC-16/MODBUS as computed by `calculate_crc` (meter.py, meter_sim.py and
 * meter_tests.py hold the same code): register initialised to 0xFFFF, each
 * byte XORed into the low end, then eight right shifts, XORing the reflected
 * polynomial 0xA001 whenever a 1 bit falls out (Appendix B of the MODBUS over
 * Serial Line Specification and Implementation Guide V1.02).
 */
module Crc {

  /** One element of a bytearray. */
  type byte = bv8

  const INIT: bv16 := 0xFFFF

  /** One pass of the inner `for _ in range(8)` loop. */
  function ShiftBit(reg: bv16): bv16 {
    if reg & 1 == 1 then (reg >> 1) ^ 0xA001 else reg >> 1
  }

  /** `k` passes of the inner loop. */
  function Shifts(reg: bv16, k: nat): bv16 {
    if k == 0 then reg else ShiftBit(Shifts(reg, k - 1))
  }

  /** Eight passes of the inner loop, written out. */
  function Shift8(x: bv16): bv16 {
    ShiftBit(ShiftBit(ShiftBit(ShiftBit(ShiftBit(ShiftBit(ShiftBit(ShiftBit(x))))))))
  }

  /** The register after `crc ^= byte` and `k` passes of the inner loop. */
  function Absorb(reg: bv16, b: byte, k: nat): bv16 {
    if k == 0 then reg ^ (b as bv16) else ShiftBit(Absorb(reg, b, k - 1))
  }

  /** The register after one byte has been absorbed: XOR, then eight shifts. */
  function AddByte(reg: bv16, b: byte): bv16 {
    Absorb(reg, b, 8)
  }

  /** The register after absorbing `data`, first byte first, starting from `reg`. */
  function CrcFrom(reg: bv16, data: seq<byte>): bv16
    decreases |data|
  {
    if data == [] then reg else AddByte(CrcFrom(reg, data[..|data| - 1]), data[|data| - 1])
  }

  /** The CRC of `data`, as `calculate_crc` returns it. */
  function Crc16(data: seq<byte>): bv16 {
    CrcFrom(INIT, data)
  }

  /** Low byte of a CRC, sent first on the wire. */
  function Lo(c: bv16): byte { (c & 0xFF) as byte }

  /** High byte of a CRC, sent second on the wire. */
  function Hi(c: bv16): byte { (c >> 8) as byte }

  /** Absorbing a byte is XORing it in, then shifting. */
  lemma {:induction false} AbsorbShifts(reg: bv16, b: byte, k: nat)
    ensures Absorb(reg, b, k) == Shifts(reg ^ (b as bv16), k)
  {
    if k > 0 {
      AbsorbShifts(reg, b, k - 1);
    }
  }

  lemma AddByteShifts(reg: bv16, b: byte)
    ensures AddByte(reg, b) == Shifts(reg ^ (b as bv16), 8)
  {
    AbsorbShifts(reg, b, 8);
  }

  lemma AddByteShift8(reg: bv16, b: byte)
    ensures AddByte(reg, b) == Shift8(reg ^ (b as bv16))
  {
    AbsorbShifts(reg, b, 8);
    ShiftsEight(reg ^ (b as bv16));
  }

  /** Appending a byte extends the fold by one step. */
  lemma CrcFromSnoc(reg: bv16, data: seq<byte>, b: byte)
    ensures CrcFrom(reg, data + [b]) == AddByte(CrcFrom(reg, data), b)
  {
    assert (data + [b])[..|data|] == data;
  }

  /** Absorbing `x + y` is absorbing `x`, then `y`. */
  lemma {:induction false} CrcFromAppend(reg: bv16, x: seq<byte>, y: seq<byte>)
    ensures CrcFrom(reg, x + y) == CrcFrom(CrcFrom(reg, x), y)
    decreases |y|
  {
    if y == [] {
      assert x + y == x;
    } else {
      var init, last := y[..|y| - 1], y[|y| - 1];
      assert y == init + [last];
      assert x + y == (x + init) + [last];
      CrcFromAppend(reg, x, init);
      CrcFromSnoc(reg, x + init, last);
      CrcFromSnoc(CrcFrom(reg, x), init, last);
    }
  }

  /**
   * The nested loops of `calculate_crc` (meter.py:38-48) compute `Crc16`;
   * the result is a 16-bit value, 0xFFFF for the empty input.
   */
  method CalculateCrc(data: seq<byte>) returns (crc: int)
    ensures 0 <= crc <= 0xFFFF
    ensures data == [] ==> crc == 0xFFFF
    ensures crc == Crc16(data) as int
  {
    var reg: bv16 := INIT;
    for i := 0 to |data|
      invariant reg == CrcFrom(INIT, data[..i])
    {
      assert data[..i + 1][..i] == data[..i];
      reg := AbsorbByte(reg, data[i]);
    }
    assert data[..|data|] == data;
    crc := reg as int;
  }

  /** The body of the outer loop of `calculate_crc`. */
  method AbsorbByte(crc: bv16, b: byte) returns (reg: bv16)
    ensures reg == AddByte(crc, b)
  {
    reg := crc ^ (b as bv16);
    for k := 0 to 8
      invariant reg == Absorb(crc, b, k)
    {
      if reg & 1 == 1 {
        reg := reg >> 1;
        reg := reg ^ 0xA001;
      } else {
        reg := reg >> 1;
      }
    }
  }

  // ---------------------------------------------------------------------------
  // Linearity of the shift register over GF(2)

  /** Bitwise exclusive or, kept behind a name so that proofs can reason about it abstractly. */
  function Xor(a: bv16, b: bv16): bv16 { a ^ b }

  lemma ShiftBitLinear(x: bv16, y: bv16)
    ensures Xor(ShiftBit(x), ShiftBit(y)) == ShiftBit(Xor(x, y))
  {
    if x & 1 == 1 {
      if y & 1 == 1 { ShiftBitLinearOddOdd(x, y); } else { ShiftBitLinearOddEven(x, y); }
    } else {
      if y & 1 == 1 {
        ShiftBitLinearOddEven(y, x);
        XorCommutes(x, y);
      } else {
        ShiftBitLinearEvenEven(x, y);
      }
    }
  }

  lemma XorCommutes(x: bv16, y: bv16)
    ensures Xor(x, y) == Xor(y, x)
  {
  }

  lemma ShiftBitLinearOddOdd(x: bv16, y: bv16)
    requires x & 1 == 1 && y & 1 == 1
    ensures Xor(ShiftBit(x), ShiftBit(y)) == ShiftBit(Xor(x, y))
  {
  }

  lemma ShiftBitLinearOddEven(x: bv16, y: bv16)
    requires x & 1 == 1 && y & 1 == 0
    ensures Xor(ShiftBit(x), ShiftBit(y)) == ShiftBit(Xor(x, y))
  {
  }

  lemma ShiftBitLinearEvenEven(x: bv16, y: bv16)
    requires x & 1 == 0 && y & 1 == 0
    ensures Xor(ShiftBit(x), ShiftBit(y)) == ShiftBit(Xor(x, y))
  {
  }

  lemma ShiftBitZero(x: bv16)
    ensures ShiftBit(x) == 0 <==> x == 0
  {
  }

  lemma {:induction false} ShiftsLinear(x: bv16, y: bv16, k: nat)
    ensures Xor(Shifts(x, k), Shifts(y, k)) == Shifts(Xor(x, y), k)
  {
    if k > 0 {
      ShiftsLinear(x, y, k - 1);
      ShiftBitLinear(Shifts(x, k - 1), Shifts(y, k - 1));
    }
  }

  lemma {:induction false} ShiftsZero(x: bv16, k: nat)
    ensures Shifts(x, k) == 0 <==> x == 0
  {
    if k > 0 {
      ShiftsZero(x, k - 1);
      ShiftBitZero(Shifts(x, k - 1));
    }
  }

  /** `Shift8` is eight single passes. */
  lemma ShiftsEight(x: bv16)
    ensures Shifts(x, 8) == Shift8(x)
  {
    assert Shifts(x, 1) == ShiftBit(x);
    assert Shifts(x, 2) == ShiftBit(ShiftBit(x));
    assert Shifts(x, 3) == ShiftBit(ShiftBit(ShiftBit(x)));
    assert Shifts(x, 4) == ShiftBit(ShiftBit(ShiftBit(ShiftBit(x))));
    assert Shifts(x, 5) == ShiftBit(ShiftBit(ShiftBit(ShiftBit(ShiftBit(x)))));
    assert Shifts(x, 6) == ShiftBit(ShiftBit(ShiftBit(ShiftBit(ShiftBit(ShiftBit(x))))));
    assert Shifts(x, 7) == ShiftBit(ShiftBit(ShiftBit(ShiftBit(ShiftBit(ShiftBit(ShiftBit(x)))))));
  }

  /** Registers that differ before the eight shifts still differ after them. */
  lemma ShiftsKeepDifference(u: bv16, v: bv16)
    requires u != v
    ensures Shift8(u) != Shift8(v)
  {
    ShiftsEight(u);
    ShiftsEight(v);
    ShiftsEight(Xor(u, v));
    ShiftsLinear(u, v, 8);
    XorNonzero(u, v);
    ShiftsZero(Xor(u, v), 8);
    XorSelf(Shift8(u));
  }

  lemma XorNonzero(u: bv16, v: bv16)
    requires u != v
    ensures Xor(u, v) != 0
  {
  }

  lemma XorSelf(u: bv16)
    ensures Xor(u, u) == 0
  {
  }

  lemma XorKeepsDifference(r1: bv16, r2: bv16, x: bv16)
    requires r1 != r2
    ensures r1 ^ x != r2 ^ x
  {
  }

  lemma XorSeparates(r: bv16, a: byte, b: byte)
    requires a != b
    ensures r ^ (a as bv16) != r ^ (b as bv16)
  {
  }

  /** Two registers that differ still differ after absorbing the same byte. */
  lemma AddByteKeepsDifference(r1: bv16, r2: bv16, b: byte)
    requires r1 != r2
    ensures AddByte(r1, b) != AddByte(r2, b)
  {
    AddByteShift8(r1, b);
    AddByteShift8(r2, b);
    XorKeepsDifference(r1, r2, b as bv16);
    ShiftsKeepDifference(r1 ^ (b as bv16), r2 ^ (b as bv16));
  }

  /** One register absorbing two different bytes ends in two different states. */
  lemma AddByteSeparates(r: bv16, a: byte, b: byte)
    requires a != b
    ensures AddByte(r, a) != AddByte(r, b)
  {
    AddByteShift8(r, a);
    AddByteShift8(r, b);
    XorSeparates(r, a, b);
    ShiftsKeepDifference(r ^ (a as bv16), r ^ (b as bv16));
  }

  lemma {:induction false} DifferenceSurvives(r1: bv16, r2: bv16, data: seq<byte>)
    requires r1 != r2
    ensures CrcFrom(r1, data) != CrcFrom(r2, data)
    decreases |data|
  {
    if data != [] {
      var init := data[..|data| - 1];
      DifferenceSurvives(r1, r2, init);
      AddByteKeepsDifference(CrcFrom(r1, init), CrcFrom(r2, init), data[|data| - 1]);
    }
  }

  /**
   * Changing exactly one byte of the input changes the CRC: the check detects
   * every single-byte corruption.
   */
  lemma SingleByteChangeDetected(data: seq<byte>, i: nat, b: byte)
    requires i < |data| && data[i] != b
    ensures Crc16(data[i := b]) != Crc16(data)
  {
    var changed := data[i := b];
    var prefix, suffix := data[..i], data[i + 1..];
    assert data == prefix + [data[i]] + suffix;
    assert changed == prefix + [b] + suffix;
    CrcFromAppend(INIT, prefix + [data[i]], suffix);
    CrcFromAppend(INIT, prefix + [b], suffix);
    CrcFromSnoc(INIT, prefix, data[i]);
    CrcFromSnoc(INIT, prefix, b);
    AddByteSeparates(CrcFrom(INIT, prefix), b, data[i]);
    DifferenceSurvives(AddByte(CrcFrom(INIT, prefix), b), AddByte(CrcFrom(INIT, prefix), data[i]), suffix);
  }

  // ---------------------------------------------------------------------------
  // The residue of a frame that carries its own CRC

  /** Absorbing a register's own low byte, then its high byte, clears it. */
  lemma OwnBytesClear(c: bv16)
    ensures AddByte(AddByte(c, Lo(c)), Hi(c)) == 0
  {
    var r := AddByte(c, Lo(c));
    AddByteShifts(c, Lo(c));
    AddByteShifts(r, Hi(c));
    OwnShiftsClear(c);
  }

  lemma OwnShiftsClear(c: bv16)
    ensures Shifts(Shifts(c ^ (Lo(c) as bv16), 8) ^ (Hi(c) as bv16), 8) == 0
  {
    ShiftsEight(c ^ (Lo(c) as bv16));
    ShiftsEight(Shift8(c ^ (Lo(c) as bv16)) ^ (Hi(c) as bv16));
    OwnBitsClear(c);
  }

  lemma OwnBitsClear(c: bv16)
    ensures Shift8(Shift8(c ^ (Lo(c) as bv16)) ^ (Hi(c) as bv16)) == 0
  {
  }

  /** For a fixed register, only its own two bytes clear it. */
  lemma OnlyOwnBytesClear(c: bv16, lo: byte, hi: byte)
    requires AddByte(AddByte(c, lo), hi) == 0
    ensures lo == Lo(c) && hi == Hi(c)
  {
    var r := AddByte(c, lo);
    AddByteShifts(c, lo);
    AddByteShifts(r, hi);
    OnlyOwnShiftsClear(c, lo, hi);
  }

  lemma OnlyOwnShiftsClear(c: bv16, lo: byte, hi: byte)
    requires Shifts(Shifts(c ^ (lo as bv16), 8) ^ (hi as bv16), 8) == 0
    ensures lo == Lo(c) && hi == Hi(c)
  {
    ShiftsEight(c ^ (lo as bv16));
    ShiftsEight(Shift8(c ^ (lo as bv16)) ^ (hi as bv16));
    OnlyOwnBitsClear(c, lo, hi);
  }

  lemma OnlyOwnBitsClear(c: bv16, lo: byte, hi: byte)
    requires Shift8(Shift8(c ^ (lo as bv16)) ^ (hi as bv16)) == 0
    ensures lo == Lo(c) && hi == Hi(c)
  {
  }

  /** The check value of CRC-16/MODBUS: the CRC of the ASCII digits "123456789" is 0x4B37. */
  lemma Crc16CheckValue()
    ensures Crc16([0x31, 0x32, 0x33, 0x34, 0x35, 0x36, 0x37, 0x38, 0x39]) == 0x4B37
  {
    var s0: seq<byte> := [];
    CheckStep(s0, 0x31, 0xFFFF, 0x947E);
    var s1 := s0 + [0x31];
    CheckStep(s1, 0x32, 0x947E, 0xF595);
    var s2 := s1 + [0x32];
    CheckStep(s2, 0x33, 0xF595, 0x7A75);
    var s3 := s2 + [0x33];
    CheckStep(s3, 0x34, 0x7A75, 0x30BA);
    var s4 := s3 + [0x34];
    CheckStep(s4, 0x35, 0x30BA, 0xA471);
    var s5 := s4 + [0x35];
    CheckStep(s5, 0x36, 0xA471, 0x32E4);
    var s6 := s5 + [0x36];
    CheckStep(s6, 0x37, 0x32E4, 0x9D73);
    var s7 := s6 + [0x37];
    CheckStep(s7, 0x38, 0x9D73, 0x37DD);
    var s8 := s7 + [0x38];
    CheckStep(s8, 0x39, 0x37DD, 0x4B37);
    assert s8 + [0x39] == [0x31, 0x32, 0x33, 0x34, 0x35, 0x36, 0x37, 0x38, 0x39];
  }

  /** One byte of the check-value computation: absorbing `b` takes the register from `before` to `after`. */
  lemma CheckStep(prefix: seq<byte>, b: byte, before: bv16, after: bv16)
    requires CrcFrom(INIT, prefix) == before
    requires Shift8(before ^ (b as bv16)) == after
    ensures CrcFrom(INIT, prefix + [b]) == after
  {
    CrcFromSnoc(INIT, prefix, b);
    AddByteShift8(before, b);
  }
}

=== FILE: frames.dfy ===
/**
 * Modbus RTU frames as the meter code builds and checks them: a body followed
 * by its CRC-16, low byte first (section 2.5.1.2 of the MODBUS over Serial Line
 * Specification and Implementation Guide V1.02).
 */
module Frames {
  import opened Crc

  /** Function code Read Holding Registers. */
  const READ_HOLDING: byte := 0x03
  /** Function code Write Multiple Registers. */
  const WRITE_MULTIPLE: byte := 0x10

  /**
   * A Python integer stored into a `bytearray` slot: MicroPython does not
   * check the range and keeps the low eight bits, so -1 is stored as 255 and
   * 300 as 44.
   */
  function Slot(a: int): (b: byte)
    ensures 0 <= a < 256 ==> b == a as byte
  {
    (a % 256) as byte
  }

  /** Integers 256 apart land in the same slot value. */
  lemma SlotWraps(a: int, k: int)
    ensures Slot(a + 256 * k) == Slot(a)
  {
    assert (a + 256 * k) % 256 == a % 256;
  }

  /** -1 is stored as 0xFF and 300 as 0x2C (44). */
  lemma SlotExamples()
    ensures Slot(-1) == 0xFF && Slot(300) == 0x2C
  {
    assert -1 % 256 == 255;
    assert 300 % 256 == 44;
  }

  /** `lo | (hi << 8)` computed in the 16-bit register. */
  function Join(lo: byte, hi: byte): bv16 {
    (lo as bv16) | ((hi as bv16) << 8)
  }

  /** The value of two bytes read as a big-endian register, `(hi << 8) | lo`. */
  function Word(hi: byte, lo: byte): (w: int)
    ensures 0 <= w < 65536
  {
    Join(lo, hi) as int
  }

  /** The word of `hi`, `lo` is `256 * hi + lo`. */
  lemma WordValue(hi: byte, lo: byte)
    ensures Word(hi, lo) == 256 * hi as int + lo as int
  {
    assert Join(lo, hi) == (lo as bv16) | ((hi as bv16) << 8);
    JoinBits(lo, hi);
  }

  lemma JoinBits(lo: byte, hi: byte)
    ensures ((lo as bv16) | ((hi as bv16) << 8)) as int == lo as int + 256 * hi as int
  {
  }

  /** A register is joined back from its two bytes. */
  lemma JoinSplit(c: bv16)
    ensures Join(Lo(c), Hi(c)) == c
  {
  }

  /** Two bytes are split back out of their join. */
  lemma SplitJoin(lo: byte, hi: byte)
    ensures Lo(Join(lo, hi)) == lo && Hi(Join(lo, hi)) == hi
  {
  }

  /** The big-endian word of a register's high and low byte is the register's value. */
  lemma WordOfRegister(c: bv16)
    ensures Word(Hi(c), Lo(c)) == c as int
  {
    JoinSplit(c);
  }

  /** Two registers with the same integer value are the same register. */
  lemma ValueInjective(c: bv16, d: bv16)
    requires c as int == d as int
    ensures c == d
  {
    RegisterRoundTrip(c);
    RegisterRoundTrip(d);
  }

  lemma RegisterRoundTrip(c: bv16)
    ensures (c as int) as bv16 == c
  {
  }

  /** Two bytes determine their word, and the word determines them. */
  lemma WordInjective(hi1: byte, lo1: byte, hi2: byte, lo2: byte)
    ensures Word(hi1, lo1) == Word(hi2, lo2) <==> hi1 == hi2 && lo1 == lo2
  {
    if Word(hi1, lo1) == Word(hi2, lo2) {
      ValueInjective(Join(lo1, hi1), Join(lo2, hi2));
      SplitJoin(lo1, hi1);
      SplitJoin(lo2, hi2);
    }
  }

  /** The CRC a frame carries in its last two bytes, `frame[-2] | (frame[-1] << 8)`. */
  function CarriedCrc(frame: seq<byte>): bv16
    requires |frame| >= 2
  {
    Join(frame[|frame| - 2], frame[|frame| - 1])
  }

  /**
   * `verify_crc`: a frame shorter than three bytes fails; otherwise the CRC it
   * carries in its last two bytes must equal the CRC of everything before them.
   */
  predicate VerifyCrc(frame: seq<byte>) {
    |frame| >= 3 && Crc16(frame[..|frame| - 2]) == CarriedCrc(frame)
  }

  /**
   * The check compares integers in the source: the value `calculate_crc`
   * returns against `frame[-2] | (frame[-1] << 8)`; comparing the registers is
   * the same test.
   */
  lemma VerifyCrcComparesIntegers(frame: seq<byte>)
    requires |frame| >= 3
    ensures VerifyCrc(frame) <==> Crc16(frame[..|frame| - 2]) as int == Word(frame[|frame| - 1], frame[|frame| - 2])
  {
    var n := |frame|;
    if Crc16(frame[..n - 2]) as int == Word(frame[n - 1], frame[n - 2]) {
      ValueInjective(Crc16(frame[..n - 2]), CarriedCrc(frame));
    }
  }

  /** The carried bytes match a register exactly when they are its low and high byte. */
  lemma CarriedBytes(lo: byte, hi: byte, c: bv16)
    ensures Join(lo, hi) == c <==> lo == Lo(c) && hi == Hi(c)
  {
    JoinSplit(c);
    SplitJoin(lo, hi);
  }

  /** A frame passes the check exactly when running the CRC over all of it, CRC included, leaves a zero register. */
  lemma VerifyCrcIsResidue(frame: seq<byte>)
    ensures VerifyCrc(frame) <==> |frame| >= 3 && Crc16(frame) == 0
  {
    var n := |frame|;
    if n >= 3 {
      var body, lo, hi := frame[..n - 2], frame[n - 2], frame[n - 1];
      assert frame == (body + [lo]) + [hi];
      CrcFromSnoc(INIT, body + [lo], hi);
      CrcFromSnoc(INIT, body, lo);
      var c := Crc16(body);
      CarriedBytes(lo, hi, c);
      if Crc16(frame) == 0 {
        OnlyOwnBytesClear(c, lo, hi);
      } else if lo == Lo(c) && hi == Hi(c) {
        OwnBytesClear(c);
      }
    }
  }

  /** A frame body followed by its CRC, low byte first. */
  function WithCrc(body: seq<byte>): (frame: seq<byte>)
    ensures |frame| == |body| + 2 && frame[..|body|] == body
  {
    var c := Crc16(body);
    body + [Lo(c), Hi(c)]
  }

  /** A non-empty body followed by its own CRC passes the check. */
  lemma WithCrcVerifies(body: seq<byte>)
    requires |body| >= 1
    ensures VerifyCrc(WithCrc(body))
  {
    var c := Crc16(body);
    var frame := WithCrc(body);
    assert frame[..|frame| - 2] == body;
    CarriedBytes(Lo(c), Hi(c), c);
  }

  /** A frame that passes the check is its body followed by the body's CRC. */
  lemma VerifiedIsWithCrc(frame: seq<byte>)
    requires VerifyCrc(frame)
    ensures frame == WithCrc(frame[..|frame| - 2])
  {
    var n := |frame|;
    var c := Crc16(frame[..n - 2]);
    CarriedBytes(frame[n - 2], frame[n - 1], c);
    assert frame == frame[..n - 2] + [frame[n - 2], frame[n - 1]];
  }

  /** Every frame that has been corrupted in exactly one byte fails the check. */
  lemma CorruptedFrameRejected(frame: seq<byte>, i: nat, b: byte)
    requires VerifyCrc(frame)
    requires i < |frame| && frame[i] != b
    ensures !VerifyCrc(frame[i := b])
  {
    VerifyCrcIsResidue(frame);
    VerifyCrcIsResidue(frame[i := b]);
    SingleByteChangeDetected(frame, i, b);
  }

  /**
   * `build_modbus_request`: address, function code, register and count as
   * big-endian 16-bit fields, then the CRC (`RequestLayout` states the layout).
   */
  function BuildRequest(address: byte, code: byte, register: bv16, count: bv16): (frame: seq<byte>)
    ensures |frame| == 8
  {
    WithCrc([address, code, Hi(register), Lo(register), Hi(count), Lo(count)])
  }

  /** The request frame carries its fields in order and a valid CRC. */
  lemma RequestLayout(address: byte, code: byte, register: bv16, count: bv16)
    ensures var frame := BuildRequest(address, code, register, count);
      frame[0] == address && frame[1] == code
      && Word(frame[2], frame[3]) == register as int
      && Word(frame[4], frame[5]) == count as int
      && VerifyCrc(frame)
  {
    var body := [address, code, Hi(register), Lo(register), Hi(count), Lo(count)];
    assert BuildRequest(address, code, register, count)[..6] == body;
    WordOfRegister(register);
    WordOfRegister(count);
    WithCrcVerifies(body);
  }

  /**
   * The frame `write_single_register` sends: Write Multiple Registers with a
   * quantity of one register and a byte count of two, then the value and the
   * CRC (`WriteLayout` states the layout).
   */
  function BuildWrite(address: byte, register: bv16, value: bv16): (frame: seq<byte>)
    ensures |frame| == 11
  {
    WithCrc([address, WRITE_MULTIPLE, Hi(register), Lo(register), 0, 1, 2, Hi(value), Lo(value)])
  }

  /** The write frame carries its fields in order and a valid CRC. */
  lemma WriteLayout(address: byte, register: bv16, value: bv16)
    ensures var frame := BuildWrite(address, register, value);
      frame[0] == address && frame[1] == WRITE_MULTIPLE
      && Word(frame[2], frame[3]) == register as int
      && Word(frame[4], frame[5]) == 1 && frame[6] == 2
      && Word(frame[7], frame[8]) == value as int
      && VerifyCrc(frame)
  {
    var body := [address, WRITE_MULTIPLE, Hi(register), Lo(register), 0, 1, 2, Hi(value), Lo(value)];
    assert BuildWrite(address, register, value)[..9] == body;
    WordOfRegister(register);
    WordOfRegister(value);
    WithCrcVerifies(body);
  }

  /**
   * A meter's normal reply to Read Holding Registers for two registers:
   * address, function code, byte count 4, the two registers big-endian, then
   * the CRC (section 6.3 of the MODBUS Application Protocol Specification
   * V1.1b3).
   */
  function TwoRegisterReply(address: byte, first: bv16, second: bv16): (frame: seq<byte>)
    ensures |frame| == 9
    ensures frame[0] == address && frame[1] == READ_HOLDING && frame[2] == 4
    ensures Word(frame[3], frame[4]) == first as int
    ensures VerifyCrc(frame)
  {
    var body := [address, READ_HOLDING, 4, Hi(first), Lo(first), Hi(second), Lo(second)];
    var frame := WithCrc(body);
    WithCrcVerifies(body);
    assert frame[..|body|] == body;
    assert frame[3] == Hi(first) && frame[4] == Lo(first);
    WordOfRegister(first);
    frame
  }

  /** The same reply for one register (the voltage reading): byte count 2, then the register's two bytes. */
  function OneRegisterReply(address: byte, hi: byte, lo: byte): (frame: seq<byte>)
    ensures |frame| == 7
    ensures frame[0] == address && frame[1] == READ_HOLDING && frame[2] == 2
    ensures frame[3] == hi && frame[4] == lo
    ensures VerifyCrc(frame)
  {
    var body := [address, READ_HOLDING, 2, hi, lo];
    var frame := WithCrc(body);
    WithCrcVerifies(body);
    assert frame[..|body|] == body;
    frame
  }
}

=== FILE: meter.dfy ===
/**
 * meter.py: reading a meter with bounded retries and the prepaid valve policy.
 * A meter's valve is closed once its cumulative volume has reached the target
 * stored for it and opened otherwise; the first successful reading of a meter
 * without a stored target becomes its target.
 */
module Meter {
  import opened Wrappers
  import opened Crc
  import opened Frames
  import opened Uart
  import opened Modbus
  import opened Storage
  import opened Broker

  /** `get_valid_volume`'s default number of reads. */
  const RETRIES: nat := 5

  /** The reading a single request yields, given the bytes that arrive in answer. */
  function Attempt(address: int, arrived: seq<byte>): Option<int> {
    AcceptVolume(address, Received(arrived, VOLUME_REPLY_LENGTH))
  }

  /** The outcome of a bounded series of reads: the reading, and how many requests were sent. */
  datatype Poll = Poll(reading: Option<int>, tries: nat)

  /** A poll seen from `k` requests earlier. */
  function Later(p: Poll, k: nat): Poll {
    Poll(p.reading, p.tries + k)
  }

  /**
   * `get_valid_volume` on the answers `pending`: at most `retries` requests,
   * stopping at the first accepted answer.
   */
  function FirstVolume(address: int, pending: seq<seq<byte>>, retries: nat): (p: Poll)
    ensures p.tries <= retries
  {
    if retries == 0 then Poll(None, 0)
    else
      var reading := Attempt(address, Reply(pending, 0));
      if reading.Some? then Poll(reading, 1)
      else Later(FirstVolume(address, Drop(pending, 1), retries - 1), 1)
  }

  /**
   * `get_valid_volume` returns the reading of the first accepted answer, after
   * as many requests as answers it examined; `None` only after `retries`
   * answers were all rejected.
   */
  lemma {:induction false} FirstVolumeIsFirstAccepted(address: int, pending: seq<seq<byte>>, retries: nat)
    ensures var p := FirstVolume(address, pending, retries);
      (forall j :: 0 <= j < p.tries - 1 ==> Attempt(address, Reply(pending, j)).None?)
      && (p.reading.Some? ==> 1 <= p.tries && Attempt(address, Reply(pending, p.tries - 1)) == p.reading)
      && (p.reading.None? ==> p.tries == retries && forall j :: 0 <= j < retries ==> Attempt(address, Reply(pending, j)).None?)
  {
    if retries > 0 && Attempt(address, Reply(pending, 0)).None? {
      var rest := Drop(pending, 1);
      FirstVolumeIsFirstAccepted(address, rest, retries - 1);
      forall j | 1 <= j < retries
        ensures Reply(pending, j) == Reply(rest, j - 1)
      {
        ReplyAfter(pending, 1, j - 1);
      }
    }
  }

  /** `read_cumulative_flow` (meter.py:89-98). */
  method ReadCumulativeFlow(port: Port, address: int) returns (r: Option<int>)
    modifies port
    ensures r == Attempt(address, Reply(old(port.pending), 0))
    ensures port.sent == old(port.sent) + [VolumeRequest(Slot(address))]
    ensures port.pending == Drop(old(port.pending), 1)
  {
    var response := port.Exchange(VolumeRequest(Slot(address)), VOLUME_REPLY_LENGTH);
    r := AcceptVolume(address, response);
  }

  /** The frames `n` volume requests put on the line, each to the address truncated to a byte. */
  function Requests(address: int, n: nat): (frames: seq<seq<byte>>)
    ensures |frames| == n
  {
    Repeat(VolumeRequest(Slot(address)), n)
  }

  /** `get_valid_volume` (meter.py:108-114). */
  method GetValidVolume(port: Port, address: int, retries: nat) returns (r: Option<int>)
    modifies port
    ensures var p := FirstVolume(address, old(port.pending), retries);
      r == p.reading
      && port.sent == old(port.sent) + Requests(address, p.tries)
      && port.pending == Drop(old(port.pending), p.tries)
  {
    ghost var start, startSent := port.pending, port.sent;
    ghost var total := FirstVolume(address, start, retries);
    var attempt := 0;
    while attempt < retries
      invariant attempt <= retries
      invariant port.sent == startSent + Requests(address, attempt)
      invariant port.pending == Drop(start, attempt)
      invariant total == Later(FirstVolume(address, port.pending, retries - attempt), attempt)
    {
      ghost var before, history := port.pending, port.sent;
      var volume := ReadCumulativeFlow(port, address);
      RequestsNext(startSent, address, attempt, history, port.sent);
      DropDrop(start, attempt, 1);
      FirstVolumeStep(address, before, retries - attempt);
      if volume.Some? {
        assert total == Poll(volume, attempt + 1);
        return volume;
      }
      attempt := attempt + 1;
    }
    assert total == Poll(None, retries);
    r := None;
  }

  /** One more request extends the record of frames sent by one volume request. */
  lemma RequestsNext(start: seq<seq<byte>>, address: int, n: nat, history: seq<seq<byte>>, sent: seq<seq<byte>>)
    requires history == start + Requests(address, n)
    requires sent == history + [VolumeRequest(Slot(address))]
    ensures sent == start + Requests(address, n + 1)
  {
    AppendAssoc(start, Requests(address, n), [VolumeRequest(Slot(address))]);
  }

  /** One step of the series of reads. */
  lemma FirstVolumeStep(address: int, pending: seq<seq<byte>>, retries: nat)
    requires retries > 0
    ensures Attempt(address, Reply(pending, 0)).Some? ==> FirstVolume(address, pending, retries) == Poll(Attempt(address, Reply(pending, 0)), 1)
    ensures Attempt(address, Reply(pending, 0)).None? ==> FirstVolume(address, pending, retries) == Later(FirstVolume(address, Drop(pending, 1), retries - 1), 1)
  {
  }

  /** `open_valve` (meter.py:100-102): write 0x0001 to the valve register; the acknowledgement is ignored. */
  method OpenValve(port: Port, address: int)
    modifies port
    ensures port.sent == old(port.sent) + [ValveFrame(Slot(address), Open)]
    ensures port.pending == Drop(old(port.pending), 1)
  {
    var _ := WriteSingleRegister(port, address, VALVE_REGISTER, ValveCode(Open));
  }

  /** `close_valve` (meter.py:104-106): write 0x0002 to the valve register; the acknowledgement is ignored. */
  method CloseValve(port: Port, address: int)
    modifies port
    ensures port.sent == old(port.sent) + [ValveFrame(Slot(address), Close)]
    ensures port.pending == Drop(old(port.pending), 1)
  {
    var _ := WriteSingleRegister(port, address, VALVE_REGISTER, ValveCode(Close));
  }

  /**
   * What happened at one meter during a pass over the addresses: its reading,
   * the target the policy used, the valve command issued, how many volume
   * requests went out, and the target files afterwards.
   */
  datatype Visit = Visit(
    address: int,
    reading: Option<int>,
    target: Option<int>,
    command: Option<Valve>,
    tries: nat,
    files: Files)

  /** How many frames a visit puts on the line, and so how many answers it consumes. */
  function Sent(v: Visit): nat {
    v.tries + (if v.command.Some? then 1 else 0)
  }

  /** The valve command a visit puts on the line, if it issued one. */
  function Command(v: Visit): (frames: seq<seq<byte>>)
    ensures |frames| == if v.command.Some? then 1 else 0
  {
    if v.command.Some? then [ValveFrame(Slot(v.address), v.command.value)] else []
  }

  /** The frames a visit puts on the line: its volume requests, then its valve command. */
  function Wire(v: Visit): seq<seq<byte>> {
    Requests(v.address, v.tries) + Command(v)
  }

  /** The valve command the policy issues: close once the volume has reached the target. */
  function Policy(current: int, target: int): (v: Valve)
    ensures v == Close <==> current >= target
  {
    if current >= target then Close else Open
  }

  /**
   * What `monitor_target` does at a meter once the series of reads is over
   * (meter.py:122-139): without a reading the meter is skipped; otherwise the
   * stored target is used, or the reading is saved as the target when there
   * is none, and the policy picks the valve command.
   */
  function Decide(address: int, poll: Poll, files: Files, writable: bool): Visit {
    match poll.reading
    case None => Visit(address, None, None, None, poll.tries, files)
    case Some(current) =>
      var stored := Loaded(files, address);
      var target := if stored.Some? then stored.value else current;
      var after := if stored.Some? then files else Saved(files, writable, address, current);
      Visit(address, Some(current), Some(target), Some(Policy(current, target)), poll.tries, after)
  }

  /**
   * The body of the loop of `monitor_target` (meter.py:120-139), which
   * `read_meter_parameters_upload` repeats before publishing (meter.py:143-162).
   */
  function Enforce(address: int, pending: seq<seq<byte>>, files: Files, writable: bool): (v: Visit)
    ensures v.address == address
  {
    Decide(address, FirstVolume(address, pending, RETRIES), files, writable)
  }

  /**
   * What a visit does: it reads the meter as `get_valid_volume` does; a meter
   * that cannot be read is skipped (no command, no write); otherwise the valve
   * is closed exactly when the volume has reached the target, a stored target
   * is used and left alone, and without one the reading becomes the target and
   * is saved.
   */
  lemma EnforceIsPolicy(address: int, pending: seq<seq<byte>>, files: Files, writable: bool)
    ensures var v := Enforce(address, pending, files, writable);
      var poll := FirstVolume(address, pending, RETRIES);
      v.reading == poll.reading && v.tries == poll.tries
      && (v.reading.None? ==> v.command == None && v.files == files)
      && (v.reading.Some? ==> v.target.Some? && v.command == Some(Policy(v.reading.value, v.target.value)))
      && (Loaded(files, address).Some? ==> v.files == files && (v.reading.Some? ==> v.target == Loaded(files, address)))
      && (Loaded(files, address).None? && v.reading.Some? ==>
            v.target == v.reading && v.files == Saved(files, writable, address, v.reading.value))
  {
  }

  /** A visit to a meter that has a stored target leaves the files as they are. */
  lemma EnforceKeepsStored(address: int, pending: seq<seq<byte>>, files: Files, writable: bool)
    requires Loaded(files, address).Some?
    ensures Enforce(address, pending, files, writable).files == files
  {
  }

  /** No answer is accepted for an address outside 0..255, so every one of the reads is made and fails. */
  lemma {:induction false} WrappedAddressNeverRead(address: int, pending: seq<seq<byte>>, retries: nat)
    requires !IsByte(address)
    ensures FirstVolume(address, pending, retries) == Poll(None, retries)
    decreases retries
  {
    if retries > 0 {
      Modbus.WrappedAddressUnread(address, Received(Reply(pending, 0), VOLUME_REPLY_LENGTH));
      WrappedAddressNeverRead(address, Drop(pending, 1), retries - 1);
    }
  }

  /**
   * A meter whose address lies outside 0..255 is polled `RETRIES` times at the
   * truncated address, and then skipped: no reading, no valve command, and the
   * target files untouched.
   */
  lemma WrappedAddressSkipped(address: int, pending: seq<seq<byte>>, files: Files, writable: bool)
    requires !IsByte(address)
    ensures Enforce(address, pending, files, writable) == Visit(address, None, None, None, RETRIES, files)
    ensures Wire(Enforce(address, pending, files, writable)) == Repeat(VolumeRequest(Slot(address)), RETRIES)
  {
    WrappedAddressNeverRead(address, pending, RETRIES);
    var v := Enforce(address, pending, files, writable);
    assert Command(v) == [];
    assert Wire(v) == Requests(address, RETRIES) + [];
  }

  /**
   * The part of the loop body of `monitor_target` after the reads
   * (meter.py:122-139), against the store and the bus.
   */
  method ApplyTarget(port: Port, store: TargetStore, address: int, reading: Option<int>, ghost tries: nat)
    returns (target: Option<int>, ghost visit: Visit)
    modifies port, store
    ensures visit == Decide(address, Poll(reading, tries), old(store.files), old(store.writable))
    ensures target == visit.target
    ensures port.sent == old(port.sent) + Command(visit)
    ensures port.pending == Drop(old(port.pending), |Command(visit)|)
    ensures store.files == visit.files && store.writable == old(store.writable)
  {
    visit := Decide(address, Poll(reading, tries), store.files, store.writable);
    target := store.LoadTargetReading(address);
    if target.None? {
      if reading.Some? {
        store.SaveTargetReading(address, reading.value);
        target := reading;
      } else {
        return;
      }
    }
    if reading.None? {
      return None, visit;
    }
    if Policy(reading.value, target.value) == Close {
      CloseValve(port, address);
    } else {
      OpenValve(port, address);
    }
  }

  /**
   * One loop body of `monitor_target` (meter.py:120-139) against the bus and
   * the store; `visit` records what `Enforce` says happened.
   */
  method MonitorAddress(port: Port, store: TargetStore, address: int)
    returns (reading: Option<int>, target: Option<int>, ghost visit: Visit)
    modifies port, store
    ensures store.writable == old(store.writable)
    ensures visit == Enforce(address, old(port.pending), old(store.files), old(store.writable))
    ensures reading == visit.reading && target == visit.target
    ensures port.sent == old(port.sent) + Wire(visit)
    ensures port.pending == Drop(old(port.pending), Sent(visit))
    ensures store.files == visit.files
  {
    reading := GetValidVolume(port, address, RETRIES);
    ghost var poll := FirstVolume(address, old(port.pending), RETRIES);
    target, visit := ApplyTarget(port, store, address, reading, poll.tries);
    AppendAssoc(old(port.sent), Requests(address, poll.tries), Command(visit));
    DropDrop(old(port.pending), poll.tries, |Command(visit)|);
  }

  /** The combined result of a pass over several meters: the target files afterwards and the visits made. */
  datatype Pass = Pass(files: Files, visits: seq<Visit>)

  /**
   * A pass of `monitor_target` over `addresses`: the meters are visited in
   * order, each on the answers left by the ones before and on the files the
   * ones before left.
   */
  function Sweep(addresses: seq<int>, pending: seq<seq<byte>>, files: Files, writable: bool): (p: Pass)
    decreases |addresses|
  {
    if addresses == [] then Pass(files, [])
    else
      var v := Enforce(addresses[0], pending, files, writable);
      var rest := Sweep(addresses[1..], Drop(pending, Sent(v)), v.files, writable);
      Pass(rest.files, [v] + rest.visits)
  }

  /** A pass visits every address, once and in order. */
  lemma {:induction false} SweepShape(addresses: seq<int>, pending: seq<seq<byte>>, files: Files, writable: bool)
    ensures var p := Sweep(addresses, pending, files, writable);
      |p.visits| == |addresses|
      && forall k :: 0 <= k < |p.visits| ==> p.visits[k].address == addresses[k]
    decreases |addresses|
  {
    if addresses != [] {
      var v := Enforce(addresses[0], pending, files, writable);
      SweepShape(addresses[1..], Drop(pending, Sent(v)), v.files, writable);
    }
  }

  /** A pass over a single meter is that meter's visit. */
  lemma SweepOne(address: int, pending: seq<seq<byte>>, files: Files, writable: bool)
    ensures var v := Enforce(address, pending, files, writable);
      Sweep([address], pending, files, writable) == Pass(v.files, [v])
  {
    assert [address][1..] == [];
  }

  /** Every frame a series of visits puts on the line, in order. */
  function Traffic(visits: seq<Visit>): seq<seq<byte>> {
    if visits == [] then [] else Traffic(visits[..|visits| - 1]) + Wire(visits[|visits| - 1])
  }

  /** How many answers a series of visits consumes. */
  function Used(visits: seq<Visit>): nat {
    if visits == [] then 0 else Used(visits[..|visits| - 1]) + Sent(visits[|visits| - 1])
  }

  /** After the visits of `addresses[..i]`, the pass is what has happened so far followed by the pass over the rest. */
  ghost predicate SweptSoFar(addresses: seq<int>, pending: seq<seq<byte>>, files: Files, writable: bool,
                             i: nat, visits: seq<Visit>, now: seq<seq<byte>>, stored: Files)
    requires i <= |addresses|
  {
    var rest := Sweep(addresses[i..], now, stored, writable);
    Sweep(addresses, pending, files, writable) == Pass(rest.files, visits + rest.visits)
  }

  /** A visit that completes carries the pass one address further. */
  lemma SweepAdvance(addresses: seq<int>, pending: seq<seq<byte>>, files: Files, writable: bool,
                     i: nat, visits: seq<Visit>, now: seq<seq<byte>>, stored: Files, v: Visit)
    requires i < |addresses|
    requires SweptSoFar(addresses, pending, files, writable, i, visits, now, stored)
    requires Enforce(addresses[i], now, stored, writable) == v
    ensures SweptSoFar(addresses, pending, files, writable, i + 1, visits + [v], Drop(now, Sent(v)), v.files)
  {
    assert addresses[i..][1..] == addresses[i + 1..];
    var rest := Sweep(addresses[i + 1..], Drop(now, Sent(v)), v.files, writable);
    AppendAssoc(visits, [v], rest.visits);
  }

  /** Once every address is visited, the pass is complete. */
  lemma SweepFinished(addresses: seq<int>, pending: seq<seq<byte>>, files: Files, writable: bool,
                      visits: seq<Visit>, now: seq<seq<byte>>, stored: Files)
    requires SweptSoFar(addresses, pending, files, writable, |addresses|, visits, now, stored)
    ensures Sweep(addresses, pending, files, writable) == Pass(stored, visits)
  {
    assert addresses[|addresses|..] == [];
    assert visits + [] == visits;
  }

  /** The pass over all of `addresses` starts with nothing done. */
  lemma SweepStarts(addresses: seq<int>, pending: seq<seq<byte>>, files: Files, writable: bool)
    ensures SweptSoFar(addresses, pending, files, writable, 0, [], pending, files)
  {
    assert addresses[0..] == addresses;
    assert [] + Sweep(addresses, pending, files, writable).visits == Sweep(addresses, pending, files, writable).visits;
  }

  /** The line and the store after one more visit. */
  lemma TrafficNext(sent: seq<seq<byte>>, pending: seq<seq<byte>>, visits: seq<Visit>, v: Visit)
    ensures sent + Traffic(visits) + Wire(v) == sent + Traffic(visits + [v])
    ensures Drop(Drop(pending, Used(visits)), Sent(v)) == Drop(pending, Used(visits + [v]))
  {
    assert (visits + [v])[..|visits|] == visits;
    AppendAssoc(sent, Traffic(visits), Wire(v));
    DropDrop(pending, Used(visits), Sent(v));
  }

  /** The frames of a single visit are that visit's frames. */
  lemma TrafficOne(v: Visit)
    ensures Traffic([v]) == Wire(v)
  {
    assert [v][..0] == [];
  }

  /** The frames of two series of visits, one after the other, are the frames of each, one after the other. */
  lemma {:induction false} TrafficAppend(a: seq<Visit>, b: seq<Visit>)
    ensures Traffic(a + b) == Traffic(a) + Traffic(b)
    decreases |b|
  {
    if b == [] {
      assert a + b == a;
    } else {
      var c := b[..|b| - 1];
      assert (a + b)[..|a + b| - 1] == a + c;
      TrafficAppend(a, c);
      AppendAssoc(Traffic(a), Traffic(c), Wire(b[|b| - 1]));
    }
  }

  /** `monitor_target` (meter.py:116-139). */
  method MonitorTarget(port: Port, store: TargetStore, addresses: seq<int>)
    modifies port, store
    ensures var p := Sweep(addresses, old(port.pending), old(store.files), old(store.writable));
      port.sent == old(port.sent) + Traffic(p.visits)
      && port.pending == Drop(old(port.pending), Used(p.visits))
      && store.files == p.files
    ensures store.writable == old(store.writable)
  {
    ghost var visits: seq<Visit> := [];
    SweepStarts(addresses, port.pending, store.files, store.writable);
    for i := 0 to |addresses|
      invariant store.writable == old(store.writable)
      invariant port.sent == old(port.sent) + Traffic(visits)
      invariant port.pending == Drop(old(port.pending), Used(visits))
      invariant SweptSoFar(addresses, old(port.pending), old(store.files), store.writable, i, visits, port.pending, store.files)
    {
      ghost var now, stored := port.pending, store.files;
      ghost var visit;
      var reading, target;
      reading, target, visit := MonitorAddress(port, store, addresses[i]);
      SweepAdvance(addresses, old(port.pending), old(store.files), store.writable, i, visits, now, stored, visit);
      TrafficNext(old(port.sent), old(port.pending), visits, visit);
      visits := visits + [visit];
    }
    SweepFinished(addresses, old(port.pending), old(store.files), store.writable, visits, port.pending, store.files);
  }

  /** The reports a pass publishes: one per meter that was read, with its reading and its target. */
  function Reports(visits: seq<Visit>): (reports: seq<Report>)
  {
    if visits == [] then []
    else
      var v := visits[|visits| - 1];
      Reports(visits[..|visits| - 1])
      + (if v.reading.Some? && v.target.Some? then [Telemetry(v.address, v.reading.value, v.target.value)] else [])
  }

  /**
   * `read_meter_parameters_upload` (meter.py:141-174): the same pass as
   * `monitor_target`, publishing a telemetry report after each meter that was
   * read; a failed publish is ignored.
   */
  method ReadMeterParametersUpload(port: Port, store: TargetStore, outbox: Outbox, addresses: seq<int>)
    modifies port, store, outbox
    ensures var p := Sweep(addresses, old(port.pending), old(store.files), old(store.writable));
      port.sent == old(port.sent) + Traffic(p.visits)
      && port.pending == Drop(old(port.pending), Used(p.visits))
      && store.files == p.files
      && outbox.published == old(outbox.published) + Reports(p.visits)
    ensures store.writable == old(store.writable)
  {
    ghost var visits: seq<Visit> := [];
    SweepStarts(addresses, port.pending, store.files, store.writable);
    assert outbox.published == old(outbox.published) + Reports(visits);
    for i := 0 to |addresses|
      invariant store.writable == old(store.writable)
      invariant port.sent == old(port.sent) + Traffic(visits)
      invariant port.pending == Drop(old(port.pending), Used(visits))
      invariant outbox.published == old(outbox.published) + Reports(visits)
      invariant SweptSoFar(addresses, old(port.pending), old(store.files), store.writable, i, visits, port.pending, store.files)
    {
      ghost var now, stored := port.pending, store.files;
      ghost var visit;
      var reading, target;
      reading, target, visit := MonitorAddress(port, store, addresses[i]);
      if reading.Some? && target.Some? {
        outbox.Publish(Telemetry(addresses[i], reading.value, target.value));
      }
      ReportsNext(old(outbox.published), visits, visit);
      SweepAdvance(addresses, old(port.pending), old(store.files), store.writable, i, visits, now, stored, visit);
      TrafficNext(old(port.sent), old(port.pending), visits, visit);
      visits := visits + [visit];
    }
    SweepFinished(addresses, old(port.pending), old(store.files), store.writable, visits, port.pending, store.files);
  }

  /** The reports after one more visit. */
  lemma ReportsNext(published: seq<Report>, visits: seq<Visit>, v: Visit)
    ensures published + Reports(visits + [v])
            == published + Reports(visits)
               + (if v.reading.Some? && v.target.Some? then [Telemetry(v.address, v.reading.value, v.target.value)] else [])
  {
    assert (visits + [v])[..|visits|] == visits;
    AppendAssoc(published, Reports(visits),
                if v.reading.Some? && v.target.Some? then [Telemetry(v.address, v.reading.value, v.target.value)] else []);
  }

  /** A pass never changes the target of a meter it does not visit. */
  lemma {:induction false} SweepKeepsOthers(addresses: seq<int>, pending: seq<seq<byte>>, files: Files, writable: bool, other: int)
    requires other !in addresses
    ensures Loaded(Sweep(addresses, pending, files, writable).files, other) == Loaded(files, other)
    decreases |addresses|
  {
    if addresses != [] {
      var a := addresses[0];
      var v := Enforce(a, pending, files, writable);
      assert other in addresses[1..] ==> other in addresses;
      SweepKeepsOthers(addresses[1..], Drop(pending, Sent(v)), v.files, writable, other);
      EnforceIsPolicy(a, pending, files, writable);
      if v.files != files {
        SaveKeepsOthers(files, writable, a, other, v.reading.value);
      }
    }
  }

  /** Every meter visited and read successfully ends the pass with a stored target, when the flash is writable. */
  lemma {:induction false} SweepLeavesTargets(addresses: seq<int>, pending: seq<seq<byte>>, files: Files, k: nat)
    requires k < |Sweep(addresses, pending, files, true).visits|
    requires Sweep(addresses, pending, files, true).visits[k].reading.Some?
    requires forall i, j :: 0 <= i < j < |addresses| ==> addresses[i] != addresses[j]
    ensures var p := Sweep(addresses, pending, files, true);
      Loaded(p.files, p.visits[k].address).Some?
    decreases |addresses|
  {
    SweepShape(addresses, pending, files, true);
    var a := addresses[0];
    var v := Enforce(a, pending, files, true);
    var rest := Sweep(addresses[1..], Drop(pending, Sent(v)), v.files, true);
    if k == 0 {
      assert a !in addresses[1..] by {
        forall j | 0 <= j < |addresses[1..]| ensures addresses[1..][j] != a {
          assert addresses[1..][j] == addresses[j + 1];
        }
      }
      FirstVisitLeavesTarget(a, addresses[1..], pending, files);
    } else {
      assert rest.visits[k - 1] == Sweep(addresses, pending, files, true).visits[k];
      SweepLeavesTargets(addresses[1..], Drop(pending, Sent(v)), v.files, k - 1);
    }
  }

  /** The first meter of a pass, read successfully, keeps its target to the end when it is not visited again. */
  lemma FirstVisitLeavesTarget(a: int, others: seq<int>, pending: seq<seq<byte>>, files: Files)
    requires Enforce(a, pending, files, true).reading.Some?
    requires a !in others
    ensures Loaded(Sweep([a] + others, pending, files, true).files, a).Some?
  {
    var v := Enforce(a, pending, files, true);
    EnforceIsPolicy(a, pending, files, true);
    if Loaded(files, a).None? {
      LoadAfterSave(files, a, v.reading.value);
    }
    assert ([a] + others)[1..] == others;
    SweepKeepsOthers(others, Drop(pending, Sent(v)), v.files, true, a);
  }
}

=== FILE: meter_sim.dfy ===
/**
 * meter_sim.py: the meter driver with a simulation switch and a fail-safe
 * valve policy.  With `SIMULATION_MODE` set nothing goes on the bus: a
 * meter's cumulative volume reads as 1000 + 50 * address and every valve
 * write reports success.  Without it, a volume reply is taken whenever its
 * CRC checks (`Modbus.LooseVolume`), and a meter without a target, or one
 * that cannot be read, has its valve closed.  Its CRC and request builders
 * (meter_sim.py:16-45) are the same code as meter.py's and are modelled once,
 * in `Crc` and `Frames`.
 */
module Simulator {
  import opened Wrappers
  import opened Crc
  import opened Frames
  import opened Uart
  import opened Modbus
  import opened Storage
  import Meter

  /** `get_valid_volume`'s default number of reads. */
  const RETRIES: nat := 5

  /** `simulated_cumulative_flow` (meter_sim.py:50-51). */
  function SimulatedVolume(address: int): int {
    1000 + address * 50
  }

  /** A simulated meter's reading grows with its address, 50 litres apart, from 1000 at address 0. */
  lemma SimulatedVolumesDistinct(a: int, b: int)
    ensures SimulatedVolume(a) == SimulatedVolume(b) <==> a == b
    ensures SimulatedVolume(a) < SimulatedVolume(b) <==> a < b
    ensures SimulatedVolume(a + 1) == SimulatedVolume(a) + 50
  {
  }

  /**
   * `write_single_register` (meter_sim.py:63-85): in simulation it reports
   * success without using the bus; otherwise it is the bus exchange of
   * meter.py.
   */
  method WriteRegister(port: Port, address: int, register: bv16, value: bv16, simulated: bool) returns (r: bool)
    modifies port
    ensures simulated ==> r && port.sent == old(port.sent) && port.pending == old(port.pending)
    ensures !simulated ==>
      port.sent == old(port.sent) + [BuildWrite(Slot(address), register, value)]
      && port.pending == Drop(old(port.pending), 1)
      && r == Acknowledged(Received(Reply(old(port.pending), 0), WRITE_REPLY_LENGTH))
  {
    if simulated {
      return true;
    }
    r := WriteSingleRegister(port, address, register, value);
  }

  /** `open_valve` (meter_sim.py:142-146). */
  method OpenValve(port: Port, address: int, simulated: bool) returns (r: bool)
    modifies port
    ensures simulated ==> r && port.sent == old(port.sent) && port.pending == old(port.pending)
    ensures !simulated ==>
      port.sent == old(port.sent) + [ValveFrame(Slot(address), Open)] && port.pending == Drop(old(port.pending), 1)
      && r == Acknowledged(Received(Reply(old(port.pending), 0), WRITE_REPLY_LENGTH))
  {
    r := WriteRegister(port, address, VALVE_REGISTER, ValveCode(Open), simulated);
  }

  /** `close_valve` (meter_sim.py:149-153). */
  method CloseValve(port: Port, address: int, simulated: bool) returns (r: bool)
    modifies port
    ensures simulated ==> r && port.sent == old(port.sent) && port.pending == old(port.pending)
    ensures !simulated ==>
      port.sent == old(port.sent) + [ValveFrame(Slot(address), Close)] && port.pending == Drop(old(port.pending), 1)
      && r == Acknowledged(Received(Reply(old(port.pending), 0), WRITE_REPLY_LENGTH))
  {
    r := WriteRegister(port, address, VALVE_REGISTER, ValveCode(Close), simulated);
  }

  /**
   * `read_cumulative_flow` (meter_sim.py:91-103): the simulated reading, or
   * the loose acceptance of whatever arrives; a CRC-valid answer too short
   * to hold bytes 3 and 4 raises.
   */
  method ReadCumulativeFlow(port: Port, address: int, simulated: bool) returns (r: Outcome<Option<int>>)
    modifies port
    ensures simulated ==> port.sent == old(port.sent) && port.pending == old(port.pending)
    ensures simulated ==> r == Done(Some(SimulatedVolume(address)))
    ensures !simulated ==>
      r == LooseVolume(Received(Reply(old(port.pending), 0), VOLUME_REPLY_LENGTH))
      && port.sent == old(port.sent) + [VolumeRequest(Slot(address))]
      && port.pending == Drop(old(port.pending), 1)
  {
    if simulated {
      return Done(Some(SimulatedVolume(address)));
    }
    var response := port.Exchange(VolumeRequest(Slot(address)), VOLUME_REPLY_LENGTH);
    r := LooseVolume(response);
  }

  /** A series of reads on the bus: what `get_valid_volume` returns or raises, and how many requests went out. */
  datatype Tally = Tally(result: Outcome<Option<int>>, tries: nat)

  /** A tally seen from `k` requests earlier. */
  function Later(t: Tally, k: nat): Tally {
    Tally(t.result, t.tries + k)
  }

  /**
   * `get_valid_volume` on the bus (meter_sim.py:170-178): at most `retries`
   * requests, stopping at the first reading or at the first exception; `None`
   * only once every request has been answered with something rejected.
   */
  function LooseFirstVolume(address: int, pending: seq<seq<byte>>, retries: nat): (t: Tally)
    ensures t.tries <= retries
    ensures t.result == Done(None) ==> t.tries == retries
  {
    if retries == 0 then Tally(Done(None), 0)
    else
      var first := LooseVolume(Received(Reply(pending, 0), VOLUME_REPLY_LENGTH));
      if first == Done(None) then Later(LooseFirstVolume(address, Drop(pending, 1), retries - 1), 1)
      else Tally(first, 1)
  }

  /**
   * The series ends at the first answer that is not rejected, and it is that
   * answer's outcome, a reading or an exception, that `get_valid_volume`
   * passes on.
   */
  lemma {:induction false} LooseFirstVolumeIsFirstTaken(address: int, pending: seq<seq<byte>>, retries: nat)
    ensures var t := LooseFirstVolume(address, pending, retries);
      (forall j :: 0 <= j < t.tries - 1 ==> LooseVolume(Received(Reply(pending, j), VOLUME_REPLY_LENGTH)) == Done(None))
      && (t.result != Done(None) ==> 1 <= t.tries && LooseVolume(Received(Reply(pending, t.tries - 1), VOLUME_REPLY_LENGTH)) == t.result)
  {
    if retries > 0 && LooseVolume(Received(Reply(pending, 0), VOLUME_REPLY_LENGTH)) == Done(None) {
      var rest := Drop(pending, 1);
      LooseFirstVolumeIsFirstTaken(address, rest, retries - 1);
      forall j | 1 <= j < retries
        ensures Reply(pending, j) == Reply(rest, j - 1)
      {
        ReplyAfter(pending, 1, j - 1);
      }
    }
  }

  /** One step of the series of reads. */
  lemma LooseStep(address: int, pending: seq<seq<byte>>, retries: nat)
    requires retries > 0
    ensures var first := LooseVolume(Received(Reply(pending, 0), VOLUME_REPLY_LENGTH));
      LooseFirstVolume(address, pending, retries)
      == if first == Done(None) then Later(LooseFirstVolume(address, Drop(pending, 1), retries - 1), 1) else Tally(first, 1)
  {
  }

  /** `get_valid_volume` (meter_sim.py:170-178). */
  method GetValidVolume(port: Port, address: int, retries: nat, simulated: bool) returns (r: Outcome<Option<int>>)
    modifies port
    ensures simulated ==> port.sent == old(port.sent) && port.pending == old(port.pending)
                          && r == if retries == 0 then Done(None) else Done(Some(SimulatedVolume(address)))
    ensures !simulated ==>
      var t := LooseFirstVolume(address, old(port.pending), retries);
      r == t.result
      && port.sent == old(port.sent) + Meter.Requests(address, t.tries)
      && port.pending == Drop(old(port.pending), t.tries)
  {
    ghost var start, startSent := port.pending, port.sent;
    ghost var total := LooseFirstVolume(address, start, retries);
    var attempt := 0;
    while attempt < retries
      invariant attempt <= retries
      invariant simulated ==> attempt == 0 && port.sent == startSent && port.pending == start
      invariant !simulated ==> port.sent == startSent + Meter.Requests(address, attempt)
      invariant !simulated ==> port.pending == Drop(start, attempt)
      invariant !simulated ==> total == Later(LooseFirstVolume(address, port.pending, retries - attempt), attempt)
    {
      ghost var before, history := port.pending, port.sent;
      var volume := ReadCumulativeFlow(port, address, simulated);
      if !simulated {
        Meter.RequestsNext(startSent, address, attempt, history, port.sent);
        DropDrop(start, attempt, 1);
        LooseStep(address, before, retries - attempt);
      }
      if volume.Raised? {
        return Raised;
      }
      if volume.value.Some? {
        return volume;
      }
      attempt := attempt + 1;
    }
    return Done(None);
  }

  // ---------------------------------------------------------------------------
  // Passes over the meters

  /**
   * What happened at one meter during a pass: the target found, the reading,
   * the valve command sent, how many volume requests went out, and whether
   * the visit ended in an exception.
   */
  datatype Visit = Visit(
    address: int,
    target: Option<int>,
    reading: Option<int>,
    command: Option<Valve>,
    tries: nat,
    raised: bool)

  /** How many frames a visit puts on the line, and so how many answers it consumes. */
  function Sent(v: Visit, simulated: bool): nat {
    if simulated then 0 else v.tries + (if v.command.Some? then 1 else 0)
  }

  /** The frames a visit puts on the line: nothing in simulation, otherwise its volume requests, then its valve command. */
  function Wire(v: Visit, simulated: bool): (frames: seq<seq<byte>>)
    ensures |frames| == Sent(v, simulated)
  {
    if simulated then []
    else Meter.Requests(v.address, v.tries) + (if v.command.Some? then [ValveFrame(Slot(v.address), v.command.value)] else [])
  }

  /**
   * The result of a pass: whether it ended in an exception, the visits made,
   * the answers still waiting on the line, and the frames put on it.
   */
  datatype Pass = Pass(raised: bool, visits: seq<Visit>, left: seq<seq<byte>>, wire: seq<seq<byte>>)

  // ---------------------------------------------------------------------------
  // The fail-safe monitor

  /** What `get_valid_volume` makes of the answers: the simulated reading, or the series of reads on the bus. */
  function Observe(address: int, pending: seq<seq<byte>>, simulated: bool): Tally {
    if simulated then Tally(Done(Some(SimulatedVolume(address))), 0) else LooseFirstVolume(address, pending, RETRIES)
  }

  /**
   * A meter with a target, once read: closed when the read failed, otherwise
   * closed once the volume has reached the target and opened below it; an
   * exception from the read ends the visit with no command.
   */
  function Judge(address: int, target: int, t: Tally): Visit {
    match t.result
    case Raised => Visit(address, Some(target), None, None, t.tries, true)
    case Done(None) => Visit(address, Some(target), None, Some(Close), t.tries, false)
    case Done(Some(current)) => Visit(address, Some(target), Some(current), Some(Meter.Policy(current, target)), t.tries, false)
  }

  /**
   * The body of the loop of the fail-safe `monitor_target`
   * (meter_sim.py:185-208): a meter without a target is closed and not read;
   * one with a target is read and judged.
   */
  function Guard(address: int, pending: seq<seq<byte>>, files: Files, simulated: bool): (v: Visit)
    ensures v.address == address
  {
    var target := Loaded(files, address);
    if target.None? then Visit(address, None, None, Some(Close), 0, false)
    else
      Judge(address, target.value, Observe(address, pending, simulated))
  }

  /**
   * The fail-safe policy: every visit that does not raise sends exactly one
   * valve command, and it opens the valve only for a meter that has a target
   * and was read below it.  A meter without a target is not read at all, and
   * in simulation every meter with a target reads its simulated volume.
   */
  lemma GuardIsFailSafe(address: int, pending: seq<seq<byte>>, files: Files, simulated: bool)
    ensures var v := Guard(address, pending, files, simulated);
      v.target == Loaded(files, address)
      && (!v.raised ==> v.command.Some?)
      && (v.command == Some(Open) <==> v.target.Some? && v.reading.Some? && v.reading.value < v.target.value)
      && (v.command == Some(Close) <==> !v.raised && !(v.target.Some? && v.reading.Some? && v.reading.value < v.target.value))
      && (v.target.None? ==> v.tries == 0 && v.reading == None)
      && (v.raised ==> v.target.Some? && v.reading == None && v.command == None)
      && (simulated ==> !v.raised && (v.target.Some? ==> v.reading == Some(SimulatedVolume(address))))
  {
  }

  /** One loop body of the fail-safe `monitor_target` (meter_sim.py:185-208) against the bus and the store. */
  method GuardAddress(port: Port, store: TargetStore, address: int, simulated: bool) returns (raised: bool, ghost v: Visit)
    modifies port
    ensures v == Guard(address, old(port.pending), store.files, simulated)
    ensures raised == v.raised
    ensures port.sent == old(port.sent) + Wire(v, simulated)
    ensures port.pending == Drop(old(port.pending), Sent(v, simulated))
  {
    var target := store.LoadTargetReading(address);
    if target.None? {
      v := Guard(address, port.pending, store.files, simulated);
      var _ := CloseValve(port, address, simulated);
      return false, v;
    }
    raised, v := ReadAndJudge(port, address, target.value, simulated);
  }

  /** The part of the loop body of the fail-safe `monitor_target` after a target was found (meter_sim.py:192-208). */
  method ReadAndJudge(port: Port, address: int, target: int, simulated: bool) returns (raised: bool, ghost v: Visit)
    modifies port
    ensures v == Judge(address, target, Observe(address, old(port.pending), simulated))
    ensures raised == v.raised
    ensures port.sent == old(port.sent) + Wire(v, simulated)
    ensures port.pending == Drop(old(port.pending), Sent(v, simulated))
  {
    ghost var t := Observe(address, port.pending, simulated);
    v := Judge(address, target, t);
    var current := GetValidVolume(port, address, RETRIES, simulated);
    if current.Raised? {
      return true, v;
    }
    if current.value.None? {
      var _ := CloseValve(port, address, simulated);
    } else if current.value.value >= target {
      var _ := CloseValve(port, address, simulated);
    } else {
      var _ := OpenValve(port, address, simulated);
    }
    if !simulated {
      AppendAssoc(old(port.sent), Meter.Requests(address, t.tries), [ValveFrame(Slot(address), v.command.value)]);
      DropDrop(old(port.pending), t.tries, 1);
    }
    raised := false;
  }

  /**
   * A pass of the fail-safe `monitor_target` over `addresses`, visited in
   * order, each on the answers the ones before left; an exception ends the
   * pass at the visit that raised it.  The store is only read.
   */
  function Watch(addresses: seq<int>, pending: seq<seq<byte>>, files: Files, simulated: bool): Pass
    decreases |addresses|
  {
    if addresses == [] then Pass(false, [], pending, [])
    else
      var before := Watch(addresses[..|addresses| - 1], pending, files, simulated);
      if before.raised then before
      else
        var v := Guard(addresses[|addresses| - 1], before.left, files, simulated);
        Pass(v.raised, before.visits + [v], Drop(before.left, Sent(v, simulated)), before.wire + Wire(v, simulated))
  }

  /**
   * The pass stops only at a visit that raised, and without an exception
   * every meter is visited; in simulation it never stops.
   */
  lemma {:induction false} WatchShape(addresses: seq<int>, pending: seq<seq<byte>>, files: Files, simulated: bool)
    ensures var p := Watch(addresses, pending, files, simulated);
      |p.visits| <= |addresses|
      && (!p.raised ==> |p.visits| == |addresses|)
      && (p.raised ==> p.visits != [] && p.visits[|p.visits| - 1].raised)
      && (simulated ==> !p.raised)
    decreases |addresses|
  {
    if addresses != [] {
      var init := addresses[..|addresses| - 1];
      WatchShape(init, pending, files, simulated);
      var before := Watch(init, pending, files, simulated);
      if !before.raised {
        GuardIsFailSafe(addresses[|addresses| - 1], before.left, files, simulated);
      }
    }
  }

  /**
   * The k-th visit of a pass is to the k-th meter, and it raised exactly when
   * it is the visit that ended the pass.
   */
  lemma {:induction false} WatchVisit(addresses: seq<int>, pending: seq<seq<byte>>, files: Files, simulated: bool, k: nat)
    requires k < |addresses| && k < |Watch(addresses, pending, files, simulated).visits|
    ensures var p := Watch(addresses, pending, files, simulated);
      p.visits[k].address == addresses[k]
      && (p.visits[k].raised <==> p.raised && k == |p.visits| - 1)
    decreases |addresses|
  {
    var init := addresses[..|addresses| - 1];
    var before := Watch(init, pending, files, simulated);
    WatchShape(init, pending, files, simulated);
    if before.raised {
      WatchVisit(init, pending, files, simulated, k);
    } else {
      var v := Guard(addresses[|addresses| - 1], before.left, files, simulated);
      assert Watch(addresses, pending, files, simulated).visits == before.visits + [v];
      if k < |before.visits| {
        WatchVisit(init, pending, files, simulated, k);
      }
    }
  }

  /** Once a pass has raised, the addresses after that point change nothing. */
  lemma {:induction false} WatchStops(addresses: seq<int>, i: nat, pending: seq<seq<byte>>, files: Files, simulated: bool)
    requires i <= |addresses|
    requires Watch(addresses[..i], pending, files, simulated).raised
    ensures Watch(addresses, pending, files, simulated) == Watch(addresses[..i], pending, files, simulated)
    decreases |addresses| - i
  {
    if i < |addresses| {
      var init := addresses[..|addresses| - 1];
      assert init[..i] == addresses[..i];
      WatchStops(init, i, pending, files, simulated);
    } else {
      assert addresses[..i] == addresses;
    }
  }

  /** The fail-safe `monitor_target` (meter_sim.py:184-208); `raised` says whether the pass ended in an exception. */
  method MonitorTarget(port: Port, store: TargetStore, addresses: seq<int>, simulated: bool) returns (raised: bool)
    modifies port
    ensures var p := Watch(addresses, old(port.pending), store.files, simulated);
      raised == p.raised
      && port.sent == old(port.sent) + p.wire
      && port.pending == p.left
  {
    ghost var visits: seq<Visit> := [];
    ghost var wire: seq<seq<byte>> := [];
    assert addresses[..0] == [];
    for i := 0 to |addresses|
      invariant Watch(addresses[..i], old(port.pending), store.files, simulated) == Pass(false, visits, port.pending, wire)
      invariant port.sent == old(port.sent) + wire
    {
      ghost var v;
      var raisedHere;
      raisedHere, v := GuardAddress(port, store, addresses[i], simulated);
      assert addresses[..i + 1][..i] == addresses[..i];
      AppendAssoc(old(port.sent), wire, Wire(v, simulated));
      visits, wire := visits + [v], wire + Wire(v, simulated);
      if raisedHere {
        WatchStops(addresses, i + 1, old(port.pending), store.files, simulated);
        return true;
      }
    }
    assert addresses[..|addresses|] == addresses;
    return false;
  }

  // ---------------------------------------------------------------------------
  // Seeding the targets

  /**
   * The body of the loop of `set_init_target_reading` (meter_sim.py:254-261):
   * the meter is read; a reading is then saved as its target (`Seeded`).
   */
  function Seed(address: int, pending: seq<seq<byte>>, simulated: bool): (v: Visit)
    ensures v.address == address && v.target == None && v.command == None
  {
    var t := Observe(address, pending, simulated);
    match t.result
    case Raised => Visit(address, None, None, None, t.tries, true)
    case Done(reading) => Visit(address, None, reading, None, t.tries, false)
  }

  /** A pass of `set_init_target_reading` over `addresses` on the bus; an exception ends it. */
  function Sampling(addresses: seq<int>, pending: seq<seq<byte>>, simulated: bool): Pass
    decreases |addresses|
  {
    if addresses == [] then Pass(false, [], pending, [])
    else
      var before := Sampling(addresses[..|addresses| - 1], pending, simulated);
      if before.raised then before
      else
        var v := Seed(addresses[|addresses| - 1], before.left, simulated);
        Pass(v.raised, before.visits + [v], Drop(before.left, Sent(v, simulated)), before.wire + Wire(v, simulated))
  }

  /** The target files after a seeding visit: a reading is saved for its meter. */
  function Keep(files: Files, writable: bool, v: Visit): Files {
    if v.reading.Some? then Saved(files, writable, v.address, v.reading.value) else files
  }

  /** The target files after a series of seeding visits, in order. */
  function Seeded(files: Files, writable: bool, visits: seq<Visit>): Files {
    if visits == [] then files else Keep(Seeded(files, writable, visits[..|visits| - 1]), writable, visits[|visits| - 1])
  }

  /** Once seeding has raised, or has reached the end, the addresses after that point change nothing. */
  lemma {:induction false} SamplingStops(addresses: seq<int>, i: nat, pending: seq<seq<byte>>, simulated: bool)
    requires i <= |addresses|
    requires Sampling(addresses[..i], pending, simulated).raised || i == |addresses|
    ensures Sampling(addresses, pending, simulated) == Sampling(addresses[..i], pending, simulated)
    decreases |addresses| - i
  {
    if i < |addresses| {
      var init := addresses[..|addresses| - 1];
      assert init[..i] == addresses[..i];
      SamplingStops(init, i, pending, simulated);
    } else {
      assert addresses[..i] == addresses;
    }
  }

  /** Seeding one more address. */
  lemma SamplingNext(addresses: seq<int>, i: nat, pending: seq<seq<byte>>, simulated: bool)
    requires i < |addresses|
    ensures var before := Sampling(addresses[..i], pending, simulated);
      var v := Seed(addresses[i], before.left, simulated);
      !before.raised ==> Sampling(addresses[..i + 1], pending, simulated)
                         == Pass(v.raised, before.visits + [v], Drop(before.left, Sent(v, simulated)), before.wire + Wire(v, simulated))
  {
    assert addresses[..i + 1][..i] == addresses[..i];
  }

  /** One loop body of `set_init_target_reading` (meter_sim.py:254-261). */
  method SeedAddress(port: Port, store: TargetStore, address: int, simulated: bool) returns (raised: bool, ghost v: Visit)
    modifies port, store
    ensures v == Seed(address, old(port.pending), simulated)
    ensures raised == v.raised
    ensures port.sent == old(port.sent) + Wire(v, simulated)
    ensures port.pending == Drop(old(port.pending), Sent(v, simulated))
    ensures store.files == Keep(old(store.files), old(store.writable), v)
    ensures store.writable == old(store.writable)
  {
    v := Seed(address, port.pending, simulated);
    var current := GetValidVolume(port, address, RETRIES, simulated);
    if current.Raised? {
      return true, v;
    }
    if current.value.Some? {
      store.SaveTargetReading(address, current.value.value);
    }
    assert Meter.Requests(address, v.tries) + [] == Meter.Requests(address, v.tries);
    raised := false;
  }

  /** The files after one more seeding visit. */
  lemma SeededNext(files: Files, writable: bool, visits: seq<Visit>, v: Visit)
    ensures Seeded(files, writable, visits + [v]) == Keep(Seeded(files, writable, visits), writable, v)
  {
    assert (visits + [v])[..|visits|] == visits;
  }

  /**
   * One turn of the loop of `set_init_target_reading`, stated against the
   * pass: after it, the addresses up to `i` have been seeded.
   */
  method SeedTurn(port: Port, store: TargetStore, addresses: seq<int>, i: nat, simulated: bool,
                  ghost pending: seq<seq<byte>>, ghost sent: seq<seq<byte>>, ghost files: Files,
                  ghost visits: seq<Visit>, ghost wire: seq<seq<byte>>)
    returns (raised: bool, ghost after: seq<Visit>, ghost wireAfter: seq<seq<byte>>)
    requires i < |addresses|
    requires Sampling(addresses[..i], pending, simulated) == Pass(false, visits, port.pending, wire)
    requires port.sent == sent + wire
    requires store.files == Seeded(files, store.writable, visits)
    modifies port, store
    ensures Sampling(addresses[..i + 1], pending, simulated) == Pass(raised, after, port.pending, wireAfter)
    ensures port.sent == sent + wireAfter
    ensures store.files == Seeded(files, store.writable, after)
    ensures store.writable == old(store.writable)
  {
    ghost var v;
    raised, v := SeedAddress(port, store, addresses[i], simulated);
    SamplingNext(addresses, i, pending, simulated);
    AppendAssoc(sent, wire, Wire(v, simulated));
    SeededNext(files, store.writable, visits, v);
    after, wireAfter := visits + [v], wire + Wire(v, simulated);
  }

  /** `set_init_target_reading` (meter_sim.py:253-261); `raised` says whether the pass ended in an exception. */
  method SetInitTargetReading(port: Port, store: TargetStore, addresses: seq<int>, simulated: bool) returns (raised: bool)
    modifies port, store
    ensures var p := Sampling(addresses, old(port.pending), simulated);
      raised == p.raised
      && port.sent == old(port.sent) + p.wire
      && port.pending == p.left
      && store.files == Seeded(old(store.files), old(store.writable), p.visits)
    ensures store.writable == old(store.writable)
  {
    ghost var visits: seq<Visit> := [];
    ghost var wire: seq<seq<byte>> := [];
    assert addresses[..0] == [];
    raised := false;
    var i := 0;
    while i < |addresses| && !raised
      invariant i <= |addresses|
      invariant store.writable == old(store.writable)
      invariant Sampling(addresses[..i], old(port.pending), simulated) == Pass(raised, visits, port.pending, wire)
      invariant port.sent == old(port.sent) + wire
      invariant store.files == Seeded(old(store.files), old(store.writable), visits)
    {
      raised, visits, wire := SeedTurn(port, store, addresses, i, simulated, old(port.pending), old(port.sent), old(store.files),
                                       visits, wire);
      i := i + 1;
    }
    SamplingStops(addresses, i, old(port.pending), simulated);
  }

  /** A seeding pass stops only at a visit that raised; without an exception it visits every meter. */
  lemma {:induction false} SamplingShape(addresses: seq<int>, pending: seq<seq<byte>>, simulated: bool)
    ensures var p := Sampling(addresses, pending, simulated);
      |p.visits| <= |addresses|
      && (!p.raised ==> |p.visits| == |addresses|)
      && (p.raised ==> p.visits != [] && p.visits[|p.visits| - 1].raised)
    decreases |addresses|
  {
    if addresses != [] {
      SamplingShape(addresses[..|addresses| - 1], pending, simulated);
    }
  }

  /** The k-th visit of a seeding pass is to the k-th meter. */
  lemma {:induction false} SamplingVisit(addresses: seq<int>, pending: seq<seq<byte>>, simulated: bool, k: nat)
    requires k < |addresses| && k < |Sampling(addresses, pending, simulated).visits|
    ensures Sampling(addresses, pending, simulated).visits[k].address == addresses[k]
    decreases |addresses|
  {
    var init := addresses[..|addresses| - 1];
    var before := Sampling(init, pending, simulated);
    SamplingShape(init, pending, simulated);
    if before.raised {
      SamplingVisit(init, pending, simulated, k);
    } else {
      SamplingNext(addresses, |addresses| - 1, pending, simulated);
      assert addresses[..|addresses|] == addresses;
      if k < |before.visits| {
        SamplingVisit(init, pending, simulated, k);
      }
    }
  }

  /** In simulation seeding visits every meter, uses no bus, and reads each meter's simulated volume. */
  lemma {:induction false} SamplingSimulated(addresses: seq<int>, pending: seq<seq<byte>>)
    ensures var p := Sampling(addresses, pending, true);
      !p.raised && |p.visits| == |addresses| && p.wire == [] && p.left == pending
      && forall k :: 0 <= k < |addresses| ==> p.visits[k] == Visit(addresses[k], None, Some(SimulatedVolume(addresses[k])), None, 0, false)
    decreases |addresses|
  {
    if addresses != [] {
      var init, last := addresses[..|addresses| - 1], addresses[|addresses| - 1];
      SamplingSimulated(init, pending);
      var before := Sampling(init, pending, true);
      var v := Seed(last, before.left, true);
      assert v == Visit(last, None, Some(SimulatedVolume(last)), None, 0, false);
      assert Sampling(addresses, pending, true).visits == before.visits + [v];
    }
  }

  /** A meter that no seeding visit read keeps whatever target it had. */
  lemma {:induction false} SeededKeepsUnread(files: Files, writable: bool, visits: seq<Visit>, x: int)
    requires forall k :: 0 <= k < |visits| && visits[k].address == x ==> visits[k].reading.None?
    ensures Loaded(Seeded(files, writable, visits), x) == Loaded(files, x)
    decreases |visits|
  {
    if visits != [] {
      var v := visits[|visits| - 1];
      SeededKeepsUnread(files, writable, visits[..|visits| - 1], x);
      if v.reading.Some? {
        SaveKeepsOthers(Seeded(files, writable, visits[..|visits| - 1]), writable, v.address, x, v.reading.value);
      }
    }
  }

  /**
   * With a writable flash, a meter's target after seeding is the reading of
   * the last visit that read it.
   */
  lemma {:induction false} SeededStoresLatest(files: Files, visits: seq<Visit>, k: nat)
    requires k < |visits| && visits[k].reading.Some?
    requires forall j :: k < j < |visits| && visits[j].address == visits[k].address ==> visits[j].reading.None?
    ensures Loaded(Seeded(files, true, visits), visits[k].address) == visits[k].reading
    decreases |visits|
  {
    var n := |visits| - 1;
    var v := visits[n];
    var before := Seeded(files, true, visits[..n]);
    if k == n {
      LoadAfterSave(before, v.address, v.reading.value);
    } else {
      SeededStoresLatest(files, visits[..n], k);
      if v.reading.Some? {
        SaveKeepsOthers(before, true, v.address, visits[k].address, v.reading.value);
      }
    }
  }
}

=== FILE: modbus.dfy ===
/**
 * The Modbus exchanges the three meter drivers (meter.py, meter_sim.py and
 * meter_tests.py) share: the register map of the meters, the request frames,
 * the Write Multiple Registers exchange, and the two ways the drivers accept a
 * cumulative-volume reply.
 */
module Modbus {
  import opened Wrappers
  import opened Crc
  import opened Frames
  import opened Uart

  /** Holding registers of the meter. */
  const VOLUME_REGISTER: bv16 := 0x000E
  const VOLTAGE_REGISTER: bv16 := 0x0016
  const VALVE_REGISTER: bv16 := 0x0060

  /** Reply lengths the drivers wait for. */
  const VOLUME_REPLY_LENGTH := 9
  const VOLTAGE_REPLY_LENGTH := 7
  const WRITE_REPLY_LENGTH := 8

  /**
   * An address a frame can carry unchanged.  Any other integer is stored in
   * the frame truncated to its low eight bits (`Slot`), and no answer to such
   * a frame is ever accepted by meter.py, which compares the reply's first
   * byte with the full address.
   */
  predicate IsByte(a: int) {
    0 <= a < 256
  }

  datatype Valve = Open | Close

  /** The value written to the valve register: 0x0001 opens, 0x0002 closes. */
  function ValveCode(v: Valve): (code: bv16)
    ensures code == 1 <==> v == Open
    ensures code == 2 <==> v == Close
  {
    match v
    case Open => 1
    case Close => 2
  }

  /** Read two registers starting at the cumulative-volume register. */
  function VolumeRequest(address: byte): seq<byte> {
    BuildRequest(address, READ_HOLDING, VOLUME_REGISTER, 2)
  }

  /** Read one register, the cell voltage. */
  function VoltageRequest(address: byte): seq<byte> {
    BuildRequest(address, READ_HOLDING, VOLTAGE_REGISTER, 1)
  }

  /** The valve command frame (`open_valve`/`close_valve`). */
  function ValveFrame(address: byte, v: Valve): (frame: seq<byte>)
    ensures |frame| == 11
  {
    BuildWrite(address, VALVE_REGISTER, ValveCode(v))
  }

  /** The valve frame writes 0x0001 (open) or 0x0002 (close) to register 0x0060 of the addressed meter. */
  lemma ValveFrameLayout(address: byte, v: Valve)
    ensures var frame := ValveFrame(address, v);
      frame[0] == address && frame[1] == WRITE_MULTIPLE
      && Word(frame[2], frame[3]) == VALVE_REGISTER as int
      && Word(frame[7], frame[8]) == ValveCode(v) as int
      && VerifyCrc(frame)
  {
    WriteLayout(address, VALVE_REGISTER, ValveCode(v));
  }

  /** `response and verify_crc(response)`: an answer arrived and its CRC checks. */
  predicate Acknowledged(response: Option<seq<byte>>) {
    response.Some? && VerifyCrc(response.value)
  }

  /**
   * `write_single_register` (meter.py:69-87): the 11-byte frame, with the
   * address truncated to a byte, goes out and the result says whether an
   * answer with a valid CRC came back within eight bytes.
   */
  method WriteSingleRegister(port: Port, address: int, register: bv16, value: bv16) returns (r: bool)
    modifies port
    ensures port.sent == old(port.sent) + [BuildWrite(Slot(address), register, value)]
    ensures port.pending == Drop(old(port.pending), 1)
    ensures r == Acknowledged(Received(Reply(old(port.pending), 0), WRITE_REPLY_LENGTH))
  {
    var response := port.Exchange(BuildWrite(Slot(address), register, value), WRITE_REPLY_LENGTH);
    r := response.Some? && VerifyCrc(response.value);
  }

  /**
   * A meter's normal answer to Write Multiple Registers echoes the first six
   * bytes of the request (section 6.12 of the MODBUS Application Protocol
   * Specification V1.1b3); the driver acknowledges it, and rejects it once any
   * single byte is corrupted.
   */
  lemma WriteEchoAcknowledged(address: byte, register: bv16, value: bv16, i: nat, b: byte)
    ensures var echo := WithCrc(BuildWrite(address, register, value)[..6]);
      Acknowledged(Received(echo, WRITE_REPLY_LENGTH))
      && (i < |echo| && echo[i] != b ==> !Acknowledged(Received(echo[i := b], WRITE_REPLY_LENGTH)))
  {
    var body := BuildWrite(address, register, value)[..6];
    var echo := WithCrc(body);
    WithCrcVerifies(body);
    assert Received(echo, WRITE_REPLY_LENGTH) == Some(echo);
    if i < |echo| && echo[i] != b {
      CorruptedFrameRejected(echo, i, b);
      assert Received(echo[i := b], WRITE_REPLY_LENGTH) == Some(echo[i := b]);
    }
  }

  // ---------------------------------------------------------------------------
  // Accepting a cumulative-volume reply

  /**
   * `read_cumulative_flow` of meter.py: a reading only from a nine-byte answer
   * whose CRC checks and whose first byte is the polled address; the value is
   * the first register, bytes 3 and 4, big-endian.
   */
  function AcceptVolume(address: int, response: Option<seq<byte>>): Option<int> {
    match response
    case None => None
    case Some(frame) =>
      if |frame| == VOLUME_REPLY_LENGTH && VerifyCrc(frame) && frame[0] as int == address then
        Some(Word(frame[3], frame[4]))
      else
        None
  }

  /**
   * A reading is accepted exactly from a nine-byte answer of the polled meter
   * over which the CRC leaves a zero register; it is the big-endian first
   * register, a 16-bit value.
   */
  lemma AcceptedVolume(address: int, response: Option<seq<byte>>)
    ensures var v := AcceptVolume(address, response);
      (v.Some? <==> response.Some? && |response.value| == VOLUME_REPLY_LENGTH
                    && Crc16(response.value) == 0 && response.value[0] as int == address)
      && (v.Some? ==> v.value == Word(response.value[3], response.value[4]) && 0 <= v.value < 65536)
  {
    if response.Some? {
      VerifyCrcIsResidue(response.value);
    }
  }

  /**
   * `read_cumulative_flow` of meter_sim.py and meter_tests.py: any answer whose
   * CRC checks is taken, whatever its length or address; a CRC-valid answer
   * shorter than five bytes makes the indexing raise.
   */
  function LooseVolume(response: Option<seq<byte>>): (r: Outcome<Option<int>>)
    ensures r == Raised <==> Acknowledged(response) && |response.value| < 5
    ensures r == Done(None) <==> !Acknowledged(response)
    ensures r.Done? && r.value.Some? ==> r.value.value == Word(response.value[3], response.value[4])
  {
    if Acknowledged(response) then
      var frame := response.value;
      if |frame| < 5 then Raised else Done(Some(Word(frame[3], frame[4])))
    else
      Done(None)
  }

  /** A meter's reply to the volume request is accepted by both drivers with the value it carries. */
  lemma VolumeReplyAccepted(address: byte, volume: bv16, second: bv16)
    ensures var reply := Received(TwoRegisterReply(address, volume, second), VOLUME_REPLY_LENGTH);
      AcceptVolume(address as int, reply) == Some(volume as int)
      && LooseVolume(reply) == Done(Some(volume as int))
  {
  }

  /** meter.py rejects a volume reply corrupted in any single byte. */
  lemma CorruptedVolumeRejected(address: int, frame: seq<byte>, i: nat, b: byte)
    requires AcceptVolume(address, Some(frame)).Some?
    requires i < |frame| && frame[i] != b
    ensures AcceptVolume(address, Some(frame[i := b])) == None
  {
    CorruptedFrameRejected(frame, i, b);
  }

  /** meter.py ignores a valid reply that comes from another meter. */
  lemma ForeignReplyRejected(address: int, other: byte, first: bv16, second: bv16)
    requires other as int != address
    ensures AcceptVolume(address, Received(TwoRegisterReply(other, first, second), VOLUME_REPLY_LENGTH)) == None
  {
  }

  /**
   * An address outside 0..255 goes out truncated, but meter.py compares the
   * answer's first byte with the full address, so it never accepts a reading
   * for it, whatever comes back.
   */
  lemma WrappedAddressUnread(address: int, response: Option<seq<byte>>)
    requires !IsByte(address)
    ensures AcceptVolume(address, response) == None
  {
    if response.Some? && |response.value| == VOLUME_REPLY_LENGTH {
      var first := response.value[0] as int;
      assert 0 <= first < 256;
    }
  }

  /** Whatever meter.py accepts, the loose drivers accept with the same value. */
  lemma StrictImpliesLoose(address: int, response: Option<seq<byte>>)
    requires AcceptVolume(address, response).Some?
    ensures LooseVolume(response) == Done(AcceptVolume(address, response))
  {
  }

  /**
   * A Modbus exception reply (address, function code with the high bit set,
   * exception code, CRC) is five bytes with a valid CRC: meter.py rejects it,
   * while the loose drivers report its two CRC bytes as the volume.
   */
  lemma ExceptionReplyReading(address: byte, exceptionCode: byte)
    ensures var reply := WithCrc([address, 0x83, exceptionCode]);
      var c := Crc16([address, 0x83, exceptionCode]);
      AcceptVolume(address as int, Received(reply, VOLUME_REPLY_LENGTH)) == None
      && LooseVolume(Received(reply, VOLUME_REPLY_LENGTH)) == Done(Some(Word(Lo(c), Hi(c))))
  {
    var body := [address, 0x83, exceptionCode];
    var reply := WithCrc(body);
    WithCrcVerifies(body);
    assert Received(reply, VOLUME_REPLY_LENGTH) == Some(reply);
    assert reply[3] == Lo(Crc16(body)) && reply[4] == Hi(Crc16(body));
  }
}

=== FILE: ota.dfy ===
/**
 * ota_update.py: firmware updates over the modem.  The flash is a map from
 * paths to file contents; `curl.get` is an oracle of replies, one per call, in
 * which `None` (or an exhausted oracle) is a call that raised.  A call with a
 * file argument writes the body it received to that file whenever curl
 * reports code 0.
 */
module Ota {
  import opened Wrappers
  import opened Text
  import opened Uart

  type Files = map<string, string>

  const UPDATE_URL := "https://raw.githubusercontent.com/DerrickNgigi/update/main"
  const VERSION_FILE := "/flash/version.txt"
  const VERSION_URL := UPDATE_URL + "/version.txt"
  /** What an unreadable version file or a missing `GLOBAL_VERSION` line reads as. */
  const DEFAULT_VERSION := "0.0.0"
  const VERSION_KEY := "GLOBAL_VERSION"
  /** The default `retries` of `download_file`, and the one `main` passes to `update_global_file`. */
  const RETRIES := 3
  const GLOBAL_FILE := "global.py"

  const FILES_TO_UPDATE: seq<string> := [
    "boot.py", "main_meter.py", "main.py", "meter_gsm.py", "meter_mqtts.py",
    "meter_run.py", "meter_sim.py", "meter_storage.py", "meter_tests.py", "meter.py"]

  function Lookup(files: Files, path: string): Option<string> {
    if path in files then Some(files[path]) else None
  }

  // ---------------------------------------------------------------------------
  // Paths

  /** A bare file name: no directory part. */
  predicate PlainName(name: string) {
    '/' !in name
  }

  function TmpPath(name: string): string {
    "/flash/temp/tmp_" + name
  }

  function DestPath(name: string): string {
    "/flash/" + name
  }

  function FileUrl(name: string): string {
    UPDATE_URL + "/" + name
  }

  function GlobalUrl(deviceId: string): string {
    UPDATE_URL + "/device_configs/" + deviceId + "_global.py"
  }

  /** A destination path that is also a temporary path names a file inside a directory. */
  lemma TmpIsNested(f: string, g: string)
    ensures TmpPath(f) == DestPath(g) ==> !PlainName(g)
  {
    if TmpPath(f) == DestPath(g) {
      assert DestPath(g)[11] == g[4] && TmpPath(f)[11] == '/';
    }
  }

  /** Temporary and destination paths of bare names never collide, and each names one file. */
  lemma PathsDistinct(f: string, g: string)
    requires PlainName(f) && PlainName(g)
    ensures TmpPath(f) != DestPath(g)
    ensures DestPath(f) == DestPath(g) <==> f == g
    ensures TmpPath(f) == TmpPath(g) <==> f == g
  {
    TmpIsNested(f, g);
    if DestPath(f) == DestPath(g) {
      assert f == DestPath(f)[7..] && g == DestPath(g)[7..];
    }
    if TmpPath(f) == TmpPath(g) {
      assert f == TmpPath(f)[16..] && g == TmpPath(g)[16..];
    }
  }

  /** The version file is neither the temporary nor the destination path of a bare name other than `version.txt`. */
  lemma VersionFileApart(name: string)
    requires PlainName(name) && name != "version.txt"
    ensures VERSION_FILE != TmpPath(name) && VERSION_FILE != DestPath(name)
  {
    assert VERSION_FILE == DestPath("version.txt");
    PathsDistinct(name, "version.txt");
    PathsDistinct("version.txt", name);
  }

  /** The files of an update are bare names, listed once each, and none of them is the version file. */
  lemma FilesToUpdateNames()
    ensures forall k :: 0 <= k < |FILES_TO_UPDATE| ==> PlainName(FILES_TO_UPDATE[k]) && FILES_TO_UPDATE[k] != "version.txt"
    ensures forall i, j :: 0 <= i < j < |FILES_TO_UPDATE| ==> FILES_TO_UPDATE[i] != FILES_TO_UPDATE[j]
  {
  }

  // ---------------------------------------------------------------------------
  // curl replies

  datatype Fetch = Fetch(code: int, header: string, body: string)

  /** The reply to the j-th call from now on. */
  function Answer(replies: seq<Option<Fetch>>, j: nat): Option<Fetch> {
    if j < |replies| then replies[j] else None
  }

  lemma AnswerAfter(replies: seq<Option<Fetch>>, k: nat, j: nat)
    ensures Answer(Drop(replies, k), j) == Answer(replies, k + j)
  {
  }

  /** `res_code == 0 and "200" in hdr`, for a call that did not raise. */
  predicate Succeeded(reply: Option<Fetch>) {
    reply.Some? && reply.value.code == 0 && Contains(reply.value.header, "200")
  }

  /** `curl.get(url, path)`: the body lands in `path` when curl reports code 0. */
  function Written(files: Files, path: string, reply: Option<Fetch>): (after: Files)
    ensures forall p :: p != path ==> Lookup(after, p) == Lookup(files, p)
    ensures Succeeded(reply) ==> Lookup(after, path) == Some(reply.value.body)
  {
    if reply.Some? && reply.value.code == 0 then files[path := reply.value.body] else files
  }

  /** `uos.remove(dest)` when it exists, then `uos.rename(tmp, dest)`. */
  function Replaced(files: Files, tmp: string, dest: string): (after: Files)
    requires tmp in files && tmp != dest
    ensures Lookup(after, dest) == Some(files[tmp]) && tmp !in after
    ensures forall p :: p != tmp && p != dest ==> Lookup(after, p) == Lookup(files, p)
  {
    (files - {dest})[dest := files[tmp]] - {tmp}
  }

  /** The first of the next `tries` calls that succeeds, if any. */
  function FirstSucceeded(replies: seq<Option<Fetch>>, tries: nat): (j: Option<nat>)
    ensures j.Some? ==> j.value < tries && Succeeded(Answer(replies, j.value))
    ensures j.Some? ==> forall i :: 0 <= i < j.value ==> !Succeeded(Answer(replies, i))
    ensures j.None? ==> forall i :: 0 <= i < tries ==> !Succeeded(Answer(replies, i))
    decreases tries
  {
    if tries == 0 then None
    else if Succeeded(Answer(replies, 0)) then Some(0)
    else
      var rest := FirstSucceeded(Drop(replies, 1), tries - 1);
      if rest.None? then
        assert forall i :: 1 <= i < tries ==> Answer(replies, i) == Answer(Drop(replies, 1), i - 1);
        None
      else
        assert forall i :: 1 <= i <= rest.value + 1 ==> Answer(replies, i) == Answer(Drop(replies, 1), i - 1);
        Some(rest.value + 1)
  }

  // ---------------------------------------------------------------------------
  // The flash and the modem

  class Flash {
    var files: Files

    constructor (files: Files)
      ensures this.files == files
    {
      this.files := files;
    }

    /** `open(path).read()`, `None` when the file cannot be opened. */
    method Read(path: string) returns (content: Option<string>)
      ensures content == Lookup(files, path)
    {
      if path in files {
        content := Some(files[path]);
      } else {
        content := None;
      }
    }

    method Write(path: string, text: string)
      modifies this
      ensures files == old(files)[path := text]
    {
      files := files[path := text];
    }

    /** `uos.remove`: only ever called on a file that exists. */
    method Remove(path: string)
      requires path in files
      modifies this
      ensures files == old(files) - {path}
    {
      files := files - {path};
    }

    /** `uos.rename` onto a path that does not exist. */
    method Rename(src: string, dst: string)
      requires src in files && dst !in files
      modifies this
      ensures files == old(files)[dst := old(files)[src]] - {src}
    {
      files := files[dst := files[src]] - {src};
    }
  }

  class Modem {
    /** The replies still to come, one per call. */
    var replies: seq<Option<Fetch>>
    /** Every URL requested so far, oldest first. */
    var requested: seq<string>

    constructor (replies: seq<Option<Fetch>>)
      ensures this.replies == replies && requested == []
    {
      this.replies := replies;
      requested := [];
    }

    /** `curl.get(url)`. */
    method Get(url: string) returns (reply: Option<Fetch>)
      modifies this
      ensures reply == Answer(old(replies), 0) && replies == Drop(old(replies), 1)
      ensures requested == old(requested) + [url]
    {
      reply := Answer(replies, 0);
      replies := Drop(replies, 1);
      requested := requested + [url];
    }

    /** `curl.get(url, path)`: the body is written to `path` when the transfer reports code 0. */
    method GetInto(url: string, path: string, flash: Flash) returns (reply: Option<Fetch>)
      modifies this, flash
      ensures reply == Answer(old(replies), 0) && replies == Drop(old(replies), 1)
      ensures requested == old(requested) + [url]
      ensures flash.files == Written(old(flash.files), path, reply)
    {
      reply := Get(url);
      if reply.Some? && reply.value.code == 0 {
        flash.Write(path, reply.value.body);
      }
    }
  }

  // ---------------------------------------------------------------------------
  // Versions

  /** `get_local_version` (ota_update.py:46-51): the stripped version file, or the default when it cannot be read. */
  function LocalVersion(files: Files): string {
    if VERSION_FILE in files then Strip(files[VERSION_FILE]) else DEFAULT_VERSION
  }

  /**
   * The decision of `check_for_update` (ota_update.py:62-84) on the reply to
   * its one request: the stripped body when the fetch succeeded and it differs
   * from the local version; nothing otherwise, including when curl raised.
   */
  function UpdateOffered(reply: Option<Fetch>, files: Files): (r: Option<string>)
    ensures r.Some? <==> Succeeded(reply) && Strip(reply.value.body) != LocalVersion(files)
    ensures r.Some? ==> r.value == Strip(reply.value.body) && Trimmed(r.value)
  {
    if reply.None? then None
    else if reply.value.code != 0 then None
    else if !Contains(reply.value.header, "200") then None
    else
      var server := Strip(reply.value.body);
      if server != LocalVersion(files) then Some(server) else None
  }

  /** A version once saved reads back as the local version, so the same server reply offers nothing more. */
  lemma SavedVersionIsCurrent(reply: Option<Fetch>, files: Files)
    requires Succeeded(reply)
    ensures var v := Strip(reply.value.body);
      LocalVersion(files[VERSION_FILE := v]) == v && UpdateOffered(reply, files[VERSION_FILE := v]) == None
  {
    StripStrip(reply.value.body);
  }

  /** `check_for_update`: one request for the server's version file. */
  method CheckForUpdate(modem: Modem, flash: Flash) returns (newVersion: Option<string>)
    modifies modem
    ensures newVersion == UpdateOffered(Answer(old(modem.replies), 0), flash.files)
    ensures modem.replies == Drop(old(modem.replies), 1) && modem.requested == old(modem.requested) + [VERSION_URL]
  {
    var reply := modem.Get(VERSION_URL);
    if reply.None? || reply.value.code != 0 || !Contains(reply.value.header, "200") {
      return None;
    }
    var server := Strip(reply.value.body);
    var content := flash.Read(VERSION_FILE);
    var local := if content.Some? then Strip(content.value) else DEFAULT_VERSION;
    if server != local {
      return Some(server);
    }
    return None;
  }

  // ---------------------------------------------------------------------------
  // extract_version

  /** The lines of a text as iterating over an open file yields them: each keeps its line break. */
  function Lines(s: string): (lines: seq<string>)
    ensures forall k :: 0 <= k < |lines| ==> lines[k] != []
    decreases |s|
  {
    if s == [] then []
    else
      var rest := Lines(s[1..]);
      if s[0] == '\n' || rest == [] then [[s[0]]] + rest
      else [[s[0]] + rest[0]] + rest[1..]
  }

  function Flatten(parts: seq<string>): string
    decreases |parts|
  {
    if parts == [] then [] else parts[0] + Flatten(parts[1..])
  }

  /** Nothing of the text is lost or reordered by cutting it into lines. */
  lemma {:induction false} FlattenLines(s: string)
    ensures Flatten(Lines(s)) == s
    decreases |s|
  {
    if s != [] {
      var rest := Lines(s[1..]);
      FlattenLines(s[1..]);
      if s[0] == '\n' || rest == [] {
        assert Lines(s)[1..] == rest;
        if rest == [] {
          assert s[1..] == [];
        }
        assert s == [s[0]] + s[1..];
      } else {
        assert Lines(s)[1..] == rest[1..];
        assert Flatten(rest) == rest[0] + Flatten(rest[1..]);
        assert s == [s[0]] + s[1..];
      }
    }
  }

  /** A line: text ending in its only line break. */
  predicate IsLine(l: string) {
    |l| >= 1 && l[|l| - 1] == '\n' && '\n' !in l[..|l| - 1]
  }

  /** A text that starts with a line starts its lines with that line. */
  lemma {:induction false} LinesAfterLine(l: string, rest: string)
    requires IsLine(l)
    ensures Lines(l + rest) == [l] + Lines(rest)
    decreases |l|
  {
    var s := l + rest;
    assert s[0] == l[0] && s[1..] == l[1..] + rest;
    if |l| == 1 {
      assert l == [s[0]] && s[1..] == rest;
    } else {
      assert l[0] in l[..|l| - 1];
      var tail := l[1..];
      assert forall i :: 0 <= i < |tail| - 1 ==> tail[i] == l[..|l| - 1][i + 1];
      assert IsLine(tail);
      LinesAfterLine(tail, rest);
      assert Lines(s[1..]) == [tail] + Lines(rest);
      assert [s[0]] + tail == l;
    }
  }

  /** A text made of lines, followed by more text, has those lines first. */
  lemma {:induction false} LinesAfterLines(before: seq<string>, rest: string)
    requires forall k :: 0 <= k < |before| ==> IsLine(before[k])
    ensures Lines(Flatten(before) + rest) == before + Lines(rest)
    decreases |before|
  {
    if before != [] {
      var tail := Flatten(before[1..]) + rest;
      assert forall k :: 0 <= k < |before| - 1 ==> before[1..][k] == before[k + 1];
      LinesAfterLines(before[1..], rest);
      assert Flatten(before) + rest == before[0] + tail;
      assert IsLine(before[0]);
      LinesAfterLine(before[0], tail);
      var lines := Lines(rest);
      assert Lines(Flatten(before) + rest) == [before[0]] + (before[1..] + lines);
      AppendAssoc([before[0]], before[1..], lines);
      assert [before[0]] + before[1..] == before;
    } else {
      assert Flatten(before) + rest == rest;
    }
  }

  /** The first line that mentions `key`. */
  function FirstWith(lines: seq<string>, key: string): (r: Option<string>)
    ensures r.Some? ==> r.value in lines && Contains(r.value, key)
    ensures r.None? <==> forall k :: 0 <= k < |lines| ==> !Contains(lines[k], key)
    decreases |lines|
  {
    if lines == [] then None
    else if Contains(lines[0], key) then Some(lines[0])
    else
      var r := FirstWith(lines[1..], key);
      assert forall k :: 1 <= k < |lines| ==> lines[k] == lines[1..][k - 1];
      r
  }

  /** Lines that do not mention the key are passed over. */
  lemma {:induction false} FirstWithSkips(before: seq<string>, after: seq<string>, key: string)
    requires forall k :: 0 <= k < |before| ==> !Contains(before[k], key)
    ensures FirstWith(before + after, key) == FirstWith(after, key)
    decreases |before|
  {
    if before != [] {
      assert (before + after)[0] == before[0] && !Contains(before[0], key);
      assert (before + after)[1..] == before[1..] + after;
      assert forall k :: 0 <= k < |before| - 1 ==> before[1..][k] == before[k + 1];
      FirstWithSkips(before[1..], after, key);
    } else {
      assert before + after == after;
    }
  }

  /** `s.replace(c, "")` distributes over concatenation. */
  lemma {:induction false} RemoveAppend(a: string, b: string, c: char)
    ensures Remove(a + b, c) == Remove(a, c) + Remove(b, c)
    decreases |a|
  {
    if a != [] {
      assert (a + b)[1..] == a[1..] + b;
      RemoveAppend(a[1..], b, c);
    } else {
      assert a + b == b;
    }
  }

  /**
   * The value of a `GLOBAL_VERSION` line: `line.split("=")[1].strip()` with
   * every `"` and `'` removed; a line without `=` makes the indexing raise,
   * and the exception turns into the default version.
   */
  function VersionOfLine(line: string): (v: string)
    ensures '"' !in v && '\'' !in v
    ensures '=' !in line ==> v == DEFAULT_VERSION
  {
    var parts := Split(line, '=');
    if |parts| < 2 then DEFAULT_VERSION
    else
      assert '=' in line by {
        if '=' !in line {
          SplitNone(line, '=');
        }
      }
      var unquoted := Remove(Strip(parts[1]), '"');
      RemoveKeepsAbsent(unquoted, '\'', '"');
      Remove(unquoted, '\'')
  }

  /**
   * `extract_version` (ota_update.py:148-157): the value of the first line
   * mentioning `GLOBAL_VERSION`; the default when the file cannot be opened or
   * no line mentions it.
   */
  function ExtractVersion(content: Option<string>): (v: string)
    ensures content.None? ==> v == DEFAULT_VERSION
    ensures content.Some? && !Contains(content.value, VERSION_KEY) ==> v == DEFAULT_VERSION
    ensures '"' !in v && '\'' !in v
  {
    if content.None? then DEFAULT_VERSION
    else
      match FirstWith(Lines(content.value), VERSION_KEY)
      case None => DEFAULT_VERSION
      case Some(line) =>
        assert Contains(content.value, VERSION_KEY) by {
          LineContains(content.value, line, VERSION_KEY);
        }
        VersionOfLine(line)
  }

  /** A text contains whatever one of its lines contains. */
  lemma LineContains(s: string, line: string, key: string)
    requires line in Lines(s) && Contains(line, key)
    ensures Contains(s, key)
  {
    var lines := Lines(s);
    var k :| 0 <= k < |lines| && lines[k] == line;
    var a, b := Flatten(lines[..k]), Flatten(lines[k + 1..]);
    assert s == a + line + b by {
      FlattenLines(s);
      FlattenSplit(lines, k);
    }
    ContainsWithin(a, line, b, key);
  }

  /** A flattened sequence is what comes before its k-th part, that part, and what comes after. */
  lemma {:induction false} FlattenSplit(parts: seq<string>, k: nat)
    requires k < |parts|
    ensures Flatten(parts) == Flatten(parts[..k]) + parts[k] + Flatten(parts[k + 1..])
    decreases k
  {
    if k == 0 {
      assert parts[..0] == [];
      assert parts[1..] == parts[k + 1..];
    } else {
      FlattenSplit(parts[1..], k - 1);
      assert parts[1..][..k - 1] == parts[..k][1..];
      assert parts[1..][k..] == parts[k + 1..];
      assert parts[..k][0] == parts[0];
    }
  }

  /** The line `GLOBAL_VERSION = "<v>"` as the configuration files write it. */
  function Declaration(v: string): string {
    VERSION_KEY + " = \"" + v + "\"\n"
  }

  /** The declaration is a line that mentions the key. */
  lemma DeclarationLine(v: string)
    requires '\n' !in v
    ensures IsLine(Declaration(v)) && Contains(Declaration(v), VERSION_KEY)
  {
    var line := Declaration(v);
    assert line[..|line| - 1] == VERSION_KEY + " = \"" + v + "\"";
    ContainsInfix([], VERSION_KEY, " = \"" + v + "\"\n");
    assert [] + VERSION_KEY + (" = \"" + v + "\"\n") == line;
  }

  /** The value of the declaration line is the version declared. */
  lemma DeclarationValue(v: string)
    requires '"' !in v && '\'' !in v && '=' !in v
    ensures VersionOfLine(Declaration(v)) == v
  {
    var head, tail := VERSION_KEY + " ", " \"" + v + "\"\n";
    assert Declaration(v) == head + ['='] + tail;
    SplitFirst(head, '=', tail);
    SplitNone(tail, '=');
    assert Split(Declaration(v), '=')[1] == tail;
    var quoted := "\"" + v + "\"";
    StripPadded(" ", quoted, "\n");
    assert " " + quoted + "\n" == tail;
    RemoveAppend("\"" + v, "\"", '"');
    RemoveAppend("\"", v, '"');
    assert Remove(quoted, '"') == v;
  }

  /** The first line that mentions the key, after lines that do not, is the one whose value is read. */
  lemma ExtractsFirstKeyLine(before: seq<string>, line: string, after: string)
    requires forall k :: 0 <= k < |before| ==> IsLine(before[k]) && !Contains(before[k], VERSION_KEY)
    requires IsLine(line) && Contains(line, VERSION_KEY)
    ensures ExtractVersion(Some(Flatten(before) + line + after)) == VersionOfLine(line)
  {
    var content := Flatten(before) + line + after;
    var later := [line] + Lines(after);
    assert Lines(content) == before + later by {
      assert content == Flatten(before) + (line + after);
      LinesAfterLines(before, line + after);
      LinesAfterLine(line, after);
    }
    assert FirstWith(before + later, VERSION_KEY) == Some(line) by {
      FirstWithSkips(before, later, VERSION_KEY);
    }
  }

  /** A declared version is read back, after any lines that do not mention the key. */
  lemma ExtractsDeclaredVersion(before: seq<string>, v: string, after: string)
    requires forall k :: 0 <= k < |before| ==> IsLine(before[k]) && !Contains(before[k], VERSION_KEY)
    requires '"' !in v && '\'' !in v && '=' !in v && '\n' !in v
    ensures ExtractVersion(Some(Flatten(before) + Declaration(v) + after)) == v
  {
    DeclarationLine(v);
    DeclarationValue(v);
    ExtractsFirstKeyLine(before, Declaration(v), after);
  }

  /** `extract_version` over an open file: the lines are scanned until one mentions the key. */
  method ReadVersion(flash: Flash, path: string) returns (version: string)
    ensures version == ExtractVersion(Lookup(flash.files, path))
  {
    var content := flash.Read(path);
    if content.None? {
      return DEFAULT_VERSION;
    }
    var lines := Lines(content.value);
    var i := 0;
    while i < |lines|
      invariant 0 <= i <= |lines|
      invariant FirstWith(lines, VERSION_KEY) == FirstWith(lines[i..], VERSION_KEY)
    {
      assert lines[i..][1..] == lines[i + 1..];
      if Contains(lines[i], VERSION_KEY) {
        return VersionOfLine(lines[i]);
      }
      i := i + 1;
    }
    return DEFAULT_VERSION;
  }

  // ---------------------------------------------------------------------------
  // download_file

  /** A retried transfer: what the call returns, the flash after it, the replies left and the curl calls it made. */
  datatype Transfer = Transfer(ok: bool, files: Files, left: seq<Option<Fetch>>, calls: nat)

  /**
   * `download_file(fname, tries)` (ota_update.py:87-123): each attempt fetches
   * into the temporary file; the first that succeeds removes the destination,
   * renames the temporary file over it and ends the call.  A raising attempt
   * is caught and the next one begins.
   */
  function Download(name: string, replies: seq<Option<Fetch>>, files: Files, tries: nat): (t: Transfer)
    decreases tries
  {
    if tries == 0 then Transfer(false, files, replies, 0)
    else
      var reply := Answer(replies, 0);
      var written := Written(files, TmpPath(name), reply);
      if Succeeded(reply) then Transfer(true, Replaced(written, TmpPath(name), DestPath(name)), Drop(replies, 1), 1)
      else
        var t := Download(name, Drop(replies, 1), written, tries - 1);
        Transfer(t.ok, t.files, t.left, t.calls + 1)
  }

  /** Every attempt makes one call, so a transfer makes between one and `tries` calls and uses up that many replies. */
  lemma {:induction false} DownloadCalls(name: string, replies: seq<Option<Fetch>>, files: Files, tries: nat)
    ensures var t := Download(name, replies, files, tries);
      t.calls <= tries && (tries > 0 ==> t.calls >= 1) && t.left == Drop(replies, t.calls)
    decreases tries
  {
    if tries > 0 && !Succeeded(Answer(replies, 0)) {
      DownloadCalls(name, Drop(replies, 1), Written(files, TmpPath(name), Answer(replies, 0)), tries - 1);
      DropDrop(replies, 1, Download(name, replies, files, tries).calls - 1);
    }
  }

  /** A transfer touches only its temporary file and its destination. */
  lemma {:induction false} DownloadKeepsOthers(name: string, replies: seq<Option<Fetch>>, files: Files, tries: nat, p: string)
    requires p != TmpPath(name) && p != DestPath(name)
    ensures Lookup(Download(name, replies, files, tries).files, p) == Lookup(files, p)
    decreases tries
  {
    if tries > 0 && !Succeeded(Answer(replies, 0)) {
      DownloadKeepsOthers(name, Drop(replies, 1), Written(files, TmpPath(name), Answer(replies, 0)), tries - 1, p);
    }
  }

  /**
   * A transfer succeeds exactly when one of its attempts gets a good reply;
   * the first such reply's body becomes the destination and the temporary
   * file is gone.  When every attempt fails the destination is as it was.
   */
  lemma {:induction false} DownloadOutcome(name: string, replies: seq<Option<Fetch>>, files: Files, tries: nat)
    ensures var t := Download(name, replies, files, tries);
      match FirstSucceeded(replies, tries)
      case Some(j) =>
        t.ok && t.calls == j + 1 && TmpPath(name) !in t.files
        && Lookup(t.files, DestPath(name)) == Some(Answer(replies, j).value.body)
      case None =>
        !t.ok && t.calls == tries && Lookup(t.files, DestPath(name)) == Lookup(files, DestPath(name))
    decreases tries
  {
    if tries > 0 && !Succeeded(Answer(replies, 0)) {
      var written := Written(files, TmpPath(name), Answer(replies, 0));
      DownloadOutcome(name, Drop(replies, 1), written, tries - 1);
      var rest := FirstSucceeded(Drop(replies, 1), tries - 1);
      if rest.Some? {
        AnswerAfter(replies, 1, rest.value);
      }
    }
  }

  /** `download_file` reports success exactly when some attempt got a good reply. */
  lemma DownloadSucceedsIff(name: string, replies: seq<Option<Fetch>>, files: Files, tries: nat)
    ensures Download(name, replies, files, tries).ok <==> exists j :: 0 <= j < tries && Succeeded(Answer(replies, j))
  {
    DownloadOutcome(name, replies, files, tries);
  }

  /** `download_file` on the flash, with its loop of attempts. */
  method DownloadFile(modem: Modem, flash: Flash, name: string, retries: nat) returns (ok: bool)
    modifies modem, flash
    ensures var t := Download(name, old(modem.replies), old(flash.files), retries);
      ok == t.ok && flash.files == t.files && modem.replies == t.left
      && modem.requested == old(modem.requested) + Repeat(FileUrl(name), t.calls)
  {
    var url, tmp, dest := FileUrl(name), TmpPath(name), DestPath(name);
    var attempt := 1;
    while attempt <= retries
      invariant 1 <= attempt <= retries + 1
      invariant var whole := Download(name, old(modem.replies), old(flash.files), retries);
        var rest := Download(name, modem.replies, flash.files, retries + 1 - attempt);
        whole.ok == rest.ok && whole.files == rest.files && whole.left == rest.left && whole.calls == rest.calls + attempt - 1
      invariant modem.requested == old(modem.requested) + Repeat(url, attempt - 1)
    {
      var reply := modem.GetInto(url, tmp, flash);
      if reply.Some? && reply.value.code == 0 && Contains(reply.value.header, "200") {
        if dest in flash.files {
          flash.Remove(dest);
        } else {
          assert flash.files - {dest} == flash.files;
        }
        flash.Rename(tmp, dest);
        return true;
      }
      attempt := attempt + 1;
    }
    return false;
  }

  // ---------------------------------------------------------------------------
  // download_and_replace_files

  /** A pass over a list of files: each file's outcome and number of calls, the flash after it and the replies left. */
  datatype Sweep = Sweep(outcomes: seq<bool>, calls: seq<nat>, files: Files, left: seq<Option<Fetch>>)

  /**
   * `download_and_replace_files` (ota_update.py:127-135): every file of the
   * list, in order, is downloaded with the default retries; a failure is
   * only logged.
   */
  function DownloadAll(names: seq<string>, replies: seq<Option<Fetch>>, files: Files): (s: Sweep)
    ensures |s.outcomes| == |names| && |s.calls| == |names|
    decreases |names|
  {
    if names == [] then Sweep([], [], files, replies)
    else
      var s := DownloadAll(names[..|names| - 1], replies, files);
      var t := Download(names[|names| - 1], s.left, s.files, RETRIES);
      Sweep(s.outcomes + [t.ok], s.calls + [t.calls], t.files, t.left)
  }

  /** The URLs a pass requests: each file's URL as many times as its download called curl, file after file. */
  function Requests(names: seq<string>, calls: seq<nat>): seq<string>
    requires |names| == |calls|
    decreases |names|
  {
    if names == [] then []
    else Requests(names[..|names| - 1], calls[..|calls| - 1]) + Repeat(FileUrl(names[|names| - 1]), calls[|calls| - 1])
  }

  /** A failed file does not stop the pass: every file of the list is requested at least once, and at most `RETRIES` times. */
  lemma {:induction false} DownloadAllAttemptsEach(names: seq<string>, replies: seq<Option<Fetch>>, files: Files)
    ensures var s := DownloadAll(names, replies, files);
      forall k :: 0 <= k < |names| ==> 1 <= s.calls[k] <= RETRIES && FileUrl(names[k]) in Requests(names, s.calls)
    decreases |names|
  {
    if names != [] {
      var front := names[..|names| - 1];
      var s0 := DownloadAll(front, replies, files);
      var last := names[|names| - 1];
      DownloadAllAttemptsEach(front, replies, files);
      DownloadCalls(last, s0.left, s0.files, RETRIES);
      var s := DownloadAll(names, replies, files);
      assert s.calls[..|names| - 1] == s0.calls;
      var earlier := Requests(front, s0.calls);
      var own := Repeat(FileUrl(last), s.calls[|names| - 1]);
      assert Requests(names, s.calls) == earlier + own;
      forall k | 0 <= k < |names|
        ensures 1 <= s.calls[k] <= RETRIES && FileUrl(names[k]) in earlier + own
      {
        if k < |names| - 1 {
          assert names[k] == front[k] && s.calls[k] == s0.calls[k];
          assert FileUrl(front[k]) in earlier;
        } else {
          assert own[0] == FileUrl(last);
        }
      }
    }
  }

  /** A pass touches only the temporary files and destinations of the files it lists. */
  lemma {:induction false} DownloadAllKeepsOthers(names: seq<string>, replies: seq<Option<Fetch>>, files: Files, p: string)
    requires forall k :: 0 <= k < |names| ==> p != TmpPath(names[k]) && p != DestPath(names[k])
    ensures Lookup(DownloadAll(names, replies, files).files, p) == Lookup(files, p)
    decreases |names|
  {
    if names != [] {
      var front := names[..|names| - 1];
      assert forall k :: 0 <= k < |front| ==> front[k] == names[k];
      DownloadAllKeepsOthers(front, replies, files, p);
      var s0 := DownloadAll(front, replies, files);
      DownloadKeepsOthers(names[|names| - 1], s0.left, s0.files, RETRIES, p);
    }
  }

  /**
   * With distinct bare names, each file ends the pass installed when its
   * download succeeded, and as it was before the pass when it failed.
   */
  lemma {:induction false} DownloadAllOutcome(names: seq<string>, replies: seq<Option<Fetch>>, files: Files, k: nat)
    requires forall i :: 0 <= i < |names| ==> PlainName(names[i])
    requires forall i, j :: 0 <= i < j < |names| ==> names[i] != names[j]
    requires k < |names|
    ensures var s := DownloadAll(names, replies, files);
      (s.outcomes[k] ==> DestPath(names[k]) in s.files)
      && (!s.outcomes[k] ==> Lookup(s.files, DestPath(names[k])) == Lookup(files, DestPath(names[k])))
    decreases |names|
  {
    var front := names[..|names| - 1];
    var last := names[|names| - 1];
    var s0 := DownloadAll(front, replies, files);
    var s := DownloadAll(names, replies, files);
    var dest := DestPath(names[k]);
    if k < |names| - 1 {
      assert front[k] == names[k];
      assert forall i, j :: 0 <= i < j < |front| ==> front[i] == names[i] && front[j] == names[j];
      DownloadAllOutcome(front, replies, files, k);
      assert s.outcomes[k] == s0.outcomes[k];
      PathsDistinct(last, names[k]);
      PathsDistinct(names[k], last);
      DownloadKeepsOthers(last, s0.left, s0.files, RETRIES, dest);
    } else {
      DownloadOutcome(last, s0.left, s0.files, RETRIES);
      assert forall i :: 0 <= i < |front| ==> front[i] == names[i] && front[i] != last;
      forall i | 0 <= i < |front|
        ensures dest != TmpPath(front[i]) && dest != DestPath(front[i])
      {
        PathsDistinct(front[i], last);
      }
      DownloadAllKeepsOthers(front, replies, files, dest);
    }
  }

  /** `download_and_replace_files` on the flash, with its loop over the list. */
  method DownloadAndReplaceFiles(modem: Modem, flash: Flash, names: seq<string>)
    modifies modem, flash
    ensures var s := DownloadAll(names, old(modem.replies), old(flash.files));
      flash.files == s.files && modem.replies == s.left
      && modem.requested == old(modem.requested) + Requests(names, s.calls)
  {
    for i := 0 to |names|
      invariant var s := DownloadAll(names[..i], old(modem.replies), old(flash.files));
        flash.files == s.files && modem.replies == s.left
        && modem.requested == old(modem.requested) + Requests(names[..i], s.calls)
    {
      ghost var before := modem.requested;
      ghost var s := DownloadAll(names[..i], old(modem.replies), old(flash.files));
      var success := DownloadFile(modem, flash, names[i], RETRIES);
      assert names[..i + 1][..i] == names[..i];
      ghost var t := Download(names[i], s.left, s.files, RETRIES);
      assert (s.calls + [t.calls])[..i] == s.calls;
      AppendAssoc(old(modem.requested), Requests(names[..i], s.calls), Repeat(FileUrl(names[i]), t.calls));
    }
    assert names[..|names|] == names;
  }

  // ---------------------------------------------------------------------------
  // update_global_file

  /**
   * The attempts of `update_global_file` (ota_update.py:159-196) against the
   * version `local` read beforehand: the first good download is compared by
   * its own `GLOBAL_VERSION`; an equal one is deleted and the call returns
   * False, a different one replaces `/flash/global.py` and the call returns
   * True.  When every attempt fails the call returns False.
   */
  function UpdateGlobal(local: string, replies: seq<Option<Fetch>>, files: Files, tries: nat): (t: Transfer)
    decreases tries
  {
    if tries == 0 then Transfer(false, files, replies, 0)
    else
      var tmp, dest := TmpPath(GLOBAL_FILE), DestPath(GLOBAL_FILE);
      var reply := Answer(replies, 0);
      var written := Written(files, tmp, reply);
      if Succeeded(reply) then
        if ExtractVersion(Lookup(written, tmp)) == local then Transfer(false, written - {tmp}, Drop(replies, 1), 1)
        else Transfer(true, Replaced(written, tmp, dest), Drop(replies, 1), 1)
      else
        var t := UpdateGlobal(local, Drop(replies, 1), written, tries - 1);
        Transfer(t.ok, t.files, t.left, t.calls + 1)
  }

  /** `update_global_file` as a whole: the local version is that of the installed `global.py`. */
  function UpdatedGlobal(replies: seq<Option<Fetch>>, files: Files, tries: nat): Transfer {
    UpdateGlobal(ExtractVersion(Lookup(files, DestPath(GLOBAL_FILE))), replies, files, tries)
  }

  /**
   * The first good download decides: a remote version equal to the local one
   * leaves `global.py` as it was, removes the temporary file and reports
   * False; a different one installs the download and reports True.  With no
   * good download the call reports False and `global.py` is as it was.
   */
  lemma {:induction false} UpdateGlobalOutcome(local: string, replies: seq<Option<Fetch>>, files: Files, tries: nat)
    ensures var t := UpdateGlobal(local, replies, files, tries);
      var dest := DestPath(GLOBAL_FILE);
      match FirstSucceeded(replies, tries)
      case Some(j) =>
        var body := Answer(replies, j).value.body;
        t.calls == j + 1 && TmpPath(GLOBAL_FILE) !in t.files
        && (ExtractVersion(Some(body)) == local ==> !t.ok && Lookup(t.files, dest) == Lookup(files, dest))
        && (ExtractVersion(Some(body)) != local ==> t.ok && Lookup(t.files, dest) == Some(body))
      case None =>
        !t.ok && t.calls == tries && Lookup(t.files, dest) == Lookup(files, dest)
    decreases tries
  {
    var tmp := TmpPath(GLOBAL_FILE);
    if tries > 0 && !Succeeded(Answer(replies, 0)) {
      var written := Written(files, tmp, Answer(replies, 0));
      UpdateGlobalOutcome(local, Drop(replies, 1), written, tries - 1);
      var rest := FirstSucceeded(Drop(replies, 1), tries - 1);
      if rest.Some? {
        AnswerAfter(replies, 1, rest.value);
      }
    }
  }

  /** `update_global_file` touches only `global.py` and its temporary file. */
  lemma {:induction false} UpdateGlobalKeepsOthers(local: string, replies: seq<Option<Fetch>>, files: Files, tries: nat, p: string)
    requires p != TmpPath(GLOBAL_FILE) && p != DestPath(GLOBAL_FILE)
    ensures Lookup(UpdateGlobal(local, replies, files, tries).files, p) == Lookup(files, p)
    decreases tries
  {
    if tries > 0 && !Succeeded(Answer(replies, 0)) {
      UpdateGlobalKeepsOthers(local, Drop(replies, 1), Written(files, TmpPath(GLOBAL_FILE), Answer(replies, 0)), tries - 1, p);
    }
  }

  /** Downloading the `global.py` already installed replaces nothing and reports False. */
  lemma SameGlobalNotReplaced(replies: seq<Option<Fetch>>, files: Files, tries: nat)
    requires DestPath(GLOBAL_FILE) in files
    requires tries > 0 && Succeeded(Answer(replies, 0)) && Answer(replies, 0).value.body == files[DestPath(GLOBAL_FILE)]
    ensures var t := UpdatedGlobal(replies, files, tries);
      !t.ok && t.files == files - {TmpPath(GLOBAL_FILE)}
  {
    var tmp := TmpPath(GLOBAL_FILE);
    var written := Written(files, tmp, Answer(replies, 0));
    assert Lookup(written, tmp) == Lookup(files, DestPath(GLOBAL_FILE));
    assert written - {tmp} == files - {tmp};
  }

  /** One attempt of `update_global_file`: a download, and on a good reply the comparison and its consequence. */
  method GlobalAttempt(modem: Modem, flash: Flash, url: string, local: string) returns (done: bool, updated: bool)
    modifies modem, flash
    ensures var reply := Answer(old(modem.replies), 0);
      done == Succeeded(reply) && modem.replies == Drop(old(modem.replies), 1)
      && modem.requested == old(modem.requested) + [url]
      && (!done ==> flash.files == Written(old(flash.files), TmpPath(GLOBAL_FILE), reply))
    ensures done ==> var t := UpdateGlobal(local, old(modem.replies), old(flash.files), 1);
      updated == t.ok && flash.files == t.files
  {
    var tmp, dest := TmpPath(GLOBAL_FILE), DestPath(GLOBAL_FILE);
    var reply := modem.GetInto(url, tmp, flash);
    done := reply.Some? && reply.value.code == 0 && Contains(reply.value.header, "200");
    if !done {
      return done, false;
    }
    var remote := ReadVersion(flash, tmp);
    if remote == local {
      flash.Remove(tmp);
      return done, false;
    }
    if dest in flash.files {
      flash.Remove(dest);
    } else {
      assert flash.files - {dest} == flash.files;
    }
    flash.Rename(tmp, dest);
    updated := true;
  }

  /** An attempt with a good reply ends the call whatever number of attempts was left. */
  lemma UpdateGlobalDecided(local: string, replies: seq<Option<Fetch>>, files: Files, tries: nat)
    requires tries > 0 && Succeeded(Answer(replies, 0))
    ensures UpdateGlobal(local, replies, files, tries) == UpdateGlobal(local, replies, files, 1)
  {
  }

  /** `update_global_file(device_id, retries)` on the flash. */
  method UpdateGlobalFile(modem: Modem, flash: Flash, deviceId: string, retries: nat) returns (updated: bool)
    modifies modem, flash
    ensures var t := UpdatedGlobal(old(modem.replies), old(flash.files), retries);
      updated == t.ok && flash.files == t.files && modem.replies == t.left
      && modem.requested == old(modem.requested) + Repeat(GlobalUrl(deviceId), t.calls)
  {
    var url := GlobalUrl(deviceId);
    var local := ReadVersion(flash, DestPath(GLOBAL_FILE));
    ghost var whole := UpdateGlobal(local, modem.replies, flash.files, retries);
    var attempt := 1;
    while attempt <= retries
      invariant 1 <= attempt <= retries + 1
      invariant var rest := UpdateGlobal(local, modem.replies, flash.files, retries + 1 - attempt);
        whole.ok == rest.ok && whole.files == rest.files && whole.left == rest.left && whole.calls == rest.calls + attempt - 1
      invariant modem.requested == old(modem.requested) + Repeat(url, attempt - 1)
    {
      ghost var replies, files := modem.replies, flash.files;
      var done;
      done, updated := GlobalAttempt(modem, flash, url, local);
      if done {
        UpdateGlobalDecided(local, replies, files, retries + 1 - attempt);
        return;
      }
      attempt := attempt + 1;
    }
    return false;
  }

  // ---------------------------------------------------------------------------
  // run_ota

  /** How `run_ota` ends: with `machine.reset()` after an update, or by returning. */
  datatype Ending = Rebooted | NoUpdate

  /** What `run_ota` leaves behind. */
  datatype Run = Run(ending: Ending, files: Files, left: seq<Option<Fetch>>, requested: seq<string>)

  /**
   * The bookkeeping of `run_ota` (ota_update.py:216-227): an offered version
   * that is not empty (an empty string is false in Python) triggers the pass
   * over the firmware files, after which the version is saved whatever the
   * pass achieved and the device resets; otherwise nothing is written.
   */
  function RunOta(replies: seq<Option<Fetch>>, files: Files): (r: Run)
    ensures r.ending == NoUpdate ==> r.files == files
  {
    var offered := UpdateOffered(Answer(replies, 0), files);
    if offered.Some? && offered.value != [] then
      var s := DownloadAll(FILES_TO_UPDATE, Drop(replies, 1), files);
      Run(Rebooted, s.files[VERSION_FILE := offered.value], s.left, [VERSION_URL] + Requests(FILES_TO_UPDATE, s.calls))
    else
      Run(NoUpdate, files, Drop(replies, 1), [VERSION_URL])
  }

  /** The device reboots exactly when the server's stripped version is non-empty and differs from the local one. */
  lemma RunOtaRebootsIff(replies: seq<Option<Fetch>>, files: Files)
    ensures var reply := Answer(replies, 0);
      RunOta(replies, files).ending == Rebooted
      <==> Succeeded(reply) && Strip(reply.value.body) != LocalVersion(files) && Strip(reply.value.body) != []
  {
  }

  /**
   * After an update the saved version is the one offered, even when files
   * failed to download, so the same server answer offers nothing more.
   */
  lemma RunOtaRecordsVersion(replies: seq<Option<Fetch>>, files: Files)
    requires RunOta(replies, files).ending == Rebooted
    ensures var r := RunOta(replies, files);
      var v := Strip(Answer(replies, 0).value.body);
      LocalVersion(r.files) == v && UpdateOffered(Answer(replies, 0), r.files) == None
  {
    var s := DownloadAll(FILES_TO_UPDATE, Drop(replies, 1), files);
    SavedVersionIsCurrent(Answer(replies, 0), s.files);
  }

  /** An update writes only the firmware files, their temporary files and the version file. */
  lemma RunOtaKeepsOthers(replies: seq<Option<Fetch>>, files: Files, p: string)
    requires p != VERSION_FILE
    requires forall k :: 0 <= k < |FILES_TO_UPDATE| ==> p != TmpPath(FILES_TO_UPDATE[k]) && p != DestPath(FILES_TO_UPDATE[k])
    ensures Lookup(RunOta(replies, files).files, p) == Lookup(files, p)
  {
    DownloadAllKeepsOthers(FILES_TO_UPDATE, Drop(replies, 1), files, p);
  }

  /** `run_ota` on the flash; the modem initialisation and the memory reports before the check are not modelled. */
  method RunOtaOnce(modem: Modem, flash: Flash) returns (ending: Ending)
    modifies modem, flash
    ensures var r := RunOta(old(modem.replies), old(flash.files));
      ending == r.ending && flash.files == r.files && modem.replies == r.left
      && modem.requested == old(modem.requested) + r.requested
  {
    var newVersion := CheckForUpdate(modem, flash);
    if newVersion.Some? && newVersion.value != [] {
      ghost var checked := modem.requested;
      DownloadAndReplaceFiles(modem, flash, FILES_TO_UPDATE);
      AppendAssoc(old(modem.requested), [VERSION_URL], modem.requested[|checked|..]);
      flash.Write(VERSION_FILE, newVersion.value);
      return Rebooted;
    }
    return NoUpdate;
  }
}

=== FILE: storage.dfy ===
/**
 * meter_storage.py: one JSON file per meter address, `target_<address>.json`,
 * holding `{"<address>": value}`.  Files are modelled by the address they
 * belong to (the file name is a function of `str(address)`, and distinct
 * integers print differently); their JSON object is a map from keys to values.
 */
module Storage {
  import opened Wrappers
  import opened Text

  /** What a target file holds: a JSON object of integers, or text that does not parse. */
  datatype TargetFile = Record(fields: map<string, int>) | Unreadable

  type Files = map<int, TargetFile>

  /** The target the device starts from when none is stored. */
  const DEFAULT_TARGET := 45

  /** The key a record stores its value under: `str(address)`. */
  function Key(address: int): string {
    Decimal(address)
  }

  /**
   * `load_target_reading`: the value under `str(address)` in the address's
   * file; `None` when the file is missing, does not parse, or lacks the key.
   */
  function Loaded(files: Files, address: int): (v: Option<int>)
    ensures address !in files ==> v == None
    ensures v.Some? ==> files[address].Record? && Key(address) in files[address].fields
  {
    if address in files && files[address].Record? && Key(address) in files[address].fields then
      Some(files[address].fields[Key(address)])
    else
      None
  }

  /**
   * `save_target_reading`: the address's file is replaced by a one-entry
   * record; when the flash cannot be written the exception is swallowed and
   * nothing changes.
   */
  function Saved(files: Files, writable: bool, address: int, value: int): (after: Files)
    ensures after.Keys == if writable then files.Keys + {address} else files.Keys
  {
    if writable then files[address := Record(map[Key(address) := value])] else files
  }

  /** After a save, a load of the same address returns the saved value. */
  lemma LoadAfterSave(files: Files, address: int, value: int)
    ensures Loaded(Saved(files, true, address, value), address) == Some(value)
  {
  }

  /** Each address has its own file: saving one never changes what another loads. */
  lemma SaveKeepsOthers(files: Files, writable: bool, address: int, other: int, value: int)
    requires other != address
    ensures Loaded(Saved(files, writable, address, value), other) == Loaded(files, other)
  {
  }

  /** A save that fails leaves every load as it was. */
  lemma FailedSaveChangesNothing(files: Files, address: int, value: int, any: int)
    ensures Loaded(Saved(files, false, address, value), any) == Loaded(files, any)
  {
  }

  /** A meter that had a target still has one after a save, whether or not the flash could be written. */
  lemma SaveKeepsTarget(files: Files, writable: bool, address: int, value: int)
    requires Loaded(files, address).Some?
    ensures Loaded(Saved(files, writable, address, value), address) == Some(if writable then value else Loaded(files, address).value)
  {
  }

  /** A record that does not hold the address's own key loads as `None`, whatever else it holds. */
  lemma ForeignKeyIgnored(fields: map<string, int>, files: Files, address: int)
    requires Key(address) !in fields
    ensures Loaded(files[address := Record(fields)], address) == None
  {
  }

  class TargetStore {
    /** The target files on the flash. */
    var files: Files
    /** Whether writes to the flash succeed. */
    var writable: bool

    constructor (initial: Files, canWrite: bool)
      ensures files == initial && writable == canWrite
    {
      files := initial;
      writable := canWrite;
    }

    /** `save_target_reading` (meter_storage.py:10-29). */
    method SaveTargetReading(address: int, value: int)
      modifies this
      ensures files == Saved(old(files), old(writable), address, value)
      ensures writable == old(writable)
    {
      if writable {
        files := files[address := Record(map[Key(address) := value])];
      }
    }

    /** `load_target_reading` (meter_storage.py:32-59). */
    method LoadTargetReading(address: int) returns (v: Option<int>)
      ensures v == Loaded(files, address)
    {
      if address !in files {
        return None;
      }
      match files[address]
      case Unreadable =>
        v := None;
      case Record(fields) =>
        v := if Key(address) in fields then Some(fields[Key(address)]) else None;
    }

    /**
     * `init_target_reading`: an existing target is returned and nothing is
     * written; otherwise the default is saved and returned.
     */
    method InitTargetReading(address: int, default: int) returns (v: int)
      modifies this
      ensures Loaded(old(files), address).Some? ==> v == Loaded(old(files), address).value && files == old(files)
      ensures Loaded(old(files), address).None? ==> v == default && files == Saved(old(files), writable, address, default)
      ensures writable == old(writable)
    {
      var stored := LoadTargetReading(address);
      if stored.None? {
        SaveTargetReading(address, default);
        return default;
      }
      return stored.value;
    }
  }
}

=== FILE: supervisor.dfy ===
/**
 * The monitor thread of main.py: a loop that restarts the device on low
 * memory, at midnight, when the modem drops or when the broker stops
 * answering pings, and otherwise uploads readings and enforces targets.
 * Every input the loop reads (free memory, the clock, the modem status, the
 * broker) is an observation made at the start of a pass; `machine.reset()` is
 * a terminal outcome.  main.py as written stops at its import of
 * `read_meter_parameters` from meter.py, which does not define it; the loop is
 * modelled as it would run once that import resolves.
 */
module Supervisor {
  import opened Wrappers

  /** `safe_gc` reboots below this many free bytes. */
  const LOW_RAM := 10240
  const MAX_MQTT_RETRIES := 10
  /** Seconds after the loop starts during which failed pings are ignored. */
  const BOOT_GRACE_PERIOD := 60

  /** `safe_gc` (main.py:56-63): too little memory left after a collection. */
  predicate LowRam(free: int) {
    free < LOW_RAM
  }

  /** `check_scheduled_restart` (main.py:66-72): the first two minutes after midnight. */
  predicate MidnightRestart(hour: int, minute: int) {
    hour == 0 && 0 <= minute < 2
  }

  /** The broker as a pass finds it: no client object yet, a ping that returns, or one that raises. */
  datatype Link = Absent | PingOk | PingFails

  /**
   * What one pass reads: free memory after collection, the hour and minute of
   * `localtime()`, the modem status (`None` when `gsmCheckStatus` raises),
   * `time()` and the broker.
   */
  datatype Observation = Observation(free: int, hour: int, minute: int, gsm: Option<int>, now: int, link: Link)

  /** Why the device was reset. */
  datatype Reason = LowMemory | Midnight | GsmLost | MqttDead | LoopCrash

  datatype Pass = Restart(reason: Reason) | Continue(count: nat, connected: bool)

  /** The work a pass that does not reset hands on: the read-and-upload, then the target check. */
  datatype Task = Upload | Monitor

  /**
   * One pass of `monitor_loop` (main.py:85-149) with failure count `count`:
   * the memory, midnight and modem checks come first, then the ping, whose
   * failure counts only once the grace period is over.
   */
  function Step(count: nat, start: int, o: Observation): Pass {
    if LowRam(o.free) then Restart(LowMemory)
    else if MidnightRestart(o.hour, o.minute) then Restart(Midnight)
    else if o.gsm.None? then Restart(LoopCrash)
    else if o.gsm.value != 1 then Restart(GsmLost)
    else
      var booting := o.now - start < BOOT_GRACE_PERIOD;
      match o.link
      case Absent => Continue(count, false)
      case PingOk => Continue(0, true)
      case PingFails =>
        if booting then Continue(count, false)
        else if count + 1 >= MAX_MQTT_RETRIES then Restart(MqttDead)
        else Continue(count + 1, false)
  }

  /** What a pass that carries on runs: the upload only when the ping succeeded, the target check always. */
  function Tasks(connected: bool): (tasks: seq<Task>)
    ensures Monitor in tasks && (Upload in tasks <==> connected)
  {
    if connected then [Upload, Monitor] else [Monitor]
  }

  /** A run of the loop over a series of passes: the reset that ended it, if any, the count, the work done and the passes completed. */
  datatype Watch = Watch(ending: Option<Reason>, count: nat, tasks: seq<Task>, passes: nat)

  function Supervise(count: nat, start: int, observations: seq<Observation>): (w: Watch)
    ensures w.passes <= |observations|
    ensures w.ending.None? ==> w.passes == |observations|
    decreases |observations|
  {
    if observations == [] then Watch(None, count, [], 0)
    else
      match Step(count, start, observations[0])
      case Restart(r) => Watch(Some(r), count, [], 0)
      case Continue(c, connected) =>
        var w := Supervise(c, start, observations[1..]);
        Watch(w.ending, w.count, Tasks(connected) + w.tasks, w.passes + 1)
  }

  // ---------------------------------------------------------------------------
  // One pass

  /** A pass that finds the device healthy: enough memory, not midnight, the modem up. */
  predicate Healthy(o: Observation) {
    !LowRam(o.free) && !MidnightRestart(o.hour, o.minute) && o.gsm == Some(1)
  }

  /** The memory check resets the device exactly when memory is low, before anything else. */
  lemma LowMemoryRestarts(count: nat, start: int, o: Observation)
    ensures Step(count, start, o) == Restart(LowMemory) <==> LowRam(o.free)
  {
  }

  /** With enough memory, the scheduled restart happens exactly in the first two minutes after midnight. */
  lemma MidnightRestarts(count: nat, start: int, o: Observation)
    requires !LowRam(o.free)
    ensures Step(count, start, o) == Restart(Midnight) <==> o.hour == 0 && 0 <= o.minute < 2
  {
  }

  /** A modem that is not up resets the device before the broker is looked at. */
  lemma ModemLossRestartsBeforePing(count: nat, start: int, o: Observation, link: Link)
    requires o.gsm != Some(1)
    ensures Step(count, start, o).Restart?
    ensures Step(count, start, o) == Step(count, start, o.(link := link))
  {
  }

  /** A healthy pass resets only when the broker is dead. */
  lemma HealthyRestartsOnlyForBroker(count: nat, start: int, o: Observation)
    requires Healthy(o)
    ensures Step(count, start, o).Restart? ==> Step(count, start, o) == Restart(MqttDead) && o.link == PingFails
  {
  }

  /** A successful ping clears the failure count and the pass uploads. */
  lemma PingSuccessResetsCount(count: nat, start: int, o: Observation)
    requires Healthy(o) && o.link == PingOk
    ensures Step(count, start, o) == Continue(0, true)
  {
  }

  /** Without a client object the count stays as it is and nothing is uploaded. */
  lemma AbsentClientWaits(count: nat, start: int, o: Observation)
    requires Healthy(o) && o.link == Absent
    ensures Step(count, start, o) == Continue(count, false)
  {
  }

  /** During the grace period a failed ping neither counts nor resets. */
  lemma GraceIgnoresFailures(count: nat, start: int, o: Observation)
    requires Healthy(o) && o.link == PingFails && o.now - start < BOOT_GRACE_PERIOD
    ensures Step(count, start, o) == Continue(count, false)
  {
  }

  /** After the grace period a failed ping adds one, and resets the device exactly when that reaches the limit. */
  lemma FailureCounts(count: nat, start: int, o: Observation)
    requires Healthy(o) && o.link == PingFails && o.now - start >= BOOT_GRACE_PERIOD
    ensures Step(count, start, o).Restart? <==> count + 1 >= MAX_MQTT_RETRIES
    ensures Step(count, start, o).Continue? ==> Step(count, start, o) == Continue(count + 1, false)
  {
  }

  /** Only a successful ping makes a pass upload. */
  lemma UploadsOnlyWhenConnected(count: nat, start: int, o: Observation)
    requires Step(count, start, o).Continue?
    ensures Step(count, start, o).connected <==> o.link == PingOk
  {
  }

  // ---------------------------------------------------------------------------
  // Series of passes

  /** Every pass completed hands on one target check. */
  function Checks(tasks: seq<Task>): nat
    decreases |tasks|
  {
    if tasks == [] then 0 else (if tasks[0] == Monitor then 1 else 0) + Checks(tasks[1..])
  }

  lemma {:induction false} ChecksAppend(a: seq<Task>, b: seq<Task>)
    ensures Checks(a + b) == Checks(a) + Checks(b)
    decreases |a|
  {
    if a == [] {
      assert a + b == b;
    } else {
      assert (a + b)[1..] == a[1..] + b;
      ChecksAppend(a[1..], b);
    }
  }

  /** The target check runs on every pass that does not reset. */
  lemma {:induction false} MonitorsEveryPass(count: nat, start: int, observations: seq<Observation>)
    ensures var w := Supervise(count, start, observations); Checks(w.tasks) == w.passes
    decreases |observations|
  {
    if observations != [] {
      var p := Step(count, start, observations[0]);
      if p.Continue? {
        MonitorsEveryPass(p.count, start, observations[1..]);
        var w := Supervise(p.count, start, observations[1..]);
        ChecksAppend(Tasks(p.connected), w.tasks);
      }
    }
  }

  /** Healthy passes after the grace period whose pings all fail. */
  predicate Failing(start: int, observations: seq<Observation>) {
    forall k :: 0 <= k < |observations| ==>
      Healthy(observations[k]) && observations[k].link == PingFails && observations[k].now - start >= BOOT_GRACE_PERIOD
  }

  /**
   * Consecutive failures after the grace period: the device carries on until
   * the count reaches the limit and is reset by the pass that reaches it.
   */
  lemma {:induction false} FailuresReachLimit(count: nat, start: int, observations: seq<Observation>)
    requires count < MAX_MQTT_RETRIES && Failing(start, observations)
    ensures var w := Supervise(count, start, observations);
      if count + |observations| < MAX_MQTT_RETRIES then w.ending == None && w.count == count + |observations|
      else w.ending == Some(MqttDead) && w.passes == MAX_MQTT_RETRIES - 1 - count
    decreases |observations|
  {
    if observations != [] {
      FailureCounts(count, start, observations[0]);
      if count + 1 < MAX_MQTT_RETRIES {
        assert Failing(start, observations[1..]) by {
          assert forall k :: 0 <= k < |observations| - 1 ==> observations[1..][k] == observations[k + 1];
        }
        FailuresReachLimit(count + 1, start, observations[1..]);
      }
    }
  }

  /** From a clear count, nine failed pings in a row are tolerated and the tenth resets the device. */
  lemma TenthFailureRestarts(start: int, observations: seq<Observation>)
    requires Failing(start, observations)
    ensures |observations| <= 9 ==> Supervise(0, start, observations).ending == None
    ensures |observations| >= 10 ==> Supervise(0, start, observations).ending == Some(MqttDead)
  {
    FailuresReachLimit(0, start, observations);
  }

  /**
   * `monitor_loop` (main.py:75-149) over the passes observed, after the
   * memory check before it; `None` when the passes run out without a reset.
   */
  method MonitorLoop(free: int, start: int, observations: seq<Observation>) returns (ending: Option<Reason>, tasks: seq<Task>)
    ensures LowRam(free) ==> ending == Some(LowMemory) && tasks == []
    ensures !LowRam(free) ==> var w := Supervise(0, start, observations); ending == w.ending && tasks == w.tasks
  {
    if free < LOW_RAM {
      return Some(LowMemory), [];
    }
    var count: nat := 0;
    tasks := [];
    ghost var whole := Supervise(0, start, observations);
    var i := 0;
    while i < |observations|
      invariant 0 <= i <= |observations|
      invariant var rest := Supervise(count, start, observations[i..]);
        whole.ending == rest.ending && whole.tasks == tasks + rest.tasks
    {
      var o := observations[i];
      assert observations[i..][1..] == observations[i + 1..];
      if o.free < LOW_RAM {
        return Some(LowMemory), tasks;
      }
      if o.hour == 0 && 0 <= o.minute < 2 {
        return Some(Midnight), tasks;
      }
      if o.gsm.None? {
        return Some(LoopCrash), tasks;
      }
      if o.gsm.value != 1 {
        return Some(GsmLost), tasks;
      }
      var connected := false;
      var booting := o.now - start < BOOT_GRACE_PERIOD;
      if o.link == PingOk {
        connected := true;
        count := 0;
      } else if o.link == PingFails && !booting {
        count := count + 1;
        if count >= MAX_MQTT_RETRIES {
          return Some(MqttDead), tasks;
        }
      }
      ghost var rest := Supervise(count, start, observations[i + 1..]);
      AppendAssoc(tasks, Tasks(connected), rest.tasks);
      tasks := tasks + Tasks(connected);
      i := i + 1;
    }
    assert observations[i..] == [];
    ending := None;
  }
}

=== FILE: text.dfy ===
/**
 * The handful of MicroPython string operations the firmware relies on:
 * `str.strip`, `in` on strings, `str.split` on one character, `str.replace`
 * with an empty replacement, `str(n)` and `int(s, 10)`.
 */
module Text {
  import opened Wrappers

  /** MicroPython's whitespace for `strip`: space, tab, line feed, carriage return, vertical tab, form feed. */
  predicate IsSpace(c: char) {
    c == ' ' || c == '\t' || c == '\n' || c == '\r' || c == '\U{000B}' || c == '\U{000C}'
  }

  predicate IsDigit(c: char) {
    '0' <= c <= '9'
  }

  predicate AllSpace(s: string) {
    forall i :: 0 <= i < |s| ==> IsSpace(s[i])
  }

  predicate AllDigits(s: string) {
    forall i :: 0 <= i < |s| ==> IsDigit(s[i])
  }

  /** Neither end of `s` is whitespace. */
  predicate Trimmed(s: string) {
    s == [] || (!IsSpace(s[0]) && !IsSpace(s[|s| - 1]))
  }

  /** `str.strip()`: drops the whitespace at either end. */
  function Strip(s: string): (r: string)
    ensures Trimmed(r)
    ensures |r| <= |s|
    decreases |s|
  {
    if s != [] && IsSpace(s[0]) then Strip(s[1..])
    else if s != [] && IsSpace(s[|s| - 1]) then Strip(s[..|s| - 1])
    else s
  }

  /** Whitespace around a text without surrounding whitespace is all that `strip` removes. */
  lemma {:induction false} StripPadded(front: string, core: string, back: string)
    requires AllSpace(front) && AllSpace(back) && Trimmed(core)
    ensures Strip(front + core + back) == core
    decreases |front| + |back|
  {
    var s := front + core + back;
    if front != [] {
      assert s[0] == front[0];
      assert s[1..] == front[1..] + core + back;
      StripPadded(front[1..], core, back);
    } else if core == [] && back != [] {
      assert s == back && s[1..] == [] + [] + back[1..];
      StripPadded([], [], back[1..]);
    } else if back != [] {
      assert s == core + back && s[0] == core[0];
      assert s[|s| - 1] == back[|back| - 1];
      assert s[..|s| - 1] == [] + core + back[..|back| - 1];
      StripPadded([], core, back[..|back| - 1]);
    } else {
      assert s == core;
    }
  }

  /** A string of whitespace strips to nothing. */
  lemma StripBlank(pad: string)
    requires AllSpace(pad)
    ensures Strip(pad) == []
  {
    StripPadded(pad, [], []);
    assert pad + [] + [] == pad;
  }

  /** `strip` leaves alone a string without surrounding whitespace. */
  lemma StripTrimmed(s: string)
    requires Trimmed(s)
    ensures Strip(s) == s
  {
    StripPadded([], s, []);
    assert [] + s + [] == s;
  }

  /** `strip` is idempotent. */
  lemma StripStrip(s: string)
    ensures Strip(Strip(s)) == Strip(s)
  {
    StripTrimmed(Strip(s));
  }

  /** `sub in s` for strings. */
  predicate Contains(s: string, sub: string)
    decreases |s|
  {
    |sub| <= |s| && (s[..|sub|] == sub || Contains(s[1..], sub))
  }

  /** `sub` occurs in `s` starting at position `i`. */
  predicate OccursAt(s: string, sub: string, i: int) {
    0 <= i <= |s| - |sub| && s[i..i + |sub|] == sub
  }

  /** `sub in s` holds exactly when `sub` occurs at some position of `s`. */
  lemma {:induction false} ContainsAt(s: string, sub: string)
    ensures Contains(s, sub) <==> exists i :: OccursAt(s, sub, i)
    decreases |s|
  {
    if |sub| <= |s| && s[..|sub|] != sub {
      ContainsAt(s[1..], sub);
      if exists i :: OccursAt(s, sub, i) {
        var i :| OccursAt(s, sub, i);
        assert OccursAt(s[1..], sub, i - 1);
      }
      if Contains(s[1..], sub) {
        var j :| OccursAt(s[1..], sub, j);
        assert OccursAt(s, sub, j + 1);
      }
    } else if |sub| <= |s| {
      assert OccursAt(s, sub, 0);
    }
  }

  /** A text contains every text that occurs in it. */
  lemma ContainsInfix(a: string, sub: string, b: string)
    ensures Contains(a + sub + b, sub)
  {
    var s := a + sub + b;
    assert OccursAt(s, sub, |a|);
    ContainsAt(s, sub);
  }

  /** Whatever the middle of a text contains, the text contains. */
  lemma ContainsWithin(a: string, mid: string, b: string, sub: string)
    requires Contains(mid, sub)
    ensures Contains(a + mid + b, sub)
  {
    ContainsAt(mid, sub);
    var i :| OccursAt(mid, sub, i);
    var s := a + mid + b;
    assert s[|a| + i..|a| + i + |sub|] == mid[i..i + |sub|];
    assert OccursAt(s, sub, |a| + i);
    ContainsAt(s, sub);
  }

  /** `s.split(c)` for a one-character separator: the pieces between the separators. */
  function Split(s: string, c: char): (parts: seq<string>)
    ensures |parts| >= 1
    ensures forall k :: 0 <= k < |parts| ==> c !in parts[k]
    decreases |s|
  {
    if s == [] then [[]]
    else
      var rest := Split(s[1..], c);
      if s[0] == c then [[]] + rest else [[s[0]] + rest[0]] + rest[1..]
  }

  /** `c.join(parts)`. */
  function Join(parts: seq<string>, c: char): string
    requires |parts| >= 1
    decreases |parts|
  {
    if |parts| == 1 then parts[0] else parts[0] + [c] + Join(parts[1..], c)
  }

  /** Joining the pieces of a split with the separator restores the text. */
  lemma {:induction false} JoinSplit(s: string, c: char)
    ensures Join(Split(s, c), c) == s
    decreases |s|
  {
    if s != [] {
      var rest := Split(s[1..], c);
      JoinSplit(s[1..], c);
      if s[0] == c {
        assert Split(s, c)[1..] == rest;
        assert s == [] + [c] + s[1..];
      } else {
        var parts := Split(s, c);
        assert parts[0] == [s[0]] + rest[0];
        if |rest| == 1 {
          assert s == [s[0]] + s[1..];
        } else {
          assert parts[1..] == rest[1..];
          assert s == [s[0]] + s[1..];
        }
      }
    }
  }

  /** A text without the separator is one piece. */
  lemma {:induction false} SplitNone(s: string, c: char)
    requires c !in s
    ensures Split(s, c) == [s]
    decreases |s|
  {
    if s != [] {
      SplitNone(s[1..], c);
      assert s == [s[0]] + s[1..];
    }
  }

  /** Splitting `a + [c] + b`, with no separator in `a`, gives `a` followed by the pieces of `b`. */
  lemma {:induction false} SplitFirst(a: string, c: char, b: string)
    requires c !in a
    ensures Split(a + [c] + b, c) == [a] + Split(b, c)
    decreases |a|
  {
    if a == [] {
      assert a + [c] + b == [c] + b;
      assert ([c] + b)[1..] == b;
    } else {
      assert (a + [c] + b)[1..] == a[1..] + [c] + b;
      SplitFirst(a[1..], c, b);
      assert a == [a[0]] + a[1..];
    }
  }

  /** The last piece of `a + [c] + b`, when `b` holds no separator, is `b`; there are at least two pieces. */
  lemma {:induction false} SplitLast(a: string, c: char, b: string)
    requires c !in b
    ensures var parts := Split(a + [c] + b, c);
      |parts| >= 2 && parts[|parts| - 1] == b
    decreases |a|
  {
    if a == [] {
      SplitFirst(a, c, b);
      SplitNone(b, c);
    } else {
      assert (a + [c] + b)[1..] == a[1..] + [c] + b;
      SplitLast(a[1..], c, b);
    }
  }

  /** `s.replace(c, "")` for a one-character `c`. */
  function Remove(s: string, c: char): (r: string)
    ensures c !in r
    ensures |r| <= |s|
    ensures c !in s ==> r == s
  {
    if s == [] then []
    else if s[0] == c then Remove(s[1..], c)
    else [s[0]] + Remove(s[1..], c)
  }

  /** Removing one character brings in no other. */
  lemma {:induction false} RemoveKeepsAbsent(s: string, c: char, d: char)
    requires d !in s
    ensures d !in Remove(s, c)
    decreases |s|
  {
    if s != [] {
      assert forall i :: 0 <= i < |s[1..]| ==> s[1..][i] == s[i + 1];
      RemoveKeepsAbsent(s[1..], c, d);
    }
  }

  // ---------------------------------------------------------------------------
  // Decimal numerals

  function DigitChar(d: int): (c: char)
    requires 0 <= d < 10
    ensures IsDigit(c)
  {
    ('0' as int + d) as char
  }

  function DigitValue(c: char): int
    requires IsDigit(c)
  {
    c as int - '0' as int
  }

  /** The decimal digits of a natural number, without leading zeros. */
  function NatDigits(n: nat): (s: string)
    ensures |s| >= 1 && AllDigits(s)
    ensures s[0] == '0' ==> n == 0
  {
    if n < 10 then [DigitChar(n)] else NatDigits(n / 10) + [DigitChar(n % 10)]
  }

  /** `str(n)` for an integer. */
  function Decimal(n: int): (s: string)
    ensures |s| >= 1 && Trimmed(s)
    ensures '-' !in s <==> n >= 0
  {
    if n < 0 then "-" + NatDigits(-n) else NatDigits(n)
  }

  /** The value of a run of decimal digits. */
  function DigitsValue(s: string): nat
    requires AllDigits(s)
  {
    if s == [] then 0 else DigitsValue(s[..|s| - 1]) * 10 + DigitValue(s[|s| - 1])
  }

  lemma {:induction false} DigitsRoundTrip(n: nat)
    ensures DigitsValue(NatDigits(n)) == n
  {
    if n >= 10 {
      DigitsRoundTrip(n / 10);
      var s := NatDigits(n);
      assert s[..|s| - 1] == NatDigits(n / 10);
    }
  }

  /**
   * `int(s, 10)`: surrounding whitespace is ignored, then an optional sign and
   * at least one decimal digit; anything else is a ValueError (here `None`).
   */
  function ParseInt(s: string): Option<int> {
    ParseNumeral(Strip(s))
  }

  /** An optional sign and at least one decimal digit, nothing else. */
  function ParseNumeral(t: string): Option<int> {
    if |t| >= 1 && (t[0] == '+' || t[0] == '-') then
      var digits := t[1..];
      if |digits| >= 1 && AllDigits(digits) then
        Some(if t[0] == '-' then 0 - DigitsValue(digits) else DigitsValue(digits))
      else
        None
    else if |t| >= 1 && AllDigits(t) then
      Some(DigitsValue(t))
    else
      None
  }

  /** The numeral `str` prints reads back as the integer. */
  lemma NumeralRoundTrip(n: int)
    ensures ParseNumeral(Decimal(n)) == Some(n)
  {
    if n < 0 {
      var digits := NatDigits(-n);
      assert Decimal(n) == "-" + digits;
      assert ("-" + digits)[1..] == digits;
      DigitsRoundTrip(-n);
    } else {
      var digits := NatDigits(n);
      assert IsDigit(digits[0]);
      DigitsRoundTrip(n);
    }
  }

  /** Parsing what `str` prints gives the integer back, with or without surrounding whitespace. */
  lemma ParseDecimal(n: int, front: string, back: string)
    requires AllSpace(front) && AllSpace(back)
    ensures ParseInt(front + Decimal(n) + back) == Some(n)
  {
    StripPadded(front, Decimal(n), back);
    NumeralRoundTrip(n);
  }

  /** Parsing what `str` prints gives the integer back. */
  lemma ParseOwnDecimal(n: int)
    ensures ParseInt(Decimal(n)) == Some(n)
  {
    StripTrimmed(Decimal(n));
    NumeralRoundTrip(n);
  }
}

=== FILE: uart.dfy ===
/**
 * The RS-485 line seen through MicroPython's UART object.  The meters' answers
 * are an oracle: `pending[k]` holds the bytes that arrive in answer to the k-th
 * frame written from now on (the empty sequence is silence).
 */
module Uart {
  import opened Wrappers
  import opened Crc

  /** What is left of an oracle after `k` exchanges. */
  function Drop<T>(s: seq<T>, k: nat): (r: seq<T>)
    ensures |r| == if k <= |s| then |s| - k else 0
  {
    if k <= |s| then s[k..] else []
  }

  lemma DropDrop<T>(s: seq<T>, a: nat, b: nat)
    ensures Drop(Drop(s, a), b) == Drop(s, a + b)
  {
  }

  /** The bytes that arrive in answer to the j-th frame (silence once the oracle is exhausted). */
  function Reply(pending: seq<seq<byte>>, j: nat): seq<byte> {
    if j < |pending| then pending[j] else []
  }

  /** After `k` exchanges, the j-th answer still to come is the (k + j)-th of the original oracle. */
  lemma ReplyAfter(pending: seq<seq<byte>>, k: nat, j: nat)
    ensures Reply(Drop(pending, k), j) == Reply(pending, k + j)
  {
  }

  /**
   * `uart.read(n)` once the poll of `smart_read_modbus` has ended: `None` when
   * nothing arrived, otherwise what arrived, cut to at most `n` bytes.
   */
  function Received(arrived: seq<byte>, n: nat): (r: Option<seq<byte>>)
    requires n > 0
    ensures r == None <==> arrived == []
    ensures r.Some? ==> 1 <= |r.value| <= n && |r.value| <= |arrived| && r.value == arrived[..|r.value|]
    ensures r.Some? && |arrived| >= n ==> |r.value| == n
  {
    if arrived == [] then None
    else if |arrived| <= n then Some(arrived)
    else Some(arrived[..n])
  }

  class Port {
    /** The answers still to come, one per frame written. */
    var pending: seq<seq<byte>>
    /** Every frame written so far, oldest first. */
    var sent: seq<seq<byte>>

    constructor (answers: seq<seq<byte>>)
      ensures pending == answers && sent == []
    {
      pending := answers;
      sent := [];
    }

    /**
     * `uart.write(frame)` followed by a read of up to `n` bytes: the frame is
     * appended to the line's history and the next answer is consumed.
     */
    method Exchange(frame: seq<byte>, n: nat) returns (response: Option<seq<byte>>)
      requires n > 0
      modifies this
      ensures sent == old(sent) + [frame]
      ensures pending == Drop(old(pending), 1)
      ensures response == Received(Reply(old(pending), 0), n)
    {
      sent := sent + [frame];
      var arrived := if pending == [] then [] else pending[0];
      pending := Drop(pending, 1);
      response := Received(arrived, n);
    }
  }
}

=== FILE: voltage.dfy ===
/**
 * The cell-voltage reading of meter_tests.py and meter_sim.py: the meter
 * answers with one register whose two bytes are binary-coded decimal, two
 * decimal digits per byte, and the driver turns them into a four-digit
 * integer (hundredths of a volt; the scaling to volts is not modelled).
 */
module Voltage {
  import opened Wrappers
  import opened Crc
  import opened Frames
  import opened Uart
  import opened Modbus

  /** The high and the low half of a byte. */
  function HighNibble(b: byte): bv8 { (b >> 4) & 0x0F }
  function LowNibble(b: byte): bv8 { b & 0x0F }

  /** A byte is valid BCD when both halves are decimal digits. */
  predicate IsBcd(b: byte) {
    HighNibble(b) <= 9 && LowNibble(b) <= 9
  }

  /**
   * `bcd_to_decimal` (meter_tests.py:78-82): ten times the high half plus the
   * low half; at most 99 for a valid BCD byte, at most 165 for any byte.
   */
  function BcdToDecimal(b: byte): (d: nat)
    ensures d <= 165
    ensures IsBcd(b) ==> d <= 99
  {
    HighNibble(b) as int * 10 + LowNibble(b) as int
  }

  /** The halves of a byte are its value divided by sixteen and its remainder. */
  lemma NibbleValues(b: byte)
    ensures HighNibble(b) as int == b as int / 16 && LowNibble(b) as int == b as int % 16
  {
  }

  /** The decimal value of a byte read as BCD, stated on its integer value. */
  lemma BcdToDecimalValue(b: byte)
    ensures BcdToDecimal(b) == 10 * (b as int / 16) + b as int % 16
  {
    NibbleValues(b);
  }

  /** The BCD byte of a number below one hundred: tens in the high half, units in the low half. */
  function BcdEncode(n: nat): (b: byte)
    requires n <= 99
    ensures HighNibble(b) as int == n / 10 && LowNibble(b) as int == n % 10
    ensures IsBcd(b)
  {
    (((n / 10) as bv8) << 4) | ((n % 10) as bv8)
  }

  /** A byte is fixed by its two halves. */
  lemma NibblesDetermine(a: byte, b: byte)
    requires HighNibble(a) == HighNibble(b) && LowNibble(a) == LowNibble(b)
    ensures a == b
  {
    assert a == (HighNibble(a) << 4) | LowNibble(a);
    assert b == (HighNibble(b) << 4) | LowNibble(b);
  }

  /** Division by ten undoes putting a digit after a number. */
  lemma DivideTens(q: nat, r: nat)
    requires r < 10
    ensures (10 * q + r) / 10 == q && (10 * q + r) % 10 == r
  {
  }

  /** Division by a hundred undoes putting two digits after a number. */
  lemma DivideHundreds(q: nat, r: nat)
    requires r < 100
    ensures (100 * q + r) / 100 == q && (100 * q + r) % 100 == r
  {
  }

  /** Decoding a BCD byte gives back the number encoded. */
  lemma DecodeEncode(n: nat)
    requires n <= 99
    ensures BcdToDecimal(BcdEncode(n)) == n
  {
  }

  /** Every valid BCD byte is the encoding of its decimal value. */
  lemma EncodeDecode(b: byte)
    requires IsBcd(b)
    ensures BcdEncode(BcdToDecimal(b)) == b
  {
    var high, low := HighNibble(b), LowNibble(b);
    DivideTens(high as int, low as int);
    var e := BcdEncode(BcdToDecimal(b));
    assert HighNibble(e) as int == high as int && LowNibble(e) as int == low as int;
    NibblesDetermine(e, b);
  }

  /** On valid BCD bytes the conversion is one-to-one. */
  lemma BcdInjective(a: byte, b: byte)
    requires IsBcd(a) && IsBcd(b)
    ensures BcdToDecimal(a) == BcdToDecimal(b) <==> a == b
  {
    if BcdToDecimal(a) == BcdToDecimal(b) {
      EncodeDecode(a);
      EncodeDecode(b);
    }
  }

  /** Outside BCD the conversion is not one-to-one: 0x0A and 0x10 both read as ten. */
  lemma InvalidBcdAliases()
    ensures !IsBcd(0x0A) && IsBcd(0x10) && BcdToDecimal(0x0A) == BcdToDecimal(0x10) == 10
  {
  }

  /**
   * The raw voltage of `read_cell_voltage` (meter_tests.py:90-94): the high
   * byte gives the first two digits, the low byte the last two.
   */
  function RawVoltage(msb: byte, lsb: byte): (v: nat)
    ensures v <= 165 * 100 + 165
    ensures IsBcd(msb) && IsBcd(lsb) ==> v <= 9999
  {
    BcdToDecimal(msb) * 100 + BcdToDecimal(lsb)
  }

  /** For a valid BCD low byte the raw voltage splits back into the two bytes' values. */
  lemma RawVoltageSplit(msb: byte, lsb: byte)
    requires IsBcd(lsb)
    ensures RawVoltage(msb, lsb) / 100 == BcdToDecimal(msb) && RawVoltage(msb, lsb) % 100 == BcdToDecimal(lsb)
  {
    DivideHundreds(BcdToDecimal(msb), BcdToDecimal(lsb));
  }

  /** Every four-digit value is the raw voltage of exactly one pair of valid BCD bytes. */
  lemma RawVoltageRoundTrip(n: nat)
    requires n <= 9999
    ensures RawVoltage(BcdEncode(n / 100), BcdEncode(n % 100)) == n
  {
    DecodeEncode(n / 100);
    DecodeEncode(n % 100);
  }

  /** Two pairs of valid BCD bytes with the same raw voltage are the same pair. */
  lemma RawVoltageInjective(msb1: byte, lsb1: byte, msb2: byte, lsb2: byte)
    requires IsBcd(msb1) && IsBcd(lsb1) && IsBcd(msb2) && IsBcd(lsb2)
    requires RawVoltage(msb1, lsb1) == RawVoltage(msb2, lsb2)
    ensures msb1 == msb2 && lsb1 == lsb2
  {
    RawVoltageSplit(msb1, lsb1);
    RawVoltageSplit(msb2, lsb2);
    BcdInjective(msb1, msb2);
    BcdInjective(lsb1, lsb2);
  }

  /** The same raw voltage as meter_sim.py writes it (meter_sim.py:134), shifting without masking. */
  function SimRawVoltage(msb: byte, lsb: byte): int {
    ((msb >> 4) as int * 10 + (msb & 0x0F) as int) * 100 + ((lsb >> 4) as int * 10 + (lsb & 0x0F) as int)
  }

  /** The two drivers compute the same raw voltage for every pair of bytes. */
  lemma SimRawVoltageAgrees(msb: byte, lsb: byte)
    ensures SimRawVoltage(msb, lsb) == RawVoltage(msb, lsb)
  {
    assert (msb >> 4) & 0x0F == msb >> 4;
    assert (lsb >> 4) & 0x0F == lsb >> 4;
  }

  /**
   * What `read_cell_voltage` makes of the answer (meter_tests.py:90-97,
   * meter_sim.py:130-135): nothing without an answer whose CRC checks;
   * otherwise bytes 3 and 4, so a CRC-valid answer shorter than five bytes
   * makes the indexing raise.
   */
  function CellVoltage(response: Option<seq<byte>>): (r: Outcome<Option<int>>)
    ensures r == Done(None) <==> !Acknowledged(response)
    ensures r == Raised <==> Acknowledged(response) && |response.value| < 5
    ensures r.Done? && r.value.Some? ==> r.value.value == RawVoltage(response.value[3], response.value[4])
  {
    if Acknowledged(response) then
      var frame := response.value;
      if |frame| < 5 then Raised else Done(Some(RawVoltage(frame[3], frame[4])))
    else
      Done(None)
  }

  /** A meter's voltage reply carrying valid BCD bytes yields the four-digit value they encode. */
  lemma VoltageReplyRead(address: byte, n: nat)
    requires n <= 9999
    ensures var reply := OneRegisterReply(address, BcdEncode(n / 100), BcdEncode(n % 100));
      CellVoltage(Received(reply, VOLTAGE_REPLY_LENGTH)) == Done(Some(n))
  {
    RawVoltageRoundTrip(n);
  }

  /** A voltage reply corrupted in any single byte is rejected. */
  lemma CorruptedVoltageRejected(address: byte, hi: byte, lo: byte, i: nat, b: byte)
    ensures var reply := OneRegisterReply(address, hi, lo);
      i < |reply| && reply[i] != b ==> CellVoltage(Received(reply[i := b], VOLTAGE_REPLY_LENGTH)) == Done(None)
  {
    var reply := OneRegisterReply(address, hi, lo);
    if i < |reply| && reply[i] != b {
      CorruptedFrameRejected(reply, i, b);
      assert Received(reply[i := b], VOLTAGE_REPLY_LENGTH) == Some(reply[i := b]);
    }
  }

  /**
   * `read_cell_voltage` on the bus (meter_tests.py:84-98): the one-register
   * request, with the address truncated to a byte, goes out and at most seven
   * bytes of answer are taken; the answer's address is not checked.
   */
  method ReadCellVoltage(port: Port, address: int) returns (r: Outcome<Option<int>>)
    modifies port
    ensures r == CellVoltage(Received(Reply(old(port.pending), 0), VOLTAGE_REPLY_LENGTH))
    ensures port.sent == old(port.sent) + [VoltageRequest(Slot(address))]
    ensures port.pending == Drop(old(port.pending), 1)
  {
    var response := port.Exchange(VoltageRequest(Slot(address)), VOLTAGE_REPLY_LENGTH);
    if response.Some? && VerifyCrc(response.value) {
      var frame := response.value;
      if |frame| < 5 {
        return Raised;
      }
      var msb, lsb := frame[3], frame[4];
      r := Done(Some(BcdToDecimal(msb) * 100 + BcdToDecimal(lsb)));
    } else {
      r := Done(None);
    }
  }
}

=== FILE: wrappers.dfy ===
/** Small result types and sequence helpers shared by the whole model. */
module Wrappers {

  /** A value that may be missing (Python's `None`). */
  datatype Option<+T> = None | Some(value: T)

  /** The end of a Python call that may raise: it returns a value or raises an exception. */
  datatype Outcome<+T> = Done(value: T) | Raised

  /** Concatenation is associative (stated for any element type, so proofs need not look inside the elements). */
  lemma AppendAssoc<T>(a: seq<T>, b: seq<T>, c: seq<T>)
    ensures (a + b) + c == a + (b + c)
  {
  }

  /** `n` copies of one value (the same frame sent, or the same URL requested, `n` times). */
  function Repeat<T>(x: T, n: nat): (r: seq<T>)
    ensures |r| == n
    ensures forall k :: 0 <= k < n ==> r[k] == x
  {
    if n == 0 then [] else Repeat(x, n - 1) + [x]
  }
}
